=== FILE: README.md ===
# A Dafny model of the gotnodes validator dashboard

The dashboard shows Ethereum validators, Avalanche nodes and DefiLlama chain metrics. It is a
browser page (`app.js`) plus four Cloudflare Pages Functions that proxy upstream APIs. This
project models the parts of it that are plain computations once each upstream answer is a given
value:

- **Charts** (`functions/api/charts.js`):
  - coercing numbers (`toNum`) and timestamps (`toMs`);
  - choosing the series (`pickSeries`);
  - normalising points and sorting them stably by time;
  - keeping the last 180 points (`tail`);
  - the weekly open/high/low/close candles (`toWeeklyCandles`);
  - the chain check.

  The model has a reference definition of the candles (`Candles.WeeklyCandles`) and a method that
  follows the source's loops (`Candles.ToWeeklyCandles`), proved equal.
- **Page** (`app.js`):
  - parsing the pasted key and node-id lists;
  - `sanitizeEthPubkey` and `shortId`;
  - the ordered substring classifier behind the pill colours;
  - the pill label of a card;
  - the grid of exactly four cards and the four-entry caps.
- **Validators proxy** (`functions/api/eth.js`):
  - reading and sanitising the request;
  - the tier-error detector;
  - the v2 batch attempt;
  - the v1 fallback with its field fallbacks and 50-entry cap;
  - the three-way decision of `handler`;
  - the method gate.
- **DefiLlama proxy** (`functions/api/llama.js`):
  - the key check;
  - the chain default;
  - the `proGet` URL and its errors;
  - the last-30 series picker and the current TVL;
  - the fees and stablecoin parts, which may fail without failing the answer.
- **Glacier proxy** (`functions/api/avax.js`):
  - the key check;
  - node-id parsing;
  - the page-size clamp;
  - the request;
  - the four-record cap and its "—" defaults;
  - the 502 on a failed request;
  - the method gate.

## How the model is organised

There is one module per file.

- `Seqs` holds the generic array pipelines: `map`/`filter`, `slice(0, n)`, `slice(-n)`.
- `Text` holds the string operations: `trim`, ASCII case mapping, `includes`, `split` on a
  character and on runs of characters, decimal text, comma stripping.
- `Js` holds JavaScript values and the operators the handlers use: `?.`, `??`, `||`, `Number(x)`.
- `Http` holds requests, upstream replies as the handler observes them, `Promise.all`, and
  responses.
- `Points` holds the `{ t, v }` points and the stable sort.
- `Candles` holds the weekly candles.
- `Charts`, `App`, `Eth`, `Llama` and `Avax` follow the five source files.

Conventions:

- **Upstream calls.** Every upstream request is a value: a URL, or a `Call` datatype naming the
  endpoint, headers and body. A function parameter `fetch` maps it to a `Reply`. The `Reply` is
  a network failure, a non-2xx answer with its text, a 2xx answer whose body is not JSON, or a
  parsed body.
- **Before any request.** "Answered before any upstream request" is stated as: the response is
  the same for any two `fetch` functions.
- **Exceptions.** A handler that may throw returns an `Outcome`, which is either its value or the
  message of the Error thrown.
- **Conversions left abstract.** The runtime conversions the model does not spell out are
  parameters (`Js.Coerce`, or the `show` function it carries):
  - `Number(s)` on a string;
  - `String(v)` on a number that is not an integer, on an integer of magnitude 10^21 or more,
    on the infinities, and on an array or an object.

  `String(v)` on strings, booleans, null, undefined and the other integers is spelled out
  (`Js.StringOf`).
- **Exact conversions.** `Number(null)` is 0 and `Number(undefined)` is NaN, exactly as in
  JavaScript.
- **Timestamps and values.** Timestamps are integer milliseconds. Values are exact reals.

## Model

| member | source | states |
|---|---|---|
| Seqs.FilterMap | functions/api/charts.js:96-103 | the points kept are exactly the present results of the items; when every item yields one, the output is all of them in input order |
| Seqs.FilterMapConcat | functions/api/charts.js:96-103 | the normalisation loop keeps the relative order of its input: filtering a concatenation concatenates the filtered parts |
| Seqs.Take | app.js:335 | `slice(0, n)` is the first min(n, length) elements |
| Seqs.TakeLast | functions/api/charts.js:221-225 | `tail(arr, n)` is `arr` itself when it has at most n elements, otherwise exactly its last n elements in order |
| Seqs.TakeLastOfConcat | functions/api/charts.js:221-225 | elements in front of the last n never reach the tail |
| Seqs.FilterMapLast | functions/api/llama.js:28-37 | at most n values, each the value of one of the last n items, and every value of one of the last n items is among them |
| Seqs.FilterMapLastConcat | functions/api/llama.js:31-35 | within the last n items, the values of consecutive runs of items come out in item order |
| Seqs.FilterMapLastSingle | functions/api/llama.js:33-34 | one item contributes its value when it has one, and nothing otherwise |
| Seqs.FilterMapLastIgnoresOlder | functions/api/llama.js:31 | history older than the last n items cannot change the picked series |
| Seqs.FilterMapLastAllDefined | functions/api/llama.js:28-37 | when every item has a value, the series is the values of exactly the last n items, in order |
| Seqs.FilterMapLastNewest | functions/api/llama.js:31-35 | when the newest item has a value, it is the series' last value |
| Text.Trim | app.js:74 | `trim()` yields text that neither starts nor ends with white space and is no longer than the input |
| Text.TrimIsInfix | app.js:74 | `trim()` keeps the infix between the leading and the trailing white space, and removes only white space |
| Text.TrimmedIffUnpadded | app.js:74 | a string is left alone by `trim()` exactly when neither end is white space |
| Text.TrimIdempotent | app.js:74 | trimming twice is trimming once |
| Text.TrimEmptyIffBlank | app.js:75 | a string trims to "" exactly when it is all white space |
| Text.TrimKeepsCharacters | app.js:83-84 | trimming introduces no separator into a piece that had none |
| Text.ToLower | app.js:274 | the lower-cased text has the same length, no capitals, and the same letters up to case |
| Text.ToUpper | app.js:292 | the upper-cased text has the same length, no small letters, and the same letters up to case |
| Text.LowerOfUpper | app.js:274 | lower-casing an upper-cased text is lower-casing the text |
| Text.ToLowerConcat | functions/api/eth.js:27 | lower-casing distributes over concatenation |
| Text.ToLowerOfLower | functions/api/eth.js:27 | text without capitals is unchanged by lower-casing |
| Text.Contains | app.js:275-277 | `includes` holds exactly when the word occurs at some position |
| Text.MissingCharNotContained | app.js:275-277 | a text lacking one character of a word does not include the word |
| Text.ContainsInContext | functions/api/eth.js:28-30 | surrounding text does not hide an occurrence |
| Text.Decimal | functions/api/eth.js:151 | `${index}` is a non-empty run of digits without a leading zero |
| Text.DecimalRoundTrip | functions/api/eth.js:151 | reading the digits back gives the index, so distinct indices have distinct texts |
| Text.IntText | functions/api/eth.js:151 | `${status}` of a negative number is "-" and the digits of its magnitude |
| Text.StripCommas | functions/api/charts.js:215 | `replace(/,/g, "")` leaves no comma and keeps every other character with its count |
| Text.StripCommasConcat | functions/api/charts.js:215 | comma removal distributes over concatenation |
| Text.StripInsertedComma | functions/api/charts.js:215 | an inserted thousands separator disappears |
| Text.StripCommasNoComma | functions/api/charts.js:215 | text without commas is unchanged |
| Text.SplitAny | functions/api/avax.js:14 | `split(",")` gives at least one piece, and no piece contains the separator |
| Text.SplitRuns | app.js:83 | `split(/[\n,]+/)` gives at least one piece, and no piece contains a separator |
| Text.SplitJoin | functions/api/avax.js:14-22 | joining the pieces of `split(",")` with "," gives the input back |
| Text.SplitAnyConcat | functions/api/avax.js:14 | splitting at a separator splits the pieces: nothing crosses it |
| Text.SplitAnyNoSeparator | functions/api/avax.js:14 | text without the separator is one piece |
| Text.NonBlankTrimmed | app.js:84-85 | every token left after `map(trim).filter(Boolean)` is non-empty and trimmed |
| Text.NonBlankConcat | app.js:84-85 | `map(trim).filter(Boolean)` keeps the relative order of the pieces |
| Text.NonBlankSeparatorFree | app.js:84-85 | a kept token has no separator its piece lacked |
| Text.RunsAndSinglesAgree | app.js:82-85 | splitting on runs of separators and on single separators gives the same tokens once blanks are dropped |
| Text.Tokens | app.js:82-85 | every token is non-empty, trimmed and free of separators |
| Text.TokensConcat | app.js:82-85 | the tokens of `a<sep>b` are the tokens of a followed by those of b |
| Text.TokensOfPiece | app.js:82-85 | a separator-free text yields its trim, or nothing when it is blank |
| Points.SortByT | functions/api/charts.js:104 | the sorted series is ordered by time and is a permutation of the input |
| Points.SortByTStable | functions/api/charts.js:104 | for each timestamp, its points keep their input order |
| Points.InsertSorted | functions/api/charts.js:104 | one insertion step keeps the series ordered |
| Points.InsertPermutes | functions/api/charts.js:104 | one insertion step adds exactly the new point |
| Points.InsertWithT | functions/api/charts.js:104 | an inserted point goes after the points of equal time already placed |
| Points.SortedFirstIsEarliest | functions/api/charts.js:189-190 | after sorting, the first point is the earliest, and the first of the earliest in input order |
| Points.SortedLastIsLatest | functions/api/charts.js:189-191 | after sorting, the last point is the latest, and the last of the latest in input order |
| Candles.WeekStart | functions/api/charts.js:175-178 | the bucket key is a Monday 00:00 UTC at most one week before the point |
| Candles.WeekStartUnique | functions/api/charts.js:175-178 | that Monday is the only one with this property |
| Candles.Bucket | functions/api/charts.js:180-182 | a bucket holds only points of its week, and is non-empty when some point lies in that week |
| Candles.FirstSeen | functions/api/charts.js:173-183 | the map's keys are the week starts of the points, each once |
| Candles.InsertKey | functions/api/charts.js:186 | adding a key to an ascending list keeps it ascending, with the same keys plus the new one |
| Candles.SortKeys | functions/api/charts.js:186 | the sorted keys ascend strictly and are the same keys |
| Candles.AscendingUnique | functions/api/charts.js:186 | the key order is determined by the set of keys alone |
| Candles.MaxV | functions/api/charts.js:192-197 | the high is at least every value and is one of them |
| Candles.MinV | functions/api/charts.js:192-197 | the low is at most every value and is one of them |
| Candles.Keys | functions/api/charts.js:186 | the candle keys ascend strictly and are exactly the week starts of the points |
| Candles.WeeklyCandles | functions/api/charts.js:170-202 | one candle per distinct week start, in key order |
| Candles.CandleAt | functions/api/charts.js:187-199 | the candle at position j summarises the non-empty bucket of the j-th key |
| Candles.HighLow | functions/api/charts.js:192-197 | the `p.v > high` / `p.v < low` scan from ±Infinity ends with the extremes; an empty bucket leaves them infinite |
| Candles.MaxMinSnoc | functions/api/charts.js:195-196 | one more point updates the extremes by one comparison each |
| Candles.GroupByWeek | functions/api/charts.js:173-183 | the grouping loop builds, for each week start, the points of that week in input order |
| Candles.GroupStep | functions/api/charts.js:180-182 | one turn of the grouping loop keeps the grouping |
| Candles.CandlesOfBuckets | functions/api/charts.js:185-201 | the emitting loop produces the reference candles |
| Candles.CandleOfBucket | functions/api/charts.js:188-199 | the body of the emitting loop computes the candle of its bucket |
| Candles.ToWeeklyCandles | functions/api/charts.js:170-202 | the source's algorithm yields the reference candles, and no candles for no points |
| Candles.CandleKeys | functions/api/charts.js:186-199 | candle times ascend strictly; each is a Monday midnight at which some point's week starts |
| Candles.EveryWeekHasCandle | functions/api/charts.js:186-199 | every point's week has a candle |
| Candles.CandleCount | functions/api/charts.js:173-200 | the number of candles is the number of distinct week starts |
| Candles.CandleSummarises | functions/api/charts.js:189-199 | each candle covers exactly its week's points, each inside its week; open is the earliest point and close the latest (ties in input order); l <= o, c <= h and h, l are attained |
| Candles.CandleOfSummarises | functions/api/charts.js:188-199 | the candle of a non-empty bucket has its week as time, opens on the earliest point and closes on the latest, and its high and low are values of the bucket bounding all the others |
| Candles.BucketEmpty | functions/api/charts.js:180-182 | a week with no points has an empty bucket, so no candle |
| Candles.BucketComplete | functions/api/charts.js:180-182 | every point of a week is in that week's bucket |
| Charts.Cleaned | functions/api/charts.js:215 | the text handed to `Number` has no comma |
| Charts.ToNum | functions/api/charts.js:212-219 | null, undefined and infinities give null; finite numbers pass; other values give the parse of their trimmed comma-free text, and null when that is empty |
| Charts.ToNumIgnoresCommas | functions/api/charts.js:215 | "1,234" and "1234" read as the same number |
| Charts.Trunc | functions/api/charts.js:208-209 | `Math.trunc` rounds toward zero |
| Charts.ToMs | functions/api/charts.js:204-210 | null exactly when `toNum` is; trunc(n*1000) below 10^10, trunc(n) from there |
| Charts.SecondsAndMillisAgree | functions/api/charts.js:207-209 | from 1970-04-26 on, a date in whole seconds and the same date in milliseconds give the same timestamp |
| Charts.Candidate | functions/api/charts.js:162-165 | a candidate is a non-empty array found at the key or under `data` |
| Charts.PickSeries | functions/api/charts.js:160-168 | null exactly when no key has a candidate; otherwise the candidate of the first key, in list order, that has one |
| Charts.PickSeriesConcat | functions/api/charts.js:135-138 | `pickSeries(j, a) \|\| pickSeries(j, b)` is `pickSeries` over a then b |
| Charts.VolumeSeriesOf | functions/api/charts.js:135-138 | the volume series is looked up over the primary keys, then the secondary ones |
| Charts.MakePoint | functions/api/charts.js:100-102 | a point is made exactly when both the time and the value coerce |
| Charts.TvlDate | functions/api/charts.js:97 | the time of a TVL item is `date`, else `timestamp`, else null |
| Charts.TvlValue | functions/api/charts.js:98 | the value of a TVL item is `tvl`, else `totalLiquidityUSD`, else `value` or null |
| Charts.TvlPoint | functions/api/charts.js:97-101 | a TVL item gives a point exactly when its time and value coerce, and the point is made of those |
| Charts.VolDate | functions/api/charts.js:146-147 | the time of a volume item is the first of `date`, `timestamp`, `time`, `t` that is not null or undefined, and only when all four are missing the first element of an array item (null for any other item) |
| Charts.VolValue | functions/api/charts.js:148-149 | the volume of an item is the first of `totalVolume`, `volume`, `value`, `dailyVolume`, `v` that is not null or undefined, and only when all five are missing the second element of an array item (null for any other item) |
| Charts.VolPoint | functions/api/charts.js:146-153 | a volume item gives a point exactly when its time and volume coerce, and the point is made of those |
| Charts.Normalise | functions/api/charts.js:96-105 | the normalised series is sorted by time and is a permutation of the points the items yield |
| Charts.NormaliseKeeps | functions/api/charts.js:96-105 | a point is in the series exactly when some item yields it; for each timestamp the points keep item order |
| Charts.FirstOk | functions/api/charts.js:81-91 | the answer is the first 2xx reply, in URL order, whose body is accepted; none when no URL gives one |
| Charts.FetchArray | functions/api/charts.js:80-93 | the TVL loop stops at the first 2xx reply that is an array |
| Charts.FetchTruthy | functions/api/charts.js:122-132 | the volume loop ends with a truthy body exactly when some 2xx reply is truthy, and then with the first one |
| Charts.FirstOkPrefix | functions/api/charts.js:81-91 | once a prefix of the URLs has a hit, later URLs are never consulted |
| Charts.TvlUrls | functions/api/charts.js:67-78 | with a key, the pro URL carrying the encoded key as its first path segment comes first; the open historicalChainTvl URL is always the last resort |
| Charts.VolumeUrls | functions/api/charts.js:112-120 | with a key, the pro URL carrying the encoded key as its first path segment comes first; the open dexs overview URL is always the last resort |
| Charts.TvlSeries | functions/api/charts.js:62-106 | throws "tvl_upstream_unavailable" exactly when no URL gives an array; otherwise the series is the normalised points of the first array answer |
| Charts.VolumeSeries | functions/api/charts.js:108-158 | throws "volume_upstream_unavailable" exactly when no URL gives a truthy answer, "volume_series_missing" exactly when that answer holds no series; otherwise the series is the normalised points of that series |
| Charts.GetChainCharts | functions/api/charts.js:11-60 | 200 exactly when both series arrive, with the chain, the last 180 TVL points (sorted), the weekly candles of the last 180 volume points and the time; a TVL failure is a 502 `upstream_failed` with the TVL message, and a volume failure after a good TVL series a 502 with the volume message |
| Charts.Respond | functions/api/charts.js:11-19 | the caller's `try`/`catch` over both series: the first failure becomes 502 `upstream_failed` with its message, two successes become 200 with the trimmed series and candles |
| Charts.ChartsWithoutTvl | functions/api/charts.js:42-45 | when no TVL source answers with an array, a valid request is answered 502 `upstream_failed` with `tvl_upstream_unavailable`, whatever the volume sources say |
| Charts.KeyOf | functions/api/charts.js:9 | a non-empty key is passed through unchanged; the key is null exactly when it is missing or empty |
| Charts.OnRequest | functions/api/charts.js:1-20 | 400 exactly when the lower-cased chain is neither ethereum nor avalanche |
| Charts.ChainCaseIgnored | functions/api/charts.js:3-5 | the chain parameter is matched whatever its letter case |
| Charts.ChartsOfSeries | functions/api/charts.js:36-46 | when both series arrive, the answer is 200 with the last 180 TVL points and the weekly candles of the last 180 volume points |
| Charts.SuffixSorted | functions/api/charts.js:47 | the last 180 points of a sorted series are sorted |
| Charts.InvalidChainBeforeFetch | functions/api/charts.js:3-7 | an unsupported chain is answered before any upstream request |
| Charts.KeyedEndpointFirst | functions/api/charts.js:67-91 | with a key, a usable keyed answer is taken and the open endpoint is not consulted |
| App.ShortId | app.js:67-71 | unchanged exactly when at most keep+6 long; otherwise the first keep characters, "…", and the last four |
| App.TextOr | app.js:68 | `String(s \|\| "")`: "" for a falsy value, the text of a string, and `String(v)` of any other truthy value |
| App.SanitizeEthPubkey | app.js:73-79 | a key exactly when the trimmed text starts with "0x" and has at least 10 characters, and then it is the trimmed text |
| App.SanitizeIdempotent | app.js:73-79 | a sanitised key sanitises to itself |
| App.ParseEthPubkeys | app.js:81-93 | every output starts with "0x", has at least 10 characters, is trimmed, has no separator and is one of the input tokens |
| App.ParseEthPubkeysConcat | app.js:81-93 | the keys of the parts of the input come out in input order |
| App.ParseEthPubkeysPiece | app.js:81-93 | a separator-free part yields its trimmed text when that is a key, and nothing otherwise |
| App.NodeIdToken | app.js:100 | a token passes exactly when it starts with "NodeID-" |
| App.ParseAvaxNodeIds | app.js:95-101 | every output starts with "NodeID-", is trimmed, has no separator and is one of the input tokens |
| App.ParseAvaxNodeIdsConcat | app.js:95-101 | the node ids of the parts of the input come out in input order |
| App.ParseAvaxNodeIdsPiece | app.js:95-101 | a separator-free part yields its trimmed text exactly when that starts with "NodeID-" |
| App.SaveLists | app.js:509-510 | the saved lists are the first four parsed entries |
| App.PanelIds | app.js:346-347 | the panels ask for at most four non-empty saved ids, the first ones in order |
| App.PillClassFromStatus | app.js:273-279 | a text status is classified by its lower-cased form; a missing or falsy status is a warning |
| App.Classify | app.js:275-278 | ok exactly when an ok word occurs; bad exactly when a bad word occurs and no ok or warning word; warning otherwise |
| App.PillClassCaseInsensitive | app.js:274 | the colour ignores letter case |
| App.StatusClass | app.js:274 | a lower-case status is classified as it stands |
| App.StatusOnline | app.js:275 | "online" is ok |
| App.StatusOffline | app.js:277 | "offline" is bad |
| App.StatusUnknown | app.js:276 | "unknown" is a warning |
| App.ActiveBeatsOffline | app.js:275-277 | the ok rule is tried before the bad rule |
| App.ExitedIsBad | app.js:277 | "exited_unslashed" is bad although it contains "slashed" and no ok word |
| App.PendingIsWarning | app.js:276 | "pending_initialized" is a warning |
| App.EmptyIsWarning | app.js:278 | a status naming no state falls through to the warning colour |
| App.StatusOf | app.js:287 | the status is `status` when present, else `validationStatus` when present, else "unknown"; never null or undefined |
| App.CardPill | app.js:287-297 | `online === true` gives ONLINE/ok, `false` gives OFFLINE/bad; otherwise the label is the upper-cased status text and the colour comes from the status |
| App.PillMatchesLabel | app.js:290-297 | the colour is the classification of the card's own label |
| App.MakeCard | app.js:281-310 | cards are numbered from 1 and carry the pill above; the identifier (`pubkey` for eth, `nodeId` for avax) is shortened to 18 or 12 leading characters, and a missing one shows "—" |
| App.Slot | app.js:335-337 | slot i holds the i-th item when i is below four, the items are an array with an i-th item and that item is truthy; every other slot is an empty record |
| App.RenderGrid | app.js:332-340 | always four cards, the i-th made from slot i |
| App.RenderGridUsesFirstFour | app.js:335 | items after the fourth do not change the grid |
| App.NumericStatusPill | app.js:287-297 | a card whose status is an integer (as the v1 fallback may report) shows the integer's digits and the warning colour |
| App.IntTextNamesNoState | app.js:273-278 | the text of an integer is unchanged by both case mappings and holds none of the words that select the ok or bad colour |
| App.EmptyRecordCard | app.js:287-310 | an empty record shows "—" and an UNKNOWN warning pill |
| App.EmptySlotCard | app.js:337 | a padded slot shows "—" and an UNKNOWN warning pill |
| Eth.SelectorTierError | functions/api/eth.js:26-31 | true exactly when the lower-cased text contains one of the three tier phrases |
| Eth.TierErrorIgnoresCase | functions/api/eth.js:27 | letter case does not matter to the detector |
| Eth.TierErrorInContext | functions/api/eth.js:26-31 | a tier error stays one inside any surrounding text |
| Eth.EmptyIsNoTierError | functions/api/eth.js:26-31 | an empty failure text is not a tier error |
| Eth.RefusalIsTierError | functions/api/eth.js:5-6 | beaconcha.in's refusal text is detected |
| Eth.TokenNumber | functions/api/eth.js:57-58 | a GET token is kept exactly when its `Number` is an integer, and then as that number |
| Eth.SanitiseEntry | functions/api/eth.js:66-68 | an entry is kept exactly when its `Number` is a non-negative integer, and then as that number |
| Eth.ReadBody | functions/api/eth.js:45-71 | throws only for a POST body of null; the validators are the sanitised entries in order, every one the `Number` of an entry and every entry whose `Number` is a non-negative integer kept; the GET window is the parameter or "30d"; the POST window is the body's `window` when truthy, else "30d" |
| Eth.PostValidatorsConcat | functions/api/eth.js:61-68 | the POST path keeps the order and repetitions of the `validators` array |
| Eth.PostValidatorsOne | functions/api/eth.js:61-68 | one POST entry gives one validator when its `Number` is a non-negative integer, and none otherwise |
| Eth.GetValidatorsConcat | functions/api/eth.js:53-58 | the GET path keeps the order of the list |
| Eth.PostEntryCoercions | functions/api/eth.js:66-68 | `null` is validator 0 and `true` validator 1; negative and fractional entries are dropped |
| Eth.PageSize | functions/api/eth.js:86 | the v2 page size is in [1, 50], the list length when that fits |
| Eth.V1Auth | functions/api/eth.js:168-172 | the v1 header is `"Bearer " + key`, and it is left out exactly when the key is empty |
| Eth.GweiToEth | functions/api/eth.js:33-37 | null exactly when `Number(x)` is not finite, otherwise that number divided by 10^9; so null itself converts to 0 |
| Eth.MissingBalanceReadsZero | functions/api/eth.js:123-126 | a missing balance, made null by `?? null`, converts to 0 ETH |
| Eth.IntendedGweiToEth | functions/api/eth.js:33-37 | the corrected conversion: null exactly for a missing or non-finite value, otherwise the value divided by 10^9 |
| Eth.EthAmount | functions/api/eth.js:127-134 | "—" exactly when `Number` of the balance is not finite; otherwise an amount that is that number divided by 10^9 |
| Eth.IntendedEthAmount | functions/api/eth.js:133-134 | with the corrected conversion, "—" exactly for a missing or non-finite balance |
| Eth.PercentOr | functions/api/eth.js:135-136 | "—" exactly when the total is missing; otherwise the percentage made from the total |
| Eth.V2Record | functions/api/eth.js:121-138 | id, status and online fall back to null; the balances are the converted `balances.current` and `balances.effective`; APY, ROI and finality come from the shared answer with "—" defaults |
| Eth.EntryWithoutBalance | functions/api/eth.js:122-134 | an overview entry without balances shows 0 ETH for both balances |
| Eth.IntendedEntryWithoutBalance | functions/api/eth.js:122-134 | with the corrected conversion the same entry shows "—" for both balances |
| Eth.TryV2Entries | functions/api/eth.js:114-139 | with two 2xx answers and an array `data`, one record per entry whose id, status and online flag are the entry's `validator.index`, `status` and `online`, null when missing |
| Eth.TryV2NoData | functions/api/eth.js:121 | with two 2xx answers and a missing or falsy `data`, the result is a success with no records |
| Eth.OverviewCall | functions/api/eth.js:75-91 | the overview request goes to the v2 validators endpoint with the bearer key, a page size of the validator count clamped to 1..50, and the validators as identifiers |
| Eth.ApyCall | functions/api/eth.js:93-101 | the APY request goes to the apy-roi endpoint with the bearer key, the validators as identifiers and the window as evaluation window |
| Eth.TryV2 | functions/api/eth.js:73-142 | a rejected request throws; a non-2xx overview is reported first, then a non-2xx APY answer, each with its status and text; when both are 2xx it succeeds exactly when `data` is an array or missing, with one record per overview entry, in order, each made with the shared APY answer |
| Eth.V1Status | functions/api/eth.js:180 | the status falls back through data.status, status, data.state, "unknown" |
| Eth.V1Index | functions/api/eth.js:181 | the id is `data.validatorindex`, else `data.index`, else `validatorindex`, else the requested index, skipping null and undefined at each step |
| Eth.CurrentBalance | functions/api/eth.js:187-189 | the balance is the newest snapshot's, else the validator answer's, else null |
| Eth.EffectiveBalance | functions/api/eth.js:190 | the effective balance is `effectivebalance`, else `effective_balance`, else null |
| Eth.V1Record | functions/api/eth.js:179-207 | the v1 record has online null, "—" for APY, ROI and finality, the status and id fallbacks, and the converted balances |
| Eth.V1Task | functions/api/eth.js:144-162 | a non-2xx validator answer throws with the index, status and text; a rejected request or a body that is not JSON throws; with a 2xx validator answer it succeeds exactly when the balance request is not rejected, and the record is made from both answers |
| Eth.BalanceOf | functions/api/eth.js:156-162 | a 2xx balance answer gives its body; a non-2xx answer or a body that is not JSON gives null |
| Eth.BalanceRow | functions/api/eth.js:187 | the first element of the balance answer's `data` array (undefined when the array is empty); null when `data` is not an array |
| Eth.FallbackV1 | functions/api/eth.js:164-212 | at most 50 records, one per requested index in order; it succeeds exactly when the work for every one of the first 50 indices succeeds, and a failure carries the message of the first index, in list order, whose work throws |
| Eth.FallbackSucceeds | functions/api/eth.js:174-209 | when every one of the first 50 validator requests gets a 2xx answer and no balance request is rejected, the fallback returns one record per index, each made from that index's two answers |
| Eth.FallbackWithoutBalance | functions/api/eth.js:180-196 | a v1 answer without data and no balance answer shows 0 ETH for both balances, the requested index and "unknown" |
| Eth.IntendedFallbackWithoutBalance | functions/api/eth.js:187-196 | with the corrected conversion the same record keeps "—" for both balances |
| Eth.Handler | functions/api/eth.js:214-243 | a request body that throws makes the handler throw with its message; no validators gives an empty 200; v2 data, or v1 with the note after a tier error, or a 502 naming the failed request |
| Eth.EmptyListBeforeFetch | functions/api/eth.js:218-220 | an empty list is answered before any upstream request |
| Eth.NoteMeansTierError | functions/api/eth.js:228-236 | the fallback note is sent only after v2 failed with a tier error |
| Eth.OnRequest | functions/api/eth.js:245-274 | 204 exactly for OPTIONS, 405 exactly for methods other than GET, POST and OPTIONS; for GET and POST the handler's response when it returns one, and a 502 "eth function crashed" with its message when it throws |
| Eth.KeyOf | functions/api/eth.js:215 | the configured key when set, "" otherwise |
| Llama.ToNum | functions/api/llama.js:23-26 | `Number(x)` when finite: numbers pass, null is 0, booleans are 1 and 0, strings (and arrays and objects through their text) parse; undefined and infinities give null |
| Llama.ValueOf | functions/api/llama.js:32-33 | the value is the `valueKey` property when a key is given, else the first present of `tvl`, `totalLiquidityUSD`, `value`, `fees`, `revenue` |
| Llama.Pick30dSeries | functions/api/llama.js:28-37 | at most 30 values, each the value of one of the last 30 items, and every numeric one of those is kept; a non-array gives none |
| Llama.PickKeepsOrder | functions/api/llama.js:31-35 | within the last 30 items, the values come out in item order |
| Llama.PickOneItem | functions/api/llama.js:32-34 | one item contributes its value when numeric, and nothing otherwise |
| Llama.PickIgnoresOlderItems | functions/api/llama.js:31 | history before the last 30 items does not matter |
| Llama.PickAllNumeric | functions/api/llama.js:28-37 | when every item is numeric, the series is the values of the last 30 items, in order |
| Llama.TvlCurrent | functions/api/llama.js:105 | null exactly for an empty series, otherwise its last value |
| Llama.CurrentIsNewest | functions/api/llama.js:104-105 | the current TVL is the newest item's TVL when it has one |
| Llama.FeesOf | functions/api/llama.js:118-122 | the summary reads `totalFees24h`, else `fees24h`; `totalRevenue24h`, else `revenue24h`; and `change_1d` |
| Llama.FeesKeepsOrder | functions/api/llama.js:126-129 | within the last 30 rows, the series of two row lists in a row is the series of the first followed by the series of the second |
| Llama.FeeValue | functions/api/llama.js:128 | an array row reads as `toNum` of its second element; any other row reads as `toNum(null)`, which is 0 |
| Llama.IntendedFeeValue | functions/api/llama.js:128 | the corrected row reading: an array row reads as `toNum` of its second element; any other row is dropped |
| Llama.FeesSeries | functions/api/llama.js:124-130 | at most 30 values, each the second element of one of the last 30 array rows, or 0 for a row that is not an array; every finite one is kept |
| Llama.MalformedRowReadsZero | functions/api/llama.js:128 | a row that is not an array adds a 0 to the series |
| Llama.IntendedFeesSeries | functions/api/llama.js:124-130 | the corrected series: at most 30 values, each the second element of one of the last 30 array rows, and every finite second element of an array row among the last 30 kept |
| Llama.IntendedFeesKeepsOrder | functions/api/llama.js:126-129 | the corrected series keeps row order too: the series of two row lists in a row is the series of the first followed by that of the second |
| Llama.MalformedRowDropped | functions/api/llama.js:128 | with the corrected series, a row that is not an array adds nothing |
| Llama.ProGetUrl | functions/api/llama.js:40 | a "/" is put between key and path only when the path lacks one |
| Llama.OneSlash | functions/api/llama.js:40 | exactly one "/" separates key and path, whether or not the path brings its own |
| Llama.ProGet | functions/api/llama.js:39-67 | the body exactly when the answer is 2xx; a non-2xx answer throws the trimmed message with path, status, status text and body |
| Llama.TextOrEmpty | functions/api/llama.js:149-150 | `String(x \|\| "")`: "" for a falsy value, the text of a string, and `String(x)` of any other truthy value |
| Llama.StableOf | functions/api/llama.js:145-154 | dominance and total circulating are `toNum` of their fields; the largest stablecoin is present exactly when the answer names a truthy one, with its name and symbol as text ("" when falsy) and its circulating amount and dominance through `toNum` |
| Llama.FeesPart | functions/api/llama.js:108-134 | a failed fees request leaves both the summary and the series empty; a successful one gives the summary of its answer and the series of its `totalDataChart` |
| Llama.StablePart | functions/api/llama.js:137-157 | the stablecoin part is null exactly when its request failed; otherwise it is the stablecoin record of the answer |
| Llama.KeyOf | functions/api/llama.js:85 | `VITE_LLAMA_API_KEY` when non-empty, else `LLAMA_API_KEY` when non-empty; none when both are empty or absent |
| Llama.OnRequest | functions/api/llama.js:69-177 | 204 for OPTIONS; 500 without a key; otherwise 200 exactly when the history request succeeds, with the chain defaulting to "Ethereum", the TVL series picked from the history, the fees summary and series from the fees request, the stablecoin part from its request, and the current TVL from the series; a failed history request is a 502 "llama function crashed" carrying its message |
| Llama.CurrentTvlOfHistory | functions/api/llama.js:104-105 | when the newest history item has a numeric TVL, the answer is 200 and its current TVL is that number |
| Llama.MissingKeyBeforeFetch | functions/api/llama.js:85-90 | a missing key is answered with 500 before any upstream request |
| Llama.SideRequestsMayFail | functions/api/llama.js:131-157 | failing fees and stablecoin requests still give a 200 with those parts empty |
| Avax.GetNodeIds | functions/api/avax.js:13-14 | every GET id is non-empty, trimmed and free of commas |
| Avax.GetNodeIdsAreTokens | functions/api/avax.js:14 | splitting at each comma and dropping blanks gives the same ids as treating runs of commas as one |
| Avax.GetNodeIdsConcat | functions/api/avax.js:14 | the ids of `a,b` are those of a followed by those of b |
| Avax.NodeIds | functions/api/avax.js:10-18 | throws only for a POST body of null; GET ids come from the parameter; POST ids are the body's `nodeIds` when it is an array, none otherwise |
| Avax.JoinIdsSplit | functions/api/avax.js:22 | when no id's text holds a comma, splitting `ids.join(",")` at commas gives each id's text, in order |
| Avax.JoinIdsIsJoined | functions/api/avax.js:22 | `ids.join(",")` is the text of each id with a comma between neighbours |
| Avax.SplitJoined | functions/api/avax.js:22 | texts without commas, joined with commas, split at commas into the same texts |
| Avax.JoinPart | functions/api/avax.js:22 | `join` writes null and undefined as "" and any other value as `String(v)` |
| Avax.JoinedIdsSplitBack | functions/api/avax.js:13-22 | parsed GET ids joined into the upstream `nodeIds` parameter split back into the same ids |
| Avax.PageSize | functions/api/avax.js:23 | 10 for no ids, the count when it is at most 100, and 100 above that |
| Avax.GlacierCall | functions/api/avax.js:21-30 | the key header; `nodeIds` is the joined ids, sent exactly when the list is non-empty; `pageSize` is the count clamped to [1, 100], 10 for no ids |
| Avax.AvaxAmount | functions/api/avax.js:42-46 | "—" exactly when `Number(x)` is not finite, otherwise the value divided by 10^9 |
| Avax.RecordOf | functions/api/avax.js:48-63 | node id and validation status are passed through, null when missing; delegator count and fee are passed through, "—" when missing; staked and delegated amounts and both rewards are `Number` of the field divided by 10^9, or "—" when not finite |
| Avax.Records | functions/api/avax.js:48-64 | at most four records, the first validators in upstream order; a truthy non-array throws |
| Avax.Handler | functions/api/avax.js:1-70 | 500 without a key; with a key it throws exactly when reading the ids throws, the request is rejected, the body is not JSON or `validators` is a truthy non-array; a non-2xx answer is a 502 with its text; a 200 holds the records of at most four validators |
| Avax.OnRequest | functions/api/avax.js:72-93 | 204 for OPTIONS, 405 for methods other than GET and POST, otherwise the handler |
| Avax.MissingKeyBeforeFetch | functions/api/avax.js:2-8 | a missing key is answered with 500 before any upstream request |
| Avax.FirstFourInOrder | functions/api/avax.js:48 | with more than four validators the first four are kept, in order |
| Js.Coalesce | functions/api/charts.js:98-99 | `a ?? b ?? ...` is the first operand that is neither null nor undefined, else the last |
| Js.OrNull | functions/api/eth.js:122 | a missing value (null or undefined) becomes null; a present one passes unchanged |
| Js.JsNumber | functions/api/llama.js:24 | `Number(null)` is 0, `Number(undefined)` is NaN, booleans are 1 and 0, numbers pass, strings parse, and arrays and objects parse through their text |
| Js.ArrayOr | functions/api/eth.js:121 | `(v \|\| []).map` fails exactly for a truthy non-array |
| Js.OrDash | functions/api/eth.js:137 | `v ?? "—"` is "—" exactly for null and undefined, and the value itself otherwise |
| Js.StringOf | app.js:291-292 | `String(v)`: a string is itself; true/false, null and undefined are their names; an integer below 10^21 in magnitude is its decimal digits with a leading minus when negative; everything else goes through `show` |
| Js.StringOfNatReadsBack | app.js:291-292 | the text `String` writes for a non-negative integer is all digits and reads back as the same number |
| Http.ParamOr | functions/api/llama.js:93 | an absent or empty parameter gives the default |
| Http.All | functions/api/eth.js:174-209 | every value in order when no task throws; otherwise the failure of the first task that throws |

## Left out

- Js.StringOf: `String(n)` of a number that is not an integer, or of magnitude 10^21 or more, and of the infinities is left to the `show` parameter. So the pill label of such a status is unconstrained, and so is its colour unless the text `show` gives is known.
- Network, cache and response I/O:
  - `fetch` is a parameter;
  - the Cloudflare cache (`cache.match`/`put` in `proGet`) is not modelled;
  - CORS and content headers are not modelled;
  - `Response` objects are reduced to a status and a JSON body datatype.
- Concurrency: `Promise.all` and `Promise.allSettled` are modelled as sequential evaluation.
  - When both chart series fail, the answer carries the TVL failure. In the source, which
    failure wins depends on timing.
  - The v1 fallback reports the failure of the first index, in list order, that throws.
- The page's DOM rendering, canvas sparklines, mini metrics, event binding, timers and
  localStorage. These are UI glue. Only the computations feeding them are modelled.
- Decimal formatting: `toFixed` in `fmtEth`, the APY/ROI percentages and the AVAX amounts. An
  amount is the exact quotient (`Js.Shown.Amount`) and a percentage carries its raw value.
  Division is exact real division, not IEEE double.
- Eth.Handler: the `|| "unknown"` fallback for an empty failure source is modelled but
  unreachable, since `tryV2` always names "overview" or "apy". The contract states the reachable
  cases only.
- Js.JsNumber: `Number(s)` on a string and `String(v)` on an array or object are parameters. The
  model does not spell out how `Number` trims, reads hex, exponents and `Infinity`, or maps "" to 0.
- Text.ToLower: case mapping covers ASCII letters only. Every word the classifier and the tier
  detector look for is ASCII.
- Text.ToUpper: covers ASCII letters only, so a status with other letters gets a different pill
  label: JavaScript upper-cases "é" to "É" and "ß" to "SS", while the model leaves both alone.
- App.ShortId: lengths count Unicode scalar values, while JavaScript counts UTF-16 code units. They
  differ outside the Basic Multilingual Plane: "0x" followed by four emoji is 10 long in
  JavaScript and 6 here, and `slice` may cut a surrogate pair in the source.
- App.SanitizeEthPubkey: the 10-character minimum counts Unicode scalar values, not UTF-16 code
  units, so a text with characters outside the Basic Multilingual Plane may pass the source's
  check and fail the model's ("0x" followed by four emoji).
- Candles.WeekStart: the key is computed by day arithmetic on the whole integer line. `Date.UTC` maps
  years 0 to 99 to 1900 to 1999, so for a point in those years (t = -62135596800000, say, which
  is 0001-01-01) the source keys it in 1901. Beyond 8.64e15 ms in either direction the source's
  `Date` is invalid and the key is NaN, reported as the text "NaN".
- Text.Decimal: `${n}` is modelled for integers. JavaScript's exponent form for magnitudes of
  10^21 and more is not modelled.
- The text of the runtime's own errors: a rejected fetch, a JSON syntax error, a TypeError. One
  constant (`Http.RuntimeError`) stands for all of them. `String(e)` for an Error with an empty
  message is not distinguished.
- Avax.Handler: the source does not catch exceptions in the Glacier proxy, so the platform's own
  error page is what the client sees. The model returns `Thrown` and says nothing about that page.
- URLs: the beaconcha.in and Glacier requests are datatypes (`Eth.Call`, `Avax.Call`) naming the
  endpoint, headers and body, not URL strings. The DefiLlama and charts URLs are strings, with
  `encodeURIComponent` as a parameter.
- Candles.ToWeeklyCandles: the argument is always an array here, because `tail` returns one. The
  non-array case of the guard therefore has no counterpart.
- Dates are integer milliseconds. Calendar arithmetic is replaced by the equivalent day count:
  1970-01-01 was a Thursday. `Date.UTC` month and day normalisation is not modelled.
- Llama.ToNum: `Number(null)` is 0, so a null value reads as 0, exactly as in the source. This is
  the root of the `llama.js:128` finding below.

## Findings

| source | as written | input that shows it | evidently intended | confidence | as-written member | corrected member |
|---|---|---|---|---|---|---|
| functions/api/eth.js:122-127 | `gweiToEth(v?.balances?.current ?? null)` turns a missing balance into `Number(null) / 1e9 = 0`, so the record shows an amount of 0 ETH | an overview entry `{}` without `balances` | a missing balance shows "—", as the `balEth === null ? "—"` test expects | not executed | Eth.EntryWithoutBalance | Eth.IntendedEntryWithoutBalance |
| functions/api/eth.js:187-196 | `gweiToEth(balRow?.balance ?? v?.data?.balance ?? null)` is 0, never null, for a missing balance, so the `"—"` the record starts from is overwritten by 0 ETH | a v1 answer `{}` with a failed balance request | a missing balance keeps "—" | not executed | Eth.FallbackWithoutBalance | Eth.IntendedFallbackWithoutBalance |
| functions/api/llama.js:128 | `toNum(Array.isArray(row) ? row[1] : null)` turns a non-array row into `Number(null) = 0`, which the `!= null` filter keeps | a `totalDataChart` of `["n/a"]` | rows that are not `[date, value]` pairs are dropped | not executed | Llama.MalformedRowReadsZero | Llama.MalformedRowDropped |

The handlers are modelled as written: the records use `Eth.GweiToEth` and the fees part uses
`Llama.FeesSeries`. The corrected conversions (`Eth.IntendedGweiToEth`, `Eth.IntendedEthAmount`)
and the corrected series (`Llama.IntendedFeesSeries`) stand beside them, with the intended
properties proved about them.

=== FILE: app.dfy ===
/** The dashboard page (`app.js`): parsing the identifiers a user pastes in Edit Mode, shortening
    identifiers for display, classifying a validator status into a coloured pill, and laying the
    validator records out on a grid of exactly four cards. */
module App {
  import opened Seqs
  import opened Text
  import opened Js

  /** "…" (U+2026), the ellipsis `shortId` puts between the kept head and tail. */
  const Ellipsis: char := '\U{2026}'

  /** `shortId(x, keep)` on the text x: short enough text is kept, longer text becomes its first
      `keep` characters, the ellipsis and its last four characters. */
  function ShortId(x: string, keep: nat): (r: string)
    ensures r == x <==> |x| <= keep + 6
    ensures |r| <= |x| && |r| <= keep + 6
    ensures |x| > keep + 6 ==>
              && |r| == keep + 5
              && r[..keep] == x[..keep]
              && r[keep] == Ellipsis
              && r[keep + 1..] == x[|x| - 4..]
  {
    if |x| <= keep + 6 then x else x[..keep] + [Ellipsis] + x[|x| - 4..]
  }

  /** Shortening twice is shortening once. */
  lemma {:induction false} ShortIdIdempotent(x: string, keep: nat)
    ensures ShortId(ShortId(x, keep), keep) == ShortId(x, keep)
  {
  }

  /** `String(v || "")`: the text of a truthy value, the empty text otherwise. */
  function TextOr(v: JsValue, show: JsValue -> string): (r: string)
    ensures v.JStr? ==> r == v.s
    ensures !Truthy(v) ==> r == ""
    ensures Truthy(v) ==> r == StringOf(v, show)
  {
    if Truthy(v) then StringOf(v, show) else ""
  }

  /** `sanitizeEthPubkey`: the trimmed text when it starts with "0x" and has at least 10
      characters, null otherwise. */
  function SanitizeEthPubkey(x: string): (r: Option<string>)
    ensures r.Some? <==> StartsWith(Trim(x), "0x") && |Trim(x)| >= 10
    ensures r.Some? ==> r.value == Trim(x)
  {
    var s := Trim(x);
    if s == "" then None
    else if !StartsWith(s, "0x") then None
    else if |s| < 10 then None
    else Some(s)
  }

  /** A sanitised key sanitises to itself. */
  lemma {:induction false} SanitizeIdempotent(x: string)
    requires SanitizeEthPubkey(x).Some?
    ensures SanitizeEthPubkey(SanitizeEthPubkey(x).value) == SanitizeEthPubkey(x)
  {
    TrimIdempotent(x);
  }

  /** The separators of the pasted lists: runs of newlines and commas. */
  const ListSeparators: set<char> := {'\n', ','}

  /** `parseEthPubkeys`: split on runs of separators, trim, drop blanks, keep the tokens that
      sanitise. */
  function ParseEthPubkeys(raw: string): (r: seq<string>)
    ensures forall i :: 0 <= i < |r| ==>
              && StartsWith(r[i], "0x") && |r[i]| >= 10
              && IsTrimmed(r[i]) && NoneIn(r[i], ListSeparators)
    ensures forall i :: 0 <= i < |r| ==> r[i] in Tokens(raw, ListSeparators)
  {
    var tokens := Tokens(raw, ListSeparators);
    var r := FilterMap(tokens, SanitizeEthPubkey);
    forall i | 0 <= i < |r|
      ensures StartsWith(r[i], "0x") && |r[i]| >= 10 && IsTrimmed(r[i])
      ensures NoneIn(r[i], ListSeparators) && r[i] in tokens
    {
      assert r[i] in r;
      var j :| 0 <= j < |tokens| && SanitizeEthPubkey(tokens[j]) == Some(r[i]);
      var t := tokens[j];
      assert IsTrimmed(t) && NoneIn(t, ListSeparators);
      assert r[i] == t;
    }
    r
  }

  /** Separators split the input into independent parts, parsed in order: the output keeps the
      relative order of the keys in the input. */
  lemma {:induction false} ParseEthPubkeysConcat(a: string, c: char, b: string)
    requires c in ListSeparators
    ensures ParseEthPubkeys(a + [c] + b) == ParseEthPubkeys(a) + ParseEthPubkeys(b)
  {
    TokensConcat(a, c, b, ListSeparators);
    FilterMapConcat(Tokens(a, ListSeparators), Tokens(b, ListSeparators), SanitizeEthPubkey);
  }

  /** A part without separators yields its trimmed text when that is a key, and nothing otherwise. */
  lemma {:induction false} ParseEthPubkeysPiece(s: string)
    requires NoneIn(s, ListSeparators)
    ensures ParseEthPubkeys(s) == if SanitizeEthPubkey(s).Some? then [Trim(s)] else []
  {
    TokensOfPiece(s, ListSeparators);
    TrimIdempotent(s);
  }

  /** The filter `parseAvaxNodeIds` applies to each token. */
  function NodeIdToken(t: string): (r: Option<string>)
    ensures r.Some? <==> StartsWith(t, "NodeID-")
    ensures r.Some? ==> r.value == t
  {
    if StartsWith(t, "NodeID-") then Some(t) else None
  }

  /** `parseAvaxNodeIds`: split on runs of separators, trim, drop blanks, keep the tokens that
      start with "NodeID-". */
  function ParseAvaxNodeIds(raw: string): (r: seq<string>)
    ensures forall i :: 0 <= i < |r| ==>
              StartsWith(r[i], "NodeID-") && IsTrimmed(r[i]) && NoneIn(r[i], ListSeparators)
    ensures forall i :: 0 <= i < |r| ==> r[i] in Tokens(raw, ListSeparators)
  {
    var tokens := Tokens(raw, ListSeparators);
    var r := FilterMap(tokens, NodeIdToken);
    forall i | 0 <= i < |r|
      ensures StartsWith(r[i], "NodeID-") && IsTrimmed(r[i]) && NoneIn(r[i], ListSeparators) && r[i] in tokens
    {
      assert r[i] in r;
      var j :| 0 <= j < |tokens| && NodeIdToken(tokens[j]) == Some(r[i]);
    }
    r
  }

  /** As for keys, the node ids of the parts of the input come out in input order. */
  lemma {:induction false} ParseAvaxNodeIdsConcat(a: string, c: char, b: string)
    requires c in ListSeparators
    ensures ParseAvaxNodeIds(a + [c] + b) == ParseAvaxNodeIds(a) + ParseAvaxNodeIds(b)
  {
    TokensConcat(a, c, b, ListSeparators);
    FilterMapConcat(Tokens(a, ListSeparators), Tokens(b, ListSeparators), NodeIdToken);
  }

  /** A part without separators yields its trimmed text when that starts with "NodeID-". */
  lemma {:induction false} ParseAvaxNodeIdsPiece(s: string)
    requires NoneIn(s, ListSeparators)
    ensures ParseAvaxNodeIds(s) == if Trim(s) != "" && StartsWith(Trim(s), "NodeID-") then [Trim(s)] else []
  {
    TokensOfPiece(s, ListSeparators);
  }

  /** The most identifiers a panel shows. */
  const Slots: nat := 4

  /** Save & Apply: the parsed lists, each cut to its first four entries. */
  function SaveLists(ethInput: string, avaxInput: string): (r: (seq<string>, seq<string>))
    ensures |r.0| == if |ParseEthPubkeys(ethInput)| <= Slots then |ParseEthPubkeys(ethInput)| else Slots
    ensures r.0 == ParseEthPubkeys(ethInput)[..|r.0|]
    ensures |r.1| == if |ParseAvaxNodeIds(avaxInput)| <= Slots then |ParseAvaxNodeIds(avaxInput)| else Slots
    ensures r.1 == ParseAvaxNodeIds(avaxInput)[..|r.1|]
  {
    (Take(ParseEthPubkeys(ethInput), Slots), Take(ParseAvaxNodeIds(avaxInput), Slots))
  }

  function NonEmpty(s: string): Option<string> {
    if s != "" then Some(s) else None
  }

  /** `(ids || []).filter(Boolean).slice(0, 4)`: the first four non-empty saved identifiers. */
  function PanelIds(ids: seq<string>): (r: seq<string>)
    ensures |r| <= Slots && |r| <= |FilterMap(ids, NonEmpty)|
    ensures forall i :: 0 <= i < |r| ==> r[i] != "" && r[i] in ids
    ensures r == FilterMap(ids, NonEmpty)[..|r|]
  {
    var kept := FilterMap(ids, NonEmpty);
    var r := Take(kept, Slots);
    forall i | 0 <= i < |r|
      ensures r[i] != "" && r[i] in ids
    {
      assert r[i] in kept;
    }
    r
  }

  /** The pill colours: `pill-ok`, `pill-warn`, `pill-bad`. */
  datatype PillClass = PillOk | PillWarn | PillBad

  /** s contains one of the words. */
  predicate HasAny(s: string, words: seq<string>) {
    exists i :: 0 <= i < |words| && Contains(s, words[i])
  }

  const OkWords: seq<string> := ["active", "online", "validating"]
  const WarnWords: seq<string> := ["pending", "unknown"]
  const BadWords: seq<string> := ["offline", "exited", "slashed", "error"]

  /** The rules of `pillClassFromStatus` on lower-cased text, tried in order. */
  function Classify(s: string): (r: PillClass)
    ensures r == PillOk <==> HasAny(s, OkWords)
    ensures r == PillBad <==> !HasAny(s, OkWords) && !HasAny(s, WarnWords) && HasAny(s, BadWords)
    ensures r == PillWarn <==> !HasAny(s, OkWords) && (HasAny(s, WarnWords) || !HasAny(s, BadWords))
  {
    assert HasAny(s, OkWords) <==> Contains(s, "active") || Contains(s, "online") || Contains(s, "validating") by {
      assert OkWords[0] == "active" && OkWords[1] == "online" && OkWords[2] == "validating";
    }
    assert HasAny(s, WarnWords) <==> Contains(s, "pending") || Contains(s, "unknown") by {
      assert WarnWords[0] == "pending" && WarnWords[1] == "unknown";
    }
    assert HasAny(s, BadWords) <==>
             Contains(s, "offline") || Contains(s, "exited") || Contains(s, "slashed") || Contains(s, "error") by {
      assert BadWords[0] == "offline" && BadWords[1] == "exited" && BadWords[2] == "slashed" && BadWords[3] == "error";
    }
    if Contains(s, "active") || Contains(s, "online") || Contains(s, "validating") then PillOk
    else if Contains(s, "pending") || Contains(s, "unknown") then PillWarn
    else if Contains(s, "offline") || Contains(s, "exited") || Contains(s, "slashed") || Contains(s, "error") then PillBad
    else PillWarn
  }

  /** `pillClassFromStatus(status)`: a text status is classified by its lower-cased form, and a
      missing or falsy status reads as the empty text, which is a warning. */
  function PillClassFromStatus(status: JsValue, show: JsValue -> string): (r: PillClass)
    ensures status.JStr? ==> r == Classify(ToLower(status.s))
    ensures !Truthy(status) ==> r == PillWarn
  {
    ClassifyEmpty();
    assert ToLower("") == "";
    Classify(ToLower(TextOr(status, show)))
  }

  /** The classifier ignores letter case. */
  lemma {:induction false} PillClassCaseInsensitive(s: string, show: JsValue -> string)
    ensures PillClassFromStatus(JStr(ToUpper(s)), show) == PillClassFromStatus(JStr(s), show)
  {
    LowerOfUpper(s);
  }

  /** A text lacking, for each word, one of that word's characters contains none of the words. */
  lemma {:induction false} LacksWords(s: string, words: seq<string>, cs: seq<char>)
    requires |cs| == |words|
    requires forall i :: 0 <= i < |words| ==> cs[i] in words[i] && cs[i] !in s
    ensures !HasAny(s, words)
  {
    forall i | 0 <= i < |words|
      ensures !Contains(s, words[i])
    {
      MissingCharNotContained(s, words[i], cs[i]);
    }
  }

  /** A status that is already lower-case text is classified as it stands. */
  lemma {:induction false} StatusClass(s: string, show: JsValue -> string)
    requires forall i :: 0 <= i < |s| ==> !('A' <= s[i] <= 'Z')
    ensures PillClassFromStatus(JStr(s), show) == Classify(s)
  {
    ToLowerOfLower(s);
  }

  lemma {:induction false} ClassifyOnline()
    ensures Classify("online") == PillOk
  {
    assert InfixAt("online", "online", 0);
  }

  /** The status "online" is ok. */
  lemma {:induction false} StatusOnline(show: JsValue -> string)
    ensures PillClassFromStatus(JStr("online"), show) == PillOk
  {
    StatusClass("online", show);
    ClassifyOnline();
  }

  lemma {:induction false} ClassifyOffline()
    ensures Classify("offline") == PillBad
  {
    MissingCharNotContained("offline", "active", 'a');
    assert "offline"[0..6][1] == 'f' && "offline"[1..7][0] == 'f';
    assert !InfixAt("offline", "online", 0) && !InfixAt("offline", "online", 1);
    assert !Contains("offline", "validating");
    MissingCharNotContained("offline", "pending", 'p');
    MissingCharNotContained("offline", "unknown", 'u');
    assert InfixAt("offline", "offline", 0);
  }

  /** The status "offline" is bad: it contains none of the ok or warning words. */
  lemma {:induction false} StatusOffline(show: JsValue -> string)
    ensures PillClassFromStatus(JStr("offline"), show) == PillBad
  {
    StatusClass("offline", show);
    ClassifyOffline();
  }

  lemma {:induction false} ClassifyUnknown()
    ensures Classify("unknown") == PillWarn
  {
    MissingCharNotContained("unknown", "active", 'a');
    MissingCharNotContained("unknown", "online", 'l');
    MissingCharNotContained("unknown", "validating", 'a');
    assert InfixAt("unknown", "unknown", 0);
  }

  /** The status "unknown" is a warning. */
  lemma {:induction false} StatusUnknown(show: JsValue -> string)
    ensures PillClassFromStatus(JStr("unknown"), show) == PillWarn
  {
    StatusClass("unknown", show);
    ClassifyUnknown();
  }

  lemma {:induction false} ClassifyActiveOffline()
    ensures Classify("active_offline") == PillOk
  {
    assert InfixAt("active_offline", "active", 0);
  }

  /** Rules are tried in order: a status naming an active and an offline state is ok. */
  lemma {:induction false} ActiveBeatsOffline(show: JsValue -> string)
    ensures PillClassFromStatus(JStr("active_offline"), show) == PillOk
  {
    StatusClass("active_offline", show);
    ClassifyActiveOffline();
  }

  lemma {:induction false} ClassifyExited()
    ensures Classify("exited_unslashed") == PillBad
  {
    LacksWords("exited_unslashed", OkWords, ['c', 'o', 'v']);
    LacksWords("exited_unslashed", WarnWords, ['p', 'k']);
    assert InfixAt("exited_unslashed", "exited", 0);
    assert BadWords[1] == "exited";
  }

  /** An exited validator is bad, even when the status also says "unslashed". */
  lemma {:induction false} ExitedIsBad(show: JsValue -> string)
    ensures PillClassFromStatus(JStr("exited_unslashed"), show) == PillBad
  {
    StatusClass("exited_unslashed", show);
    ClassifyExited();
  }

  lemma {:induction false} ClassifyPending()
    ensures Classify("pending_initialized") == PillWarn
  {
    LacksWords("pending_initialized", OkWords, ['c', 'o', 'v']);
    assert InfixAt("pending_initialized", "pending", 0);
    assert WarnWords[0] == "pending";
  }

  /** A pending validator is a warning. */
  lemma {:induction false} PendingIsWarning(show: JsValue -> string)
    ensures PillClassFromStatus(JStr("pending_initialized"), show) == PillWarn
  {
    StatusClass("pending_initialized", show);
    ClassifyPending();
  }

  lemma {:induction false} ClassifyEmpty()
    ensures Classify("") == PillWarn
  {
    assert !HasAny("", OkWords) && !HasAny("", BadWords);
  }

  /** An empty status names no state and falls through to the warning colour. */
  lemma {:induction false} EmptyIsWarning(show: JsValue -> string)
    ensures PillClassFromStatus(JStr(""), show) == PillWarn
  {
    StatusClass("", show);
    ClassifyEmpty();
  }

  datatype Kind = EthCard | AvaxCard

  datatype Pill = Pill(text: string, cls: PillClass)

  /** `it.status ?? it.validationStatus ?? "unknown"`. */
  function StatusOf(it: JsValue): (r: JsValue)
    ensures !IsNullish(r)
    ensures !IsNullish(Field(it, "status")) ==> r == Field(it, "status")
    ensures IsNullish(Field(it, "status")) && !IsNullish(Field(it, "validationStatus")) ==> r == Field(it, "validationStatus")
    ensures IsNullish(Field(it, "status")) && IsNullish(Field(it, "validationStatus")) ==> r == JStr("unknown")
  {
    var ss := [Field(it, "status"), Field(it, "validationStatus"), JStr("unknown")];
    assert ss[1] == Field(it, "validationStatus");
    Coalesce(ss)
  }

  /** The pill of `makeCard`: an eth card with a boolean `online` shows ONLINE or OFFLINE;
      every other card shows its status upper-cased, and the colour comes from the classifier. */
  function CardPill(kind: Kind, it: JsValue, show: JsValue -> string): (r: Pill)
    ensures kind == EthCard && Field(it, "online") == JBool(true) ==> r == Pill("ONLINE", PillOk)
    ensures kind == EthCard && Field(it, "online") == JBool(false) ==> r == Pill("OFFLINE", PillBad)
    ensures (kind == AvaxCard || !Field(it, "online").JBool?) ==>
              r.cls == PillClassFromStatus(StatusOf(it), show)
    ensures (kind == AvaxCard || !Field(it, "online").JBool?) ==>
              r.text == ToUpper(StringOf(StatusOf(it), show))
    ensures (kind == AvaxCard || !Field(it, "online").JBool?) && StatusOf(it).JStr? ==>
              r.text == ToUpper(StatusOf(it).s)
  {
    var status := StatusOf(it);
    var online := Field(it, "online");
    var text :=
      if kind == EthCard && online == JBool(true) then "ONLINE"
      else if kind == EthCard && online == JBool(false) then "OFFLINE"
      else ToUpper(StringOf(status, show));
    var cls := PillClassFromStatus(
      if kind == EthCard && online == JBool(true) then JStr("online")
      else if kind == EthCard && online == JBool(false) then JStr("offline")
      else status, show);
    StatusOnline(show);
    StatusOffline(show);
    Pill(text, cls)
  }

  /** The fixed labels ONLINE and OFFLINE read as the words they stand for. */
  lemma {:induction false} LabelOnline()
    ensures Classify(ToLower("ONLINE")) == PillOk
  {
    assert ToLower("ONLINE") == "online";
    ClassifyOnline();
  }

  lemma {:induction false} LabelOffline()
    ensures Classify(ToLower("OFFLINE")) == PillBad
  {
    assert ToLower("OFFLINE") == "offline";
    ClassifyOffline();
  }

  /** The colour of a pill is what the classifier says about its own label, whenever the label
      comes from a flag or a text status. */
  lemma {:induction false} PillMatchesLabel(kind: Kind, it: JsValue, show: JsValue -> string)
    requires StatusOf(it).JStr? || (kind == EthCard && Field(it, "online").JBool?)
    ensures CardPill(kind, it, show).cls == Classify(ToLower(CardPill(kind, it, show).text))
  {
    var p := CardPill(kind, it, show);
    if kind == EthCard && Field(it, "online") == JBool(true) {
      LabelOnline();
    } else if kind == EthCard && Field(it, "online") == JBool(false) {
      LabelOffline();
    } else {
      LowerOfUpper(StatusOf(it).s);
    }
  }

  /** A text without lower-case letters contains none of a list of lower-case words. */
  lemma {:induction false} NoLetterNoWord(s: string, words: seq<string>)
    requires forall i :: 0 <= i < |s| ==> !('a' <= s[i] <= 'z')
    requires forall j :: 0 <= j < |words| ==> |words[j]| > 0 && 'a' <= words[j][0] <= 'z'
    ensures !HasAny(s, words)
  {
    forall j | 0 <= j < |words|
      ensures !Contains(s, words[j])
    {
      MissingCharNotContained(s, words[j], words[j][0]);
    }
  }

  /** The text of an integer: digits and a minus sign, left alone by both case mappings and
      naming no pill state. */
  lemma {:induction false} IntTextNamesNoState(k: int)
    ensures ToUpper(IntText(k)) == IntText(k) && ToLower(IntText(k)) == IntText(k)
    ensures !HasAny(IntText(k), OkWords) && !HasAny(IntText(k), BadWords)
  {
    var t := IntText(k);
    var d := Decimal(if k >= 0 then k else -k);
    assert forall i :: 0 <= i < |t| ==> t[i] == '-' || '0' <= t[i] <= '9' by {
      if k < 0 {
        assert t == "-" + d;
        assert forall i :: 1 <= i < |t| ==> t[i] == d[i - 1];
      }
    }
    assert ToUpper(t) == t by {
      assert forall i :: 0 <= i < |t| ==> ToUpper(t)[i] == t[i];
    }
    assert ToLower(t) == t by {
      assert forall i :: 0 <= i < |t| ==> ToLower(t)[i] == t[i];
    }
    assert OkWords[0][0] == 'a' && OkWords[1][0] == 'o' && OkWords[2][0] == 'v';
    NoLetterNoWord(t, OkWords);
    assert BadWords[0][0] == 'o' && BadWords[1][0] == 'e' && BadWords[2][0] == 's' && BadWords[3][0] == 'e';
    NoLetterNoWord(t, BadWords);
  }

  /** A numeric status, as the v1 fallback may report, shows its digits and, naming no state,
      takes the warning colour. */
  lemma {:induction false} NumericStatusPill(kind: Kind, it: JsValue, k: int, show: JsValue -> string)
    requires kind == AvaxCard || !Field(it, "online").JBool?
    requires StatusOf(it) == JNum(k as real) && -ExponentFrom < k as real < ExponentFrom
    ensures CardPill(kind, it, show) == Pill(IntText(k), PillWarn)
  {
    var t := IntText(k);
    assert (k as real).Floor == k;
    assert StringOf(StatusOf(it), show) == t;
    IntTextNamesNoState(k);
    if k != 0 {
      assert TextOr(StatusOf(it), show) == t;
      assert Classify(t) == PillWarn;
    }
  }

  /** One card: its number in the grid, the shortened identifier and the pill. */
  datatype Card = Card(number: nat, id: string, pill: Pill)

  /** `makeCard(type, it, idx)`: eth cards shorten `pubkey` to 18 leading characters, avax cards
      shorten `nodeId` to 12; a missing identifier shows "—". */
  function MakeCard(kind: Kind, it: JsValue, idx: nat, show: JsValue -> string): (r: Card)
    ensures r.number == idx + 1
    ensures r.pill == CardPill(kind, it, show)
    ensures IsNullish(Field(it, IdField(kind))) ==> r.id == "—"
    ensures Field(it, IdField(kind)).JStr? ==> r.id == ShortId(Field(it, IdField(kind)).s, IdKeep(kind))
  {
    var id := Field(it, IdField(kind));
    var shown := Coalesce([id, JStr("—")]);
    assert IsNullish(id) ==> shown == JStr("—");
    assert id.JStr? ==> shown == id;
    Card(idx + 1, ShortId(TextOr(shown, show), IdKeep(kind)), CardPill(kind, it, show))
  }

  /** The identifier field of a card. */
  function IdField(kind: Kind): string {
    if kind == EthCard then "pubkey" else "nodeId"
  }

  /** How many leading characters of the identifier a card keeps. */
  function IdKeep(kind: Kind): nat {
    if kind == EthCard then 18 else 12
  }

  /** `list[i] || {}` where `list` is the first four items of an array, or empty. */
  function Slot(items: JsValue, i: nat): (r: JsValue)
    ensures i >= Slots ==> r == JObj(map[])
    ensures i < Slots && items.JArr? && i < |items.items| && Truthy(items.items[i]) ==> r == items.items[i]
    ensures !(i < Slots && items.JArr? && i < |items.items| && Truthy(items.items[i])) ==> r == JObj(map[])
  {
    var list := if items.JArr? then Take(items.items, Slots) else [];
    if i < |list| && Truthy(list[i]) then list[i] else JObj(map[])
  }

  /** `renderGrid`: always four cards, numbered 1 to 4, one per slot. */
  function RenderGrid(kind: Kind, items: JsValue, show: JsValue -> string): (r: seq<Card>)
    ensures |r| == Slots
    ensures forall i :: 0 <= i < Slots ==> r[i] == MakeCard(kind, Slot(items, i), i, show)
  {
    seq(Slots, i requires 0 <= i < Slots => MakeCard(kind, Slot(items, i), i, show))
  }

  /** Only the first four items matter: more items than slots do not change the grid. */
  lemma {:induction false} RenderGridUsesFirstFour(kind: Kind, xs: seq<JsValue>, show: JsValue -> string)
    requires |xs| >= Slots
    ensures RenderGrid(kind, JArr(xs), show) == RenderGrid(kind, JArr(xs[..Slots]), show)
  {
    var a := RenderGrid(kind, JArr(xs), show);
    var b := RenderGrid(kind, JArr(xs[..Slots]), show);
    forall i | 0 <= i < Slots
      ensures a[i] == b[i]
    {
      SlotOfPrefix(xs, i);
    }
  }

  lemma {:induction false} SlotOfPrefix(xs: seq<JsValue>, i: nat)
    requires |xs| >= Slots && i < Slots
    ensures Slot(JArr(xs), i) == Slot(JArr(xs[..Slots]), i)
  {
    assert Take(xs, Slots) == xs[..Slots] == Take(xs[..Slots], Slots);
  }

  /** An empty record `{}` makes the card "—" with an UNKNOWN warning pill. */
  lemma {:induction false} EmptyRecordCard(kind: Kind, idx: nat, show: JsValue -> string)
    ensures MakeCard(kind, JObj(map[]), idx, show).id == "—"
    ensures MakeCard(kind, JObj(map[]), idx, show).pill == Pill("UNKNOWN", PillWarn)
  {
    EmptyRecordId(kind, idx, show);
    EmptyRecordPill(kind, show);
  }

  lemma {:induction false} EmptyRecordId(kind: Kind, idx: nat, show: JsValue -> string)
    ensures MakeCard(kind, JObj(map[]), idx, show).id == "—"
  {
    var it := JObj(map[]);
    var keep := if kind == EthCard then 18 else 12;
    assert Field(it, "pubkey") == JUndef && Field(it, "nodeId") == JUndef;
    assert Coalesce([JUndef, JStr("—")]) == JStr("—");
    assert TextOr(JStr("—"), show) == "—";
    assert ShortId("—", keep) == "—";
  }

  lemma {:induction false} EmptyRecordPill(kind: Kind, show: JsValue -> string)
    ensures CardPill(kind, JObj(map[]), show) == Pill("UNKNOWN", PillWarn)
  {
    var it := JObj(map[]);
    assert Field(it, "online") == JUndef;
    assert Field(it, "status") == JUndef && Field(it, "validationStatus") == JUndef;
    assert StatusOf(it) == JStr("unknown");
    assert ToUpper("unknown") == "UNKNOWN";
    StatusUnknown(show);
  }

  /** A slot past the end of the items (or of a non-array) is padded with an empty record: it
      shows "—" for its identifier and an UNKNOWN warning pill. */
  lemma {:induction false} EmptySlotCard(kind: Kind, items: JsValue, i: nat, show: JsValue -> string)
    requires i < Slots
    requires !items.JArr? || i >= |items.items|
    ensures RenderGrid(kind, items, show)[i].id == "—"
    ensures RenderGrid(kind, items, show)[i].pill == Pill("UNKNOWN", PillWarn)
  {
    assert Slot(items, i) == JObj(map[]);
    EmptyRecordCard(kind, i, show);
  }
}

=== FILE: avax.dfy ===
/** The Avalanche validators endpoint (`functions/api/avax.js`): checks for a Glacier API key,
    reads the requested node ids, asks Glacier for the validators of mainnet once, and answers
    with at most four records. The Glacier request is a `Call` answered by the oracle `fetch`. */
module Avax {
  import opened Seqs
  import opened Text
  import opened Js
  import opened Http

  /** The most records the answer holds. */
  const MaxRecords: nat := 4

  /** The largest Glacier page the endpoint asks for. */
  const MaxPage: nat := 100

  /** The page size when no node ids are given. */
  const DefaultPage: nat := 10

  // ---------------------------------------------------------------------------------------------
  // Node ids

  /** `ids.split(",").map(s => s.trim()).filter(Boolean)`: the GET node ids. */
  function GetNodeIds(raw: string): (r: seq<string>)
    ensures forall i :: 0 <= i < |r| ==> r[i] != "" && IsTrimmed(r[i]) && ',' !in r[i]
  {
    var r := NonBlank(SplitAny(raw, {','}));
    NonBlankTrimmed(SplitAny(raw, {','}));
    NonBlankSeparatorFree(SplitAny(raw, {','}), {','});
    assert forall i :: 0 <= i < |r| ==> NoneIn(r[i], {','});
    r
  }

  /** Splitting at each comma and dropping blanks gives the same ids as treating a run of commas
      as one separator. */
  lemma {:induction false} GetNodeIdsAreTokens(raw: string)
    ensures GetNodeIds(raw) == Tokens(raw, {','})
  {
    RunsAndSinglesAgree(raw, {','});
  }

  /** The ids of `a,b` are those of a followed by those of b. */
  lemma {:induction false} GetNodeIdsConcat(a: string, b: string)
    ensures GetNodeIds(a + [','] + b) == GetNodeIds(a) + GetNodeIds(b)
  {
    GetNodeIdsAreTokens(a + [','] + b);
    GetNodeIdsAreTokens(a);
    GetNodeIdsAreTokens(b);
    TokensConcat(a, ',', b, {','});
  }

  /** Text ids as JSON strings. */
  function AsJs(ids: seq<string>): (r: seq<JsValue>)
    ensures |r| == |ids|
    ensures forall i :: 0 <= i < |ids| ==> r[i] == JStr(ids[i])
  {
    seq(|ids|, i requires 0 <= i < |ids| => JStr(ids[i]))
  }

  /** The node ids of a request: the GET parameter as text, or the POST body's `nodeIds` array as
      it stands. A POST body that is JSON `null` makes `body.nodeIds` throw. */
  function NodeIds(req: Request): (r: Outcome<seq<JsValue>>)
    ensures r.Thrown? <==> req.verb != Get && req.body == Some(JNull)
    ensures r.Done? && req.verb == Get ==>
              r.value == AsJs(GetNodeIds(ParamOr(req, "nodeIds", "")))
    ensures r.Done? && req.verb != Get ==>
              r.value == (if Field(BodyOrEmpty(req), "nodeIds").JArr? then Field(BodyOrEmpty(req), "nodeIds").items else [])
  {
    if req.verb == Get then
      Done(AsJs(GetNodeIds(ParamOr(req, "nodeIds", ""))))
    else
      var body := BodyOrEmpty(req);
      if body.JNull? then Thrown(RuntimeError)
      else
        var vs := Field(body, "nodeIds");
        Done(if vs.JArr? then vs.items else [])
  }

  // ---------------------------------------------------------------------------------------------
  // The Glacier request

  /** `String(x)` of an element of `Array.prototype.join`: null and undefined are empty. */
  function JoinPart(v: JsValue, show: JsValue -> string): (r: string)
    ensures IsNullish(v) ==> r == ""
    ensures v.JStr? ==> r == v.s
    ensures !IsNullish(v) ==> r == StringOf(v, show)
  {
    if IsNullish(v) then "" else StringOf(v, show)
  }

  /** `ids.join(",")`. */
  function JoinIds(ids: seq<JsValue>, show: JsValue -> string): string {
    if |ids| == 0 then ""
    else if |ids| == 1 then JoinPart(ids[0], show)
    else JoinIds(ids[..|ids| - 1], show) + [','] + JoinPart(ids[|ids| - 1], show)
  }

  /** The text `join` writes for each id. */
  function Parts(ids: seq<JsValue>, show: JsValue -> string): (r: seq<string>)
    ensures |r| == |ids|
    ensures forall i :: 0 <= i < |ids| ==> r[i] == JoinPart(ids[i], show)
  {
    seq(|ids|, i requires 0 <= i < |ids| => JoinPart(ids[i], show))
  }

  /** Splitting the joined ids at each comma gives back the text of every id, in order, as long
      as no id's text has a comma of its own. */
  lemma {:induction false} JoinIdsSplit(ids: seq<JsValue>, show: JsValue -> string)
    requires |ids| > 0
    requires forall i :: 0 <= i < |ids| ==> NoneIn(JoinPart(ids[i], show), {','})
    ensures SplitAny(JoinIds(ids, show), {','}) == Parts(ids, show)
  {
    JoinIdsIsJoined(ids, show);
    SplitJoined(Parts(ids, show));
  }

  /** Texts joined with commas between them. */
  function Joined(ps: seq<string>): string {
    if |ps| == 0 then ""
    else if |ps| == 1 then ps[0]
    else Joined(ps[..|ps| - 1]) + [','] + ps[|ps| - 1]
  }

  /** `join` writes the text of each id with commas between them. */
  lemma {:induction false} JoinIdsIsJoined(ids: seq<JsValue>, show: JsValue -> string)
    ensures JoinIds(ids, show) == Joined(Parts(ids, show))
    decreases |ids|
  {
    var n := |ids|;
    if n > 1 {
      var init := ids[..n - 1];
      JoinIdsIsJoined(init, show);
      var ps := Parts(ids, show);
      assert ps[..n - 1] == Parts(init, show);
    }
  }

  /** Comma-joined texts without commas of their own split back into those texts. */
  lemma {:induction false} SplitJoined(ps: seq<string>)
    requires |ps| > 0
    requires forall i :: 0 <= i < |ps| ==> NoneIn(ps[i], {','})
    ensures SplitAny(Joined(ps), {','}) == ps
    decreases |ps|
  {
    var n := |ps|;
    if n == 1 {
      SplitAnyNoSeparator(ps[0], {','});
    } else {
      var init := ps[..n - 1];
      SplitJoined(init);
      SplitAppend(Joined(init), init, ps[n - 1]);
      assert init + [ps[n - 1]] == ps;
    }
  }

  /** One more comma-free piece after a comma adds one more piece to the split. */
  lemma {:induction false} SplitAppend(a: string, ps: seq<string>, last: string)
    requires SplitAny(a, {','}) == ps
    requires NoneIn(last, {','})
    ensures SplitAny(a + [','] + last, {','}) == ps + [last]
  {
    SplitAnyNoSeparator(last, {','});
    SplitAnyConcat(a, ',', last, {','});
  }

  /** GET ids come back unchanged from the `nodeIds` parameter of the Glacier request: joining
      the parsed ids and splitting again gives the same ids. */
  lemma {:induction false} JoinedIdsSplitBack(ids: seq<string>, show: JsValue -> string)
    requires forall i :: 0 <= i < |ids| ==> ids[i] != "" && IsTrimmed(ids[i]) && ',' !in ids[i]
    ensures GetNodeIds(JoinIds(AsJs(ids), show)) == ids
    decreases |ids|
  {
    var vs := AsJs(ids);
    var n := |ids|;
    if n == 0 {
      NoIdsInEmpty();
    } else if n == 1 {
      assert JoinIds(vs, show) == ids[0];
      OneIdSplitsBack(ids[0]);
    } else {
      var init := ids[..n - 1];
      forall i | 0 <= i < |init| ensures init[i] != "" && IsTrimmed(init[i]) && ',' !in init[i] {
        assert init[i] == ids[i];
      }
      JoinedIdsSplitBack(init, show);
      var j := JoinIds(AsJs(init), show);
      var last := ids[n - 1];
      assert JoinIds(vs, show) == j + [','] + last by {
        JoinStep(ids, show);
      }
      SplitBackStep(j, init, last);
      InitLast(ids);
    }
  }

  /** The inductive step: appending a comma and one more plain id to a joined list appends that
      id to the parsed ids. */
  lemma SplitBackStep(j: string, init: seq<string>, last: string)
    requires GetNodeIds(j) == init
    requires last != "" && IsTrimmed(last) && ',' !in last
    ensures GetNodeIds(j + [','] + last) == init + [last]
  {
    OneIdSplitsBack(last);
    GetNodeIdsConcat(j, last);
  }

  /** An empty parameter gives no ids. */
  lemma NoIdsInEmpty()
    ensures GetNodeIds("") == []
  {
    GetNodeIdsAreTokens("");
    TokensOfPiece("", {','});
    TrimEmptyIffBlank("");
  }

  /** Joining n > 1 text ids is joining the first n - 1, a comma, and the last. */
  lemma {:induction false} JoinStep(ids: seq<string>, show: JsValue -> string)
    requires |ids| > 1
    ensures JoinIds(AsJs(ids), show) == JoinIds(AsJs(ids[..|ids| - 1]), show) + [','] + ids[|ids| - 1]
  {
    var vs := AsJs(ids);
    assert vs[..|ids| - 1] == AsJs(ids[..|ids| - 1]);
  }

  /** A single id with no comma and no surrounding space parses to itself. */
  lemma {:induction false} OneIdSplitsBack(id: string)
    requires id != "" && IsTrimmed(id) && ',' !in id
    ensures GetNodeIds(id) == [id]
  {
    assert NoneIn(id, {','});
    TokensOfPiece(id, {','});
    GetNodeIdsAreTokens(id);
  }

  /** `Math.min(100, Math.max(1, n || 10))`: the Glacier page size for n node ids. */
  function PageSize(n: nat): (r: nat)
    ensures 1 <= r <= MaxPage
    ensures n == 0 ==> r == DefaultPage
    ensures 1 <= n <= MaxPage ==> r == n
    ensures n > MaxPage ==> r == MaxPage
  {
    var len := if n == 0 then 10 else n;
    var atLeastOne := if len > 1 then len else 1;
    if atLeastOne < 100 then atLeastOne else 100
  }

  /** The one Glacier request: the API key header, the `nodeIds` query parameter (left out for
      an empty list) and the `pageSize` parameter. */
  datatype Call = Call(apiKey: string, nodeIds: Option<string>, pageSize: nat)

  function GlacierCall(key: string, ids: seq<JsValue>, show: JsValue -> string): (r: Call)
    ensures r.nodeIds.Some? <==> |ids| > 0
    ensures r.nodeIds.Some? ==> r.nodeIds.value == JoinIds(ids, show)
    ensures 1 <= r.pageSize <= MaxPage
    ensures r.pageSize == PageSize(|ids|)
    ensures r.apiKey == key
  {
    Call(key, if |ids| > 0 then Some(JoinIds(ids, show)) else None, PageSize(|ids|))
  }

  // ---------------------------------------------------------------------------------------------
  // The answer

  /** One validator as the front end receives it. */
  datatype Record = Record(nodeId: JsValue, validationStatus: JsValue,
                           amountStakedAvax: Shown, amountDelegatedAvax: Shown,
                           delegatorCount: Shown, delegationFeePct: Shown,
                           validationRewardAvax: Shown, delegationRewardAvax: Shown)

  const NAvaxPerAvax: real := 1000000000.0

  /** `nAvaxToAvax(x)` followed by the `=== null ? "—"` test: an amount in AVAX, or "—" when
      `Number(x)` is not finite (decimal formatting is not modelled). */
  function AvaxAmount(x: JsValue, co: Coerce): (r: Shown)
    ensures r == Dash <==> JsNumber(x, co).None?
    ensures r != Dash ==> r.Amount? && r.units * NAvaxPerAvax == JsNumber(x, co).value
  {
    match JsNumber(x, co)
    case Some(n) => Amount(n / NAvaxPerAvax)
    case None => Dash
  }

  /** s shows the nAVAX amount x: "—" exactly when `Number(x)` is not finite, otherwise that
      number in AVAX. */
  predicate ShowsAvax(s: Shown, x: JsValue, co: Coerce) {
    && (s == Dash <==> JsNumber(x, co).None?)
    && (s != Dash ==> s.Amount? && s.units * NAvaxPerAvax == JsNumber(x, co).value)
  }

  /** The record of one Glacier validator. */
  function RecordOf(v: JsValue, co: Coerce): (r: Record)
    ensures r.nodeId == (if IsNullish(Field(v, "nodeId")) then JNull else Field(v, "nodeId"))
    ensures r.delegatorCount == Dash <==> IsNullish(Field(v, "delegatorCount"))
    ensures r.delegationFeePct == Dash <==> IsNullish(Field(v, "delegationFee"))
    ensures r.validationStatus == (if IsNullish(Field(v, "validationStatus")) then JNull else Field(v, "validationStatus"))
    ensures !IsNullish(Field(v, "delegatorCount")) ==> r.delegatorCount == Raw(Field(v, "delegatorCount"))
    ensures !IsNullish(Field(v, "delegationFee")) ==> r.delegationFeePct == Raw(Field(v, "delegationFee"))
    ensures ShowsAvax(r.amountStakedAvax, Field(v, "amountStaked"), co)
    ensures ShowsAvax(r.amountDelegatedAvax, Field(v, "amountDelegated"), co)
    ensures ShowsAvax(r.validationRewardAvax, Path(v, ["rewards", "validationRewardAmount"]), co)
    ensures ShowsAvax(r.delegationRewardAvax, Path(v, ["rewards", "delegationRewardAmount"]), co)
  {
    Record(OrNull(Field(v, "nodeId")),
           OrNull(Field(v, "validationStatus")),
           AvaxAmount(Field(v, "amountStaked"), co),
           AvaxAmount(Field(v, "amountDelegated"), co),
           OrDash(Field(v, "delegatorCount")),
           OrDash(Field(v, "delegationFee")),
           AvaxAmount(Path(v, ["rewards", "validationRewardAmount"]), co),
           AvaxAmount(Path(v, ["rewards", "delegationRewardAmount"]), co))
  }

  /** `(json?.validators || []).slice(0, 4).map(...)`: the records of the first four validators,
      in upstream order; a truthy `validators` that is not an array throws. */
  function Records(json: JsValue, co: Coerce): (r: Outcome<seq<Record>>)
    ensures r.Thrown? <==> ArrayOr(Field(json, "validators")).None?
    ensures r.Done? ==>
              var vs := ArrayOr(Field(json, "validators")).value;
              && |r.value| == (if |vs| <= MaxRecords then |vs| else MaxRecords)
              && forall i :: 0 <= i < |r.value| ==> r.value[i] == RecordOf(vs[i], co)
  {
    match ArrayOr(Field(json, "validators"))
    case None => Thrown(RuntimeError)
    case Some(vs) =>
      var first := Take(vs, MaxRecords);
      Done(seq(|first|, i requires 0 <= i < |first| => RecordOf(first[i], co)))
  }

  datatype AvaxBody =
    | Validators(validators: seq<Record>)
    | Failed(error: string, detail: string)
    | MissingKey(error: string)
    | NoContent
    | PlainText(text: string)

  /** `handler`: a missing key is a 500 before anything else; then one Glacier request, whose
      non-2xx answer is a 502 carrying its text. The handler has no catch, so a rejected fetch,
      an unparsable body or a malformed `validators` escapes as an exception. */
  function Handler(req: Request, key: Option<string>, fetch: Call -> Reply, co: Coerce): (r: Outcome<Response<AvaxBody>>)
    ensures (key.None? || key.value == "") ==> r == Done(Response(500, MissingKey("Missing GLACIER_API_KEY env var")))
    ensures r.Done? ==> r.value.status in {200, 500, 502}
    ensures key.Some? && key.value != "" && NodeIds(req).Done? ==>
              var reply := fetch(GlacierCall(key.value, NodeIds(req).value, co.show));
              && (reply.NotOk? ==> r == Done(Response(502, Failed("glacier validators failed", reply.text))))
              && (reply.Ok? && Records(reply.body, co).Done? ==>
                    r == Done(Response(200, Validators(Records(reply.body, co).value))))
    ensures r.Done? && r.value.status == 200 ==> r.value.body.Validators? && |r.value.body.validators| <= MaxRecords
    ensures key.Some? && key.value != "" && NodeIds(req).Thrown? ==> r == Thrown(NodeIds(req).message)
    ensures key.Some? && key.value != "" && NodeIds(req).Done? ==>
              var reply := fetch(GlacierCall(key.value, NodeIds(req).value, co.show));
              (r.Thrown? <==> reply.NetworkError? || reply.BadJson? || (reply.Ok? && Records(reply.body, co).Thrown?))
  {
    if key.None? || key.value == "" then Done(Response(500, MissingKey("Missing GLACIER_API_KEY env var")))
    else
      match NodeIds(req)
      case Thrown(m) => Thrown(m)
      case Done(ids) =>
        match fetch(GlacierCall(key.value, ids, co.show))
        case NetworkError => Thrown(RuntimeError)
        case NotOk(_, _, t) => Done(Response(502, Failed("glacier validators failed", t)))
        case BadJson => Thrown(RuntimeError)
        case Ok(json) =>
          match Records(json, co)
          case Thrown(m) => Thrown(m)
          case Done(records) => Done(Response(200, Validators(records)))
  }

  /** `onRequest`: OPTIONS is a 204 preflight answer and methods other than GET and POST are 405;
      the rest goes to the handler, whose exceptions are not caught. */
  function OnRequest(req: Request, key: Option<string>, fetch: Call -> Reply, co: Coerce): (r: Outcome<Response<AvaxBody>>)
    ensures req.verb == Options ==> r == Done(Response(204, NoContent))
    ensures req.verb.OtherMethod? ==> r == Done(Response(405, PlainText("Method Not Allowed")))
    ensures (req.verb == Get || req.verb == Post) ==> r == Handler(req, key, fetch, co)
  {
    if req.verb == Options then Done(Response(204, NoContent))
    else if req.verb != Get && req.verb != Post then Done(Response(405, PlainText("Method Not Allowed")))
    else Handler(req, key, fetch, co)
  }

  /** A missing key is answered before any upstream request, whatever the request holds. */
  lemma {:induction false} MissingKeyBeforeFetch(req: Request, key: Option<string>, f1: Call -> Reply, f2: Call -> Reply, co: Coerce)
    requires req.verb == Get || req.verb == Post
    requires key.None? || key.value == ""
    ensures OnRequest(req, key, f1, co) == OnRequest(req, key, f2, co)
    ensures OnRequest(req, key, f1, co) == Done(Response(500, MissingKey("Missing GLACIER_API_KEY env var")))
  {
  }

  /** A Glacier answer with more than four validators keeps the first four, in order. */
  lemma {:induction false} FirstFourInOrder(json: JsValue, co: Coerce)
    requires Field(json, "validators").JArr? && |Field(json, "validators").items| > MaxRecords
    ensures Records(json, co).Done?
    ensures |Records(json, co).value| == MaxRecords
    ensures forall i :: 0 <= i < MaxRecords ==>
              Records(json, co).value[i].nodeId == OrNull(Field(Field(json, "validators").items[i], "nodeId"))
  {
  }
}

=== FILE: candles.dfy ===
/** Weekly open/high/low/close candles over a volume series (`toWeeklyCandles`): points are grouped
    by the Monday 00:00 UTC that starts their week, and each group becomes one candle. */
module Candles {
  import opened Seqs
  import opened Points

  const DayMs: int := 86400000
  const WeekMs: int := 7 * DayMs

  datatype Candle = Candle(t: int, o: real, h: real, l: real, c: real)

  /** Midnight UTC of a Monday: a whole number of days since the epoch whose week day
      (`getUTCDay`, 0 = Sunday, day 0 was a Thursday) is 1. */
  predicate IsMondayMidnight(w: int) {
    w % DayMs == 0 && (w / DayMs + 4) % 7 == 1
  }

  /** The bucket key of a timestamp: `Date.UTC(y, m, d - diffToMon)` where `d` is the UTC day of t
      and `diffToMon = (getUTCDay() + 6) % 7`. ECMAScript counts days by floor division, as `/`
      does here. */
  function WeekStart(t: int): (w: int)
    ensures w <= t < w + WeekMs
    ensures IsMondayMidnight(w)
  {
    var day := t / DayMs;
    var utcDay := (day + 4) % 7;
    var diffToMon := (utcDay + 6) % 7;
    assert (day - diffToMon + 4) % 7 == 1;
    (day - diffToMon) * DayMs
  }

  /** The week start of t is the only Monday midnight at most one week before t. */
  lemma {:induction false} WeekStartUnique(w: int, t: int)
    requires IsMondayMidnight(w) && w <= t < w + WeekMs
    ensures w == WeekStart(t)
  {
    var v := WeekStart(t);
    var a := w / DayMs;
    var b := v / DayMs;
    assert w == a * DayMs;
    assert v == b * DayMs;
    assert -7 < a - b < 7 by {
      assert (a - b) * DayMs < WeekMs;
      assert (b - a) * DayMs < WeekMs;
    }
    assert (a - b) % 7 == 0 by {
      assert (a + 4) % 7 == (b + 4) % 7;
    }
  }

  /** The points of ps whose week starts at k, in input order: the array `buckets.get(key)`
      after the grouping loop. */
  function Bucket(ps: seq<Point>, k: int): (r: seq<Point>)
    ensures forall i :: 0 <= i < |r| ==> WeekStart(r[i].t) == k && r[i] in ps
    ensures (exists i :: 0 <= i < |ps| && WeekStart(ps[i].t) == k) ==> |r| > 0
  {
    if |ps| == 0 then []
    else
      var init := ps[..|ps| - 1];
      var p := ps[|ps| - 1];
      var r0 := Bucket(init, k);
      assert forall i :: 0 <= i < |init| ==> init[i] == ps[i];
      r0 + (if WeekStart(p.t) == k then [p] else [])
  }

  /** The week starts of ps, each once, in order of first appearance: the key order of the
      `Map` the grouping loop fills. */
  function FirstSeen(ps: seq<Point>): (r: seq<int>)
    ensures Distinct(r)
    ensures forall k :: k in r <==> exists i :: 0 <= i < |ps| && WeekStart(ps[i].t) == k
  {
    if |ps| == 0 then []
    else
      var init := ps[..|ps| - 1];
      var k := WeekStart(ps[|ps| - 1].t);
      var r0 := FirstSeen(init);
      assert forall i :: 0 <= i < |init| ==> init[i] == ps[i];
      if k in r0 then r0 else r0 + [k]
  }

  predicate Distinct(s: seq<int>) {
    forall i, j :: 0 <= i < j < |s| ==> s[i] != s[j]
  }

  predicate StrictlyIncreasing(s: seq<int>) {
    forall i, j :: 0 <= i < j < |s| ==> s[i] < s[j]
  }

  /** Inserts a new key into a strictly increasing sequence of keys. */
  function InsertKey(k: int, s: seq<int>): (r: seq<int>)
    requires StrictlyIncreasing(s) && k !in s
    ensures StrictlyIncreasing(r)
    ensures forall x :: x in r <==> x in s || x == k
    ensures |r| == |s| + 1
  {
    if |s| == 0 then [k]
    else if k < s[0] then [k] + s
    else
      assert forall x :: x in s[1..] ==> x in s && s[0] < x;
      var rest := InsertKey(k, s[1..]);
      assert forall x :: x in s ==> x == s[0] || x in s[1..];
      assert forall i :: 0 <= i < |rest| ==> s[0] < rest[i] by {
        assert forall i :: 0 <= i < |rest| ==> rest[i] in rest;
      }
      [s[0]] + rest
  }

  /** `keys.sort((a, b) => a - b)` on distinct keys: the ascending arrangement of the same keys. */
  function SortKeys(s: seq<int>): (r: seq<int>)
    requires Distinct(s)
    ensures StrictlyIncreasing(r)
    ensures forall x :: x in r <==> x in s
    ensures |r| == |s|
  {
    if |s| == 0 then []
    else
      var init := s[..|s| - 1];
      assert forall x :: x in init ==> x in s;
      assert s[|s| - 1] !in init;
      assert forall x :: x in s ==> x in init || x == s[|s| - 1];
      InsertKey(s[|s| - 1], SortKeys(init))
  }

  /** Two ascending sequences with the same elements are equal: the key order is determined by
      the set of week starts alone. */
  lemma {:induction false} AscendingUnique(a: seq<int>, b: seq<int>)
    requires StrictlyIncreasing(a) && StrictlyIncreasing(b)
    requires forall x :: x in a <==> x in b
    ensures a == b
  {
    NonEmptyHasHead(a);
    NonEmptyHasHead(b);
    if |a| > 0 {
      HeadIsLeast(a);
      HeadIsLeast(b);
      assert a[0] == b[0];
      SameTail(a, b);
      AscendingUnique(a[1..], b[1..]);
      assert a == [a[0]] + a[1..] && b == [b[0]] + b[1..];
    }
  }

  lemma NonEmptyHasHead(s: seq<int>)
    ensures |s| > 0 ==> s[0] in s
  {
  }

  /** The head of an ascending sequence is its least element. */
  lemma HeadIsLeast(a: seq<int>)
    requires StrictlyIncreasing(a) && |a| > 0
    ensures forall x :: x in a ==> a[0] <= x
  {
    forall x | x in a
      ensures a[0] <= x
    {
      var i :| 0 <= i < |a| && a[i] == x;
      if i > 0 {
        assert a[0] < a[i];
      }
    }
  }

  /** Two ascending sequences with the same elements and the same head keep the same elements
      after the head. */
  lemma SameTail(a: seq<int>, b: seq<int>)
    requires StrictlyIncreasing(a) && StrictlyIncreasing(b)
    requires forall x :: x in a <==> x in b
    requires |a| > 0 && |b| > 0 && a[0] == b[0]
    ensures StrictlyIncreasing(a[1..]) && StrictlyIncreasing(b[1..])
    ensures forall x :: x in a[1..] <==> x in b[1..]
  {
    forall x
      ensures x in a[1..] <==> x in b[1..]
    {
      if x in a[1..] {
        OnlyHeadIsHead(a, x);
        var j :| 0 <= j < |b| && b[j] == x;
        assert b[1..][j - 1] == x;
      }
      if x in b[1..] {
        OnlyHeadIsHead(b, x);
        var i :| 0 <= i < |a| && a[i] == x;
        assert a[1..][i - 1] == x;
      }
    }
    assert forall i :: 0 <= i < |a| - 1 ==> a[1..][i] == a[i + 1];
    assert forall i :: 0 <= i < |b| - 1 ==> b[1..][i] == b[i + 1];
  }

  /** In an ascending sequence an element after the head is not the head. */
  lemma OnlyHeadIsHead(a: seq<int>, x: int)
    requires StrictlyIncreasing(a) && |a| > 0 && x in a[1..]
    ensures x in a && x != a[0]
  {
    var i :| 0 <= i < |a| - 1 && a[1..][i] == x;
    assert a[i + 1] == x && a[0] < a[i + 1];
  }

  /** The largest value of a non-empty run of points. */
  function MaxV(b: seq<Point>): (r: real)
    requires |b| > 0
    ensures forall i :: 0 <= i < |b| ==> b[i].v <= r
    ensures exists i :: 0 <= i < |b| && b[i].v == r
  {
    if |b| == 1 then b[0].v
    else
      var m := MaxV(b[1..]);
      assert forall i :: 1 <= i < |b| ==> b[i] == b[1..][i - 1];
      if b[0].v > m then b[0].v else m
  }

  /** The smallest value of a non-empty run of points. */
  function MinV(b: seq<Point>): (r: real)
    requires |b| > 0
    ensures forall i :: 0 <= i < |b| ==> r <= b[i].v
    ensures exists i :: 0 <= i < |b| && b[i].v == r
  {
    if |b| == 1 then b[0].v
    else
      var m := MinV(b[1..]);
      assert forall i :: 1 <= i < |b| ==> b[i] == b[1..][i - 1];
      if b[0].v < m then b[0].v else m
  }

  /** The candle of one bucket: its points sorted by time, open and close from the ends, high and
      low over all of them. */
  function CandleOf(k: int, b: seq<Point>): Candle
    requires |b| > 0
  {
    var s := SortByT(b);
    Candle(k, s[0].v, MaxV(s), MinV(s), s[|s| - 1].v)
  }

  /** The ascending week starts of ps. */
  function Keys(ps: seq<Point>): (r: seq<int>)
    ensures StrictlyIncreasing(r)
    ensures forall k :: k in r <==> exists i :: 0 <= i < |ps| && WeekStart(ps[i].t) == k
  {
    SortKeys(FirstSeen(ps))
  }

  /** The candles of a series: one per week start, ascending. */
  function WeeklyCandles(ps: seq<Point>): (r: seq<Candle>)
    ensures |r| == |Keys(ps)|
    ensures forall i :: 0 <= i < |r| ==> r[i].t == Keys(ps)[i]
  {
    var keys := Keys(ps);
    seq(|keys|, i requires 0 <= i < |keys| =>
      assert keys[i] in keys;
      CandleOf(keys[i], Bucket(ps, keys[i])))
  }

  /** The candle at position j of the reference sequence, spelled out. */
  lemma {:induction false} CandleAt(ps: seq<Point>, j: int)
    requires 0 <= j < |Keys(ps)|
    ensures |Bucket(ps, Keys(ps)[j])| > 0
    ensures WeeklyCandles(ps)[j] == CandleOf(Keys(ps)[j], Bucket(ps, Keys(ps)[j]))
  {
    assert Keys(ps)[j] in Keys(ps);
  }

  /** Tracks `p.v > high` / `p.v < low` from `-Infinity` / `Infinity`: None stands for the
      infinite starting value. */
  method HighLow(arr: seq<Point>) returns (high: Option<real>, low: Option<real>)
    ensures |arr| == 0 ==> high.None? && low.None?
    ensures |arr| > 0 ==> high == Some(MaxV(arr)) && low == Some(MinV(arr))
  {
    high, low := None, None;
    var i := 0;
    while i < |arr|
      invariant 0 <= i <= |arr|
      invariant i == 0 ==> high.None? && low.None?
      invariant i > 0 ==> high == Some(MaxV(arr[..i])) && low == Some(MinV(arr[..i]))
    {
      var p := arr[i];
      if high.None? || p.v > high.value {
        high := Some(p.v);
      }
      if low.None? || p.v < low.value {
        low := Some(p.v);
      }
      assert arr[..i + 1] == arr[..i] + [p];
      if i > 0 {
        MaxMinSnoc(arr[..i], p);
      } else {
        assert |arr[..i + 1]| == 1 && arr[..i + 1][0] == p;
      }
      i := i + 1;
    }
    assert arr[..i] == arr;
  }

  /** Extending a run by one point updates its extremes by one comparison. */
  lemma {:induction false} MaxMinSnoc(b: seq<Point>, p: Point)
    requires |b| > 0
    ensures MaxV(b + [p]) == if p.v > MaxV(b) then p.v else MaxV(b)
    ensures MinV(b + [p]) == if p.v < MinV(b) then p.v else MinV(b)
  {
    MaxSnoc(b, p);
    MinSnoc(b, p);
  }

  lemma MaxSnoc(b: seq<Point>, p: Point)
    requires |b| > 0
    ensures MaxV(b + [p]) == if p.v > MaxV(b) then p.v else MaxV(b)
  {
    var e := b + [p];
    var m := if p.v > MaxV(b) then p.v else MaxV(b);
    var w :| 0 <= w < |e| && e[w].v == MaxV(e);
    var u :| 0 <= u < |b| && b[u].v == MaxV(b);
    assert e[u] == b[u] && e[|b|] == p;
    if w < |b| {
      assert e[w] == b[w];
    }
  }

  lemma MinSnoc(b: seq<Point>, p: Point)
    requires |b| > 0
    ensures MinV(b + [p]) == if p.v < MinV(b) then p.v else MinV(b)
  {
    var e := b + [p];
    var w :| 0 <= w < |e| && e[w].v == MinV(e);
    var u :| 0 <= u < |b| && b[u].v == MinV(b);
    assert e[u] == b[u] && e[|b|] == p;
    if w < |b| {
      assert e[w] == b[w];
    }
  }

  /** `toWeeklyCandles` as the source runs it: group into a map keyed by week start, sort the keys,
      then for each key sort its bucket and track the extremes. */
  method ToWeeklyCandles(points: seq<Point>) returns (candles: seq<Candle>)
    ensures |points| == 0 ==> candles == []
    ensures candles == WeeklyCandles(points)
  {
    if |points| == 0 {
      return [];
    }
    var buckets, order := GroupByWeek(points);
    var keys := SortKeys(order);
    assert keys == Keys(points);
    forall m | 0 <= m < |keys|
      ensures keys[m] in buckets && buckets[keys[m]] == Bucket(points, keys[m])
    {
      assert keys[m] in keys;
    }
    candles := CandlesOfBuckets(points, buckets, keys);
  }

  /** `buckets` and `order` are the grouping of ps: the keys in first-seen order, and for each key
      its bucket. */
  ghost predicate Grouped(ps: seq<Point>, buckets: map<int, seq<Point>>, order: seq<int>) {
    && order == FirstSeen(ps)
    && (forall k :: k in buckets <==> k in order)
    && (forall k :: k in buckets ==> buckets[k] == Bucket(ps, k))
  }

  /** The grouping loop: `buckets` maps each week start to its points in input order, and
      `order` lists the week starts in the order the map first saw them. */
  method GroupByWeek(points: seq<Point>) returns (buckets: map<int, seq<Point>>, order: seq<int>)
    ensures order == FirstSeen(points)
    ensures forall k :: k in buckets <==> k in order
    ensures forall k :: k in buckets ==> buckets[k] == Bucket(points, k)
  {
    buckets := map[];
    order := [];
    var i := 0;
    while i < |points|
      invariant 0 <= i <= |points|
      invariant Grouped(points[..i], buckets, order)
    {
      var p := points[i];
      var key := WeekStart(p.t);
      var arr := if key in buckets then buckets[key] else [];
      ghost var next := points[..i] + [p];
      GroupStep(points[..i], p, buckets, order);
      buckets := buckets[key := arr + [p]];
      if key !in order {
        order := order + [key];
      }
      assert Grouped(next, buckets, order);
      assert points[..i + 1] == next;
      i := i + 1;
    }
    assert points[..i] == points;
  }

  /** One turn of the grouping loop keeps the grouping. */
  lemma GroupStep(ps: seq<Point>, p: Point, buckets: map<int, seq<Point>>, order: seq<int>)
    requires Grouped(ps, buckets, order)
    ensures var key := WeekStart(p.t);
            Grouped(ps + [p],
                    buckets[key := (if key in buckets then buckets[key] else []) + [p]],
                    if key in order then order else order + [key])
  {
    var key := WeekStart(p.t);
    var arr := if key in buckets then buckets[key] else [];
    if key !in buckets {
      assert key !in FirstSeen(ps);
      BucketEmpty(ps, key);
    }
    var after := buckets[key := arr + [p]];
    FirstSeenSnoc(ps, p);
    forall k | k in after
      ensures after[k] == Bucket(ps + [p], k)
    {
      BucketSnoc(ps, p, k);
    }
  }

  lemma FirstSeenSnoc(ps: seq<Point>, p: Point)
    ensures FirstSeen(ps + [p]) ==
      if WeekStart(p.t) in FirstSeen(ps) then FirstSeen(ps) else FirstSeen(ps) + [WeekStart(p.t)]
  {
    assert (ps + [p])[..|ps|] == ps;
  }

  lemma BucketSnoc(ps: seq<Point>, p: Point, k: int)
    ensures Bucket(ps + [p], k) == Bucket(ps, k) + (if WeekStart(p.t) == k then [p] else [])
  {
    assert (ps + [p])[..|ps|] == ps;
  }

  /** The emitting loop: one candle per key in ascending key order, from the sorted bucket. */
  method CandlesOfBuckets(points: seq<Point>, buckets: map<int, seq<Point>>, keys: seq<int>)
    returns (candles: seq<Candle>)
    requires keys == Keys(points)
    requires forall m :: 0 <= m < |keys| ==> keys[m] in buckets && buckets[keys[m]] == Bucket(points, keys[m])
    ensures candles == WeeklyCandles(points)
  {
    ghost var want := WeeklyCandles(points);
    candles := [];
    var j := 0;
    while j < |keys|
      invariant 0 <= j <= |keys|
      invariant candles == want[..j]
    {
      var k := keys[j];
      assert k in buckets && buckets[k] == Bucket(points, k);
      CandleAt(points, j);
      var c := CandleOfBucket(k, buckets[k]);
      assert c == want[j];
      assert want[..j + 1] == want[..j] + [c];
      candles := candles + [c];
      j := j + 1;
    }
    assert want[..j] == want;
  }

  /** The body of the emitting loop for one key: sort the bucket, then track its extremes. */
  method CandleOfBucket(k: int, arr: seq<Point>) returns (c: Candle)
    requires |arr| > 0
    ensures c == CandleOf(k, arr)
  {
    var sorted := SortByT(arr);
    var high, low := HighLow(sorted);
    c := Candle(k, sorted[0].v, high.value, low.value, sorted[|sorted| - 1].v);
  }

  /** Every candle's key is a Monday midnight at which the week of some point starts; the keys
      ascend strictly, so no week has two candles. */
  lemma {:induction false} CandleKeys(ps: seq<Point>)
    ensures forall i, j :: 0 <= i < j < |WeeklyCandles(ps)| ==> WeeklyCandles(ps)[i].t < WeeklyCandles(ps)[j].t
    ensures forall i :: 0 <= i < |WeeklyCandles(ps)| ==>
              IsMondayMidnight(WeeklyCandles(ps)[i].t) &&
              exists q :: 0 <= q < |ps| && WeekStart(ps[q].t) == WeeklyCandles(ps)[i].t
  {
    var r := WeeklyCandles(ps);
    var keys := Keys(ps);
    forall i | 0 <= i < |r|
      ensures IsMondayMidnight(r[i].t) && exists q :: 0 <= q < |ps| && WeekStart(ps[q].t) == r[i].t
    {
      assert keys[i] in keys;
    }
  }

  /** Every point's week has a candle. */
  lemma {:induction false} EveryWeekHasCandle(ps: seq<Point>, q: int) returns (i: int)
    requires 0 <= q < |ps|
    ensures 0 <= i < |WeeklyCandles(ps)| && WeeklyCandles(ps)[i].t == WeekStart(ps[q].t)
  {
    var keys := Keys(ps);
    assert WeekStart(ps[q].t) in keys;
    i :| 0 <= i < |keys| && keys[i] == WeekStart(ps[q].t);
  }

  /** The number of candles is the number of distinct week starts among the points. */
  lemma {:induction false} CandleCount(ps: seq<Point>)
    ensures |WeeklyCandles(ps)| == |set q | 0 <= q < |ps| :: WeekStart(ps[q].t)|
  {
    var keys := Keys(ps);
    var weeks := set q | 0 <= q < |ps| :: WeekStart(ps[q].t);
    assert forall k :: k in weeks <==> k in keys;
    DistinctCardinality(keys, weeks);
  }

  /** A sequence without repetitions has as many elements as the set of its elements. */
  lemma {:induction false} DistinctCardinality(s: seq<int>, e: set<int>)
    requires StrictlyIncreasing(s)
    requires forall k :: k in e <==> k in s
    ensures |e| == |s|
  {
    if |s| > 0 {
      var rest := e - {s[0]};
      assert forall k :: k in rest <==> k in s[1..] by {
        forall k
          ensures k in rest <==> k in s[1..]
        {
          if k in s[1..] {
            var i :| 1 <= i < |s| && s[i] == k;
            assert s[0] < s[i];
          }
        }
      }
      DistinctCardinality(s[1..], rest);
    } else {
      assert forall k :: k !in e;
    }
  }

  /** The candle of a non-empty bucket opens on its earliest point, closes on its latest, and
      its high and low are values of the bucket that bound every other value. */
  lemma {:induction false} CandleOfSummarises(k: int, b: seq<Point>) returns (first: int, last: int)
    requires |b| > 0
    ensures CandleOf(k, b).t == k
    ensures IsEarliest(b, first) && CandleOf(k, b).o == b[first].v
    ensures IsLatest(b, last) && CandleOf(k, b).c == b[last].v
    ensures forall q :: 0 <= q < |b| ==> CandleOf(k, b).l <= b[q].v <= CandleOf(k, b).h
    ensures exists q :: 0 <= q < |b| && b[q].v == CandleOf(k, b).h
    ensures exists q :: 0 <= q < |b| && b[q].v == CandleOf(k, b).l
  {
    var c := CandleOf(k, b);
    var s := SortByT(b);
    first := SortedFirstIsEarliest(b);
    last := SortedLastIsLatest(b);
    forall q | 0 <= q < |b|
      ensures c.l <= b[q].v <= c.h
    {
      var u := PermutedMember(b, s, q);
    }
    var wh :| 0 <= wh < |s| && s[wh].v == c.h;
    var uh := PermutedMember(s, b, wh);
    var wl :| 0 <= wl < |s| && s[wl].v == c.l;
    var ul := PermutedMember(s, b, wl);
  }

  /** What each candle summarises: the points of its week (all of them, in input order), each lying
      inside that week; open is the earliest of them and close the latest, with ties kept in input
      order; high and low are the extremes, so `l <= o, c <= h`. */
  lemma {:induction false} CandleSummarises(ps: seq<Point>, i: int) returns (b: seq<Point>, first: int, last: int)
    requires 0 <= i < |WeeklyCandles(ps)|
    ensures b == Bucket(ps, WeeklyCandles(ps)[i].t) && |b| > 0
    ensures forall q :: 0 <= q < |b| ==> WeeklyCandles(ps)[i].t <= b[q].t < WeeklyCandles(ps)[i].t + WeekMs
    ensures IsEarliest(b, first) && WeeklyCandles(ps)[i].o == b[first].v
    ensures IsLatest(b, last) && WeeklyCandles(ps)[i].c == b[last].v
    ensures forall q :: 0 <= q < |b| ==> WeeklyCandles(ps)[i].l <= b[q].v <= WeeklyCandles(ps)[i].h
    ensures exists q :: 0 <= q < |b| && b[q].v == WeeklyCandles(ps)[i].h
    ensures exists q :: 0 <= q < |b| && b[q].v == WeeklyCandles(ps)[i].l
    ensures WeeklyCandles(ps)[i].l <= WeeklyCandles(ps)[i].o <= WeeklyCandles(ps)[i].h
    ensures WeeklyCandles(ps)[i].l <= WeeklyCandles(ps)[i].c <= WeeklyCandles(ps)[i].h
  {
    var keys := Keys(ps);
    var k := keys[i];
    assert k in keys;
    b := Bucket(ps, k);
    assert WeeklyCandles(ps)[i] == CandleOf(k, b);
    first, last := CandleOfSummarises(k, b);
    forall q | 0 <= q < |b|
      ensures k <= b[q].t < k + WeekMs
    {
      assert WeekStart(b[q].t) == k;
    }
  }

  /** No point of ps is in week k, so its bucket is empty. */
  lemma {:induction false} BucketEmpty(ps: seq<Point>, k: int)
    requires forall i :: 0 <= i < |ps| ==> WeekStart(ps[i].t) != k
    ensures Bucket(ps, k) == []
  {
    if |ps| > 0 {
      BucketEmpty(ps[..|ps| - 1], k);
    }
  }

  /** A bucket holds every point of its week: a point of ps lying in the week that starts at a
      candle's key is one of that candle's points. */
  lemma {:induction false} BucketComplete(ps: seq<Point>, k: int, q: int)
    requires IsMondayMidnight(k) && 0 <= q < |ps| && k <= ps[q].t < k + WeekMs
    ensures ps[q] in Bucket(ps, k)
  {
    WeekStartUnique(k, ps[q].t);
    if q < |ps| - 1 {
      var init := ps[..|ps| - 1];
      BucketComplete(init, k, q);
    }
  }
}

=== FILE: charts.dfy ===
/** The charts endpoint (`functions/api/charts.js`): validates the chain, reads a TVL series and a
    DEX volume series from DefiLlama (keyed pro endpoint first, then the open one), normalises both
    into sorted `{ t, v }` points, keeps the last 180 of each and turns the volume series into
    weekly candles. */
module Charts {
  import opened Seqs
  import opened Text
  import opened Js
  import opened Http
  import opened Points
  import opened Candles

  /** The text `toNum` hands to `Number`: `String(v).trim().replace(/,/g, "")`. */
  function Cleaned(v: JsValue, co: Coerce): (r: string)
    ensures ',' !in r
  {
    StripCommas(Trim(StringOf(v, co.show)))
  }

  /** `toNum`: null and undefined give null, a number is kept when finite, and anything else is
      turned into text, trimmed and stripped of commas; empty text gives null, otherwise the
      number it parses to when that is finite. */
  function ToNum(v: JsValue, co: Coerce): (r: Option<real>)
    ensures IsNullish(v) || v.JInf? ==> r.None?
    ensures v.JNum? ==> r == Some(v.n)
    ensures !v.JNum? && r.Some? ==> Cleaned(v, co) != "" && r == co.parse(Cleaned(v, co))
    ensures !IsNullish(v) && !v.JNum? && !v.JInf? && Cleaned(v, co) != "" ==> r == co.parse(Cleaned(v, co))
  {
    if IsNullish(v) then None
    else if v.JNum? then Some(v.n)
    else if v.JInf? then None
    else
      var s := Cleaned(v, co);
      if s == "" then None else co.parse(s)
  }

  /** A string whose only extra characters are commas (thousands separators) reads as the
      same number as the string without them. */
  lemma {:induction false} ToNumIgnoresCommas(a: string, b: string, co: Coerce)
    requires Unpadded(a) && Unpadded(b) && a != "" && b != ""
    ensures ToNum(JStr(a + "," + b), co) == ToNum(JStr(a + b), co)
  {
    var x := a + "," + b;
    var y := a + b;
    assert x[0] == a[0] && x[|x| - 1] == b[|b| - 1];
    assert y[0] == a[0] && y[|y| - 1] == b[|b| - 1];
    assert Unpadded(x) && Unpadded(y);
    TrimmedIffUnpadded(x);
    TrimmedIffUnpadded(y);
    StripInsertedComma(a, b);
    assert StringOf(JStr(x), co.show) == x && StringOf(JStr(y), co.show) == y;
    assert Cleaned(JStr(x), co) == StripCommas(x);
    assert Cleaned(JStr(y), co) == StripCommas(y);
  }

  /** `Math.trunc`: rounds toward zero. */
  function Trunc(x: real): (r: int)
    ensures x >= 0.0 ==> r as real <= x < r as real + 1.0
    ensures x < 0.0 ==> r as real - 1.0 < x <= r as real
  {
    if x >= 0.0 then x.Floor else -((-x).Floor)
  }

  /** Numbers below this are taken to be seconds, others milliseconds. */
  const SecondsLimit: real := 10000000000.0

  /** `toMs`: a date in seconds or milliseconds, as whole milliseconds. */
  function ToMs(v: JsValue, co: Coerce): (r: Option<int>)
    ensures r.None? <==> ToNum(v, co).None?
    ensures ToNum(v, co).Some? && ToNum(v, co).value < SecondsLimit ==>
              r == Some(Trunc(ToNum(v, co).value * 1000.0))
    ensures ToNum(v, co).Some? && ToNum(v, co).value >= SecondsLimit ==>
              r == Some(Trunc(ToNum(v, co).value))
  {
    match ToNum(v, co)
    case None => None
    case Some(n) => if n < SecondsLimit then Some(Trunc(n * 1000.0)) else Some(Trunc(n))
  }

  /** The seconds heuristic is consistent from 1970-04-26 on: a date given in whole seconds and
      the same date given in milliseconds give the same timestamp. */
  lemma {:induction false} SecondsAndMillisAgree(s: int, co: Coerce)
    requires 10000000 <= s < 10000000000
    ensures ToMs(JNum(s as real), co) == ToMs(JNum(s as real * 1000.0), co) == Some(s * 1000)
  {
    var ms := s * 1000;
    assert s as real * 1000.0 == ms as real;
    assert ms as real >= SecondsLimit;
    assert Trunc(ms as real) == ms;
  }

  /** One candidate of `pickSeries`: `obj?.[k]`, or else `obj?.data?.[k]`, when it is a non-empty
      array. */
  function Candidate(obj: JsValue, k: string): (r: Option<seq<JsValue>>)
    ensures r.Some? ==> |r.value| > 0
    ensures r.Some? ==> Field(obj, k) == JArr(r.value) || Field(Field(obj, "data"), k) == JArr(r.value)
  {
    var v := Field(obj, k);
    if v.JArr? && |v.items| > 0 then Some(v.items)
    else
      var v2 := Field(Field(obj, "data"), k);
      if v2.JArr? && |v2.items| > 0 then Some(v2.items) else None
  }

  /** `pickSeries(obj, keys)`: the candidate of the first key that has one, null when none does. */
  function PickSeries(obj: JsValue, keys: seq<string>): (r: Option<seq<JsValue>>)
    ensures r.None? <==> forall i :: 0 <= i < |keys| ==> Candidate(obj, keys[i]).None?
    ensures r.Some? ==>
              exists i :: 0 <= i < |keys| && Candidate(obj, keys[i]) == r &&
                forall j :: 0 <= j < i ==> Candidate(obj, keys[j]).None?
  {
    if |keys| == 0 then None
    else
      var c := Candidate(obj, keys[0]);
      var rest := PickSeries(obj, keys[1..]);
      assert forall i :: 1 <= i < |keys| ==> keys[i] == keys[1..][i - 1];
      if c.Some? then c else rest
  }

  /** `pickSeries(obj, a) || pickSeries(obj, b)` is `pickSeries` over the keys of a, then b. */
  lemma {:induction false} PickSeriesConcat(obj: JsValue, a: seq<string>, b: seq<string>)
    ensures PickSeries(obj, a + b) == if PickSeries(obj, a).Some? then PickSeries(obj, a) else PickSeries(obj, b)
  {
    if |a| > 0 {
      assert (a + b)[1..] == a[1..] + b;
      PickSeriesConcat(obj, a[1..], b);
    } else {
      assert a + b == b;
    }
  }

  const PrimaryKeys: seq<string> := ["totalDataChart", "totalDataChartBreakdown"]
  const SecondaryKeys: seq<string> := ["chart", "chartData", "data", "volumeChart", "totalVolumeChart"]

  /** The volume series of a response: the primary keys first, then the secondary ones. */
  function VolumeSeriesOf(j: JsValue): (r: Option<seq<JsValue>>)
    ensures r == PickSeries(j, PrimaryKeys + SecondaryKeys)
  {
    PickSeriesConcat(j, PrimaryKeys, SecondaryKeys);
    var first := PickSeries(j, PrimaryKeys);
    if first.Some? then first else PickSeries(j, SecondaryKeys)
  }

  /** A point from a date and a value, when both coerce. */
  function MakePoint(date: JsValue, value: JsValue, co: Coerce): (r: Option<Point>)
    ensures r.Some? <==> ToMs(date, co).Some? && ToNum(value, co).Some?
    ensures r.Some? ==> r.value == Point(ToMs(date, co).value, ToNum(value, co).value)
  {
    match (ToMs(date, co), ToNum(value, co))
    case (Some(t), Some(v)) => Some(Point(t, v))
    case _ => None
  }

  /** The time of a TVL item: `it.date ?? it.timestamp`. */
  function TvlDate(it: JsValue): (r: JsValue)
    ensures !IsNullish(Field(it, "date")) ==> r == Field(it, "date")
    ensures IsNullish(Field(it, "date")) && !IsNullish(Field(it, "timestamp")) ==> r == Field(it, "timestamp")
    ensures IsNullish(Field(it, "date")) && IsNullish(Field(it, "timestamp")) ==> r == JNull
  {
    var ds := [Field(it, "date"), Field(it, "timestamp"), JNull];
    assert ds[1] == Field(it, "timestamp");
    Coalesce(ds)
  }

  /** The value of a TVL item: `it.tvl ?? it.totalLiquidityUSD ?? it.value`. */
  function TvlValue(it: JsValue): (r: JsValue)
    ensures !IsNullish(Field(it, "tvl")) ==> r == Field(it, "tvl")
    ensures IsNullish(Field(it, "tvl")) && !IsNullish(Field(it, "totalLiquidityUSD")) ==> r == Field(it, "totalLiquidityUSD")
    ensures IsNullish(Field(it, "tvl")) && IsNullish(Field(it, "totalLiquidityUSD")) ==> r == OrNull(Field(it, "value"))
  {
    var vs := [Field(it, "tvl"), Field(it, "totalLiquidityUSD"), Field(it, "value"), JNull];
    assert vs[1] == Field(it, "totalLiquidityUSD") && vs[2] == Field(it, "value");
    Coalesce(vs)
  }

  /** An item of the TVL history becomes a point exactly when its time and its value coerce. */
  function TvlPoint(it: JsValue, co: Coerce): (r: Option<Point>)
    ensures r.Some? <==> ToMs(TvlDate(it), co).Some? && ToNum(TvlValue(it), co).Some?
    ensures r.Some? ==> r.value == Point(ToMs(TvlDate(it), co).value, ToNum(TvlValue(it), co).value)
  {
    MakePoint(TvlDate(it), TvlValue(it), co)
  }

  function TvlPointOf(co: Coerce): JsValue -> Option<Point> {
    it => TvlPoint(it, co)
  }

  /** The time of a volume item: the named fields `date`, `timestamp`, `time`, `t` in that order,
      and only then the first element of an array item. */
  function VolDate(it: JsValue): (r: JsValue)
    ensures !IsNullish(Field(it, "date")) ==> r == Field(it, "date")
    ensures IsNullish(Field(it, "date")) && !IsNullish(Field(it, "timestamp")) ==> r == Field(it, "timestamp")
    ensures (&& IsNullish(Field(it, "date")) && IsNullish(Field(it, "timestamp"))
             && !IsNullish(Field(it, "time"))) ==> r == Field(it, "time")
    ensures (&& IsNullish(Field(it, "date")) && IsNullish(Field(it, "timestamp"))
             && IsNullish(Field(it, "time")) && !IsNullish(Field(it, "t"))) ==> r == Field(it, "t")
    ensures (&& IsNullish(Field(it, "date")) && IsNullish(Field(it, "timestamp"))
             && IsNullish(Field(it, "time")) && IsNullish(Field(it, "t"))) ==>
              r == (if it.JArr? then Index(it, 0) else JNull)
  {
    var ds := [Field(it, "date"), Field(it, "timestamp"), Field(it, "time"), Field(it, "t"),
               if it.JArr? then Index(it, 0) else JNull];
    assert ds[1] == Field(it, "timestamp") && ds[2] == Field(it, "time") && ds[3] == Field(it, "t");
    Coalesce(ds)
  }

  /** The volume of a volume item: the named fields `totalVolume`, `volume`, `value`,
      `dailyVolume`, `v` in that order, and only then the second element of an array item. */
  function VolValue(it: JsValue): (r: JsValue)
    ensures !IsNullish(Field(it, "totalVolume")) ==> r == Field(it, "totalVolume")
    ensures IsNullish(Field(it, "totalVolume")) && !IsNullish(Field(it, "volume")) ==> r == Field(it, "volume")
    ensures (&& IsNullish(Field(it, "totalVolume")) && IsNullish(Field(it, "volume"))
             && !IsNullish(Field(it, "value"))) ==> r == Field(it, "value")
    ensures (&& IsNullish(Field(it, "totalVolume")) && IsNullish(Field(it, "volume"))
             && IsNullish(Field(it, "value")) && !IsNullish(Field(it, "dailyVolume"))) ==> r == Field(it, "dailyVolume")
    ensures (&& IsNullish(Field(it, "totalVolume")) && IsNullish(Field(it, "volume"))
             && IsNullish(Field(it, "value")) && IsNullish(Field(it, "dailyVolume"))
             && !IsNullish(Field(it, "v"))) ==> r == Field(it, "v")
    ensures (&& IsNullish(Field(it, "totalVolume")) && IsNullish(Field(it, "volume"))
             && IsNullish(Field(it, "value")) && IsNullish(Field(it, "dailyVolume"))
             && IsNullish(Field(it, "v"))) ==>
              r == (if it.JArr? then Index(it, 1) else JNull)
  {
    var vs := [Field(it, "totalVolume"), Field(it, "volume"), Field(it, "value"), Field(it, "dailyVolume"),
               Field(it, "v"), if it.JArr? then Index(it, 1) else JNull];
    assert vs[1] == Field(it, "volume") && vs[2] == Field(it, "value") && vs[3] == Field(it, "dailyVolume")
           && vs[4] == Field(it, "v");
    Coalesce(vs)
  }

  /** An item of the volume series becomes a point exactly when its time and its volume coerce. */
  function VolPoint(it: JsValue, co: Coerce): (r: Option<Point>)
    ensures r.Some? <==> ToMs(VolDate(it), co).Some? && ToNum(VolValue(it), co).Some?
    ensures r.Some? ==> r.value == Point(ToMs(VolDate(it), co).value, ToNum(VolValue(it), co).value)
  {
    MakePoint(VolDate(it), VolValue(it), co)
  }

  function VolPointOf(co: Coerce): JsValue -> Option<Point> {
    it => VolPoint(it, co)
  }

  /** The normalisation loop and `out.sort((a, b) => a.t - b.t)`: the items that yield a point,
      sorted by time, with points of equal time kept in item order. */
  function Normalise(items: seq<JsValue>, f: JsValue -> Option<Point>): (r: seq<Point>)
    ensures SortedByT(r)
    ensures multiset(r) == multiset(FilterMap(items, f))
    ensures |r| <= |items|
  {
    SortByT(FilterMap(items, f))
  }

  /** What normalisation keeps: exactly the points the items yield, and for each timestamp those
      points in item order. */
  lemma {:induction false} NormaliseKeeps(items: seq<JsValue>, f: JsValue -> Option<Point>, k: int)
    ensures forall p :: p in Normalise(items, f) <==> exists i :: 0 <= i < |items| && f(items[i]) == Some(p)
    ensures WithT(Normalise(items, f), k) == WithT(FilterMap(items, f), k)
  {
    var m := FilterMap(items, f);
    var r := Normalise(items, f);
    assert forall p :: p in r <==> p in m by {
      forall p
        ensures p in r <==> p in m
      {
        assert p in r <==> p in multiset(r);
        assert p in m <==> p in multiset(m);
      }
    }
    SortByTStable(m, k);
  }

  /** The first upstream reply, in URL order, that is a 2xx response whose JSON body passes
      `accept`; network failures, non-2xx responses and unparsable bodies are skipped. */
  function FirstOk(urls: seq<string>, fetch: string -> Reply, accept: JsValue -> bool): (r: Option<JsValue>)
    ensures r.Some? ==> accept(r.value)
    ensures r.None? <==> forall i :: 0 <= i < |urls| ==> !(fetch(urls[i]).Ok? && accept(fetch(urls[i]).body))
    ensures r.Some? ==>
              exists i :: 0 <= i < |urls| && fetch(urls[i]) == Ok(r.value) &&
                forall j :: 0 <= j < i ==> !(fetch(urls[j]).Ok? && accept(fetch(urls[j]).body))
  {
    if |urls| == 0 then None
    else
      var init := urls[..|urls| - 1];
      var r0 := FirstOk(init, fetch, accept);
      var last := fetch(urls[|urls| - 1]);
      assert forall i :: 0 <= i < |init| ==> init[i] == urls[i];
      if r0.Some? then r0
      else if last.Ok? && accept(last.body) then Some(last.body)
      else None
  }

  predicate IsArray(v: JsValue) {
    v.JArr?
  }

  /** The URL loop of `fetchChainTvl`: stops at the first 2xx reply whose body is an array. */
  method FetchArray(urls: seq<string>, fetch: string -> Reply) returns (arr: Option<seq<JsValue>>)
    ensures arr.Some? <==> FirstOk(urls, fetch, IsArray).Some?
    ensures arr.Some? ==> FirstOk(urls, fetch, IsArray) == Some(JArr(arr.value))
  {
    arr := None;
    var i := 0;
    while i < |urls|
      invariant 0 <= i <= |urls|
      invariant arr.None? && FirstOk(urls[..i], fetch, IsArray).None?
    {
      var r := fetch(urls[i]);
      assert urls[..i + 1][..i] == urls[..i];
      if r.Ok? && r.body.JArr? {
        arr := Some(r.body.items);
        FirstOkPrefix(urls, i + 1, fetch, IsArray);
        return;
      }
      i := i + 1;
    }
    assert urls[..i] == urls;
  }

  /** The URL loop of `fetchDexVolumeSeries`: `j` takes every parsed 2xx body until one is truthy;
      a falsy body does not stop the loop, and a later failure leaves it in place. */
  method FetchTruthy(urls: seq<string>, fetch: string -> Reply) returns (j: JsValue)
    ensures Truthy(j) <==> FirstOk(urls, fetch, Truthy).Some?
    ensures Truthy(j) ==> FirstOk(urls, fetch, Truthy) == Some(j)
  {
    j := JNull;
    var i := 0;
    while i < |urls|
      invariant 0 <= i <= |urls|
      invariant !Truthy(j) && FirstOk(urls[..i], fetch, Truthy).None?
    {
      var r := fetch(urls[i]);
      assert urls[..i + 1][..i] == urls[..i];
      if r.Ok? {
        j := r.body;
        if Truthy(j) {
          FirstOkPrefix(urls, i + 1, fetch, Truthy);
          return;
        }
      }
      i := i + 1;
    }
    assert urls[..i] == urls;
  }

  /** Once a prefix of the URLs has a hit, the whole list has the same first hit. */
  lemma {:induction false} FirstOkPrefix(urls: seq<string>, n: int, fetch: string -> Reply, accept: JsValue -> bool)
    requires 0 <= n <= |urls| && FirstOk(urls[..n], fetch, accept).Some?
    ensures FirstOk(urls, fetch, accept) == FirstOk(urls[..n], fetch, accept)
    decreases |urls| - n
  {
    if n < |urls| {
      FirstOkPrefix(urls, n + 1, fetch, accept);
      assert urls[..n + 1][..n] == urls[..n];
    } else {
      assert urls[..n] == urls;
    }
  }

  /** `chain === "ethereum" ? "Ethereum" : "Avalanche"`. */
  function ChainName(chain: string): string {
    if chain == "ethereum" then "Ethereum" else "Avalanche"
  }

  /** The URLs of the TVL history: the keyed pro endpoint when a key is set, then the open one.
      `encode` is `encodeURIComponent`. */
  function TvlUrls(key: Option<string>, chainName: string, encode: string -> string): (r: seq<string>)
    ensures |r| == if key.Some? then 2 else 1
    ensures r[|r| - 1] == "https://api.llama.fi/v2/historicalChainTvl/" + encode(chainName)
    ensures key.Some? ==> r[0] == "https://pro-api.llama.fi/" + encode(key.value) + "/api/v2/historicalChainTvl/" + encode(chainName)
  {
    var open := "https://api.llama.fi/v2/historicalChainTvl/" + encode(chainName);
    match key
    case Some(k) =>
      ["https://pro-api.llama.fi/" + encode(k) + "/api/v2/historicalChainTvl/" + encode(chainName), open]
    case None => [open]
  }

  /** The URLs of the DEX volume overview, in the same order. */
  function VolumeUrls(key: Option<string>, chain: string, encode: string -> string): (r: seq<string>)
    ensures |r| == if key.Some? then 2 else 1
    ensures r[|r| - 1] == "https://api.llama.fi/overview/dexs/" + encode(chain)
    ensures key.Some? ==> r[0] == "https://pro-api.llama.fi/" + encode(key.value) + "/overview/dexs/" + encode(chain)
  {
    var open := "https://api.llama.fi/overview/dexs/" + encode(chain);
    match key
    case Some(k) => ["https://pro-api.llama.fi/" + encode(k) + "/overview/dexs/" + encode(chain), open]
    case None => [open]
  }

  /** `fetchChainTvl`. */
  function TvlSeries(chain: string, key: Option<string>, fetch: string -> Reply, co: Coerce,
                     encode: string -> string): (r: Outcome<seq<Point>>)
    ensures r.Thrown? ==> r.message == "tvl_upstream_unavailable"
    ensures r.Thrown? <==> FirstOk(TvlUrls(key, ChainName(chain), encode), fetch, IsArray).None?
    ensures r.Done? ==> SortedByT(r.value)
    ensures r.Done? ==>
              r.value == Normalise(FirstOk(TvlUrls(key, ChainName(chain), encode), fetch, IsArray).value.items, TvlPointOf(co))
  {
    match FirstOk(TvlUrls(key, ChainName(chain), encode), fetch, IsArray)
    case None => Thrown("tvl_upstream_unavailable")
    case Some(j) => Done(Normalise(j.items, TvlPointOf(co)))
  }

  /** `fetchDexVolumeSeries`. */
  function VolumeSeries(chain: string, key: Option<string>, fetch: string -> Reply, co: Coerce,
                        encode: string -> string): (r: Outcome<seq<Point>>)
    ensures r.Thrown? ==> r.message == "volume_upstream_unavailable" || r.message == "volume_series_missing"
    ensures r == Thrown("volume_upstream_unavailable") <==> FirstOk(VolumeUrls(key, chain, encode), fetch, Truthy).None?
    ensures r == Thrown("volume_series_missing") <==>
              && FirstOk(VolumeUrls(key, chain, encode), fetch, Truthy).Some?
              && VolumeSeriesOf(FirstOk(VolumeUrls(key, chain, encode), fetch, Truthy).value).None?
    ensures r.Done? ==> SortedByT(r.value)
    ensures r.Done? ==>
              && FirstOk(VolumeUrls(key, chain, encode), fetch, Truthy).Some?
              && VolumeSeriesOf(FirstOk(VolumeUrls(key, chain, encode), fetch, Truthy).value).Some?
              && r.value == Normalise(VolumeSeriesOf(FirstOk(VolumeUrls(key, chain, encode), fetch, Truthy).value).value,
                                      VolPointOf(co))
  {
    match FirstOk(VolumeUrls(key, chain, encode), fetch, Truthy)
    case None => Thrown("volume_upstream_unavailable")
    case Some(j) =>
      match VolumeSeriesOf(j)
      case None => Thrown("volume_series_missing")
      case Some(items) => Done(Normalise(items, VolPointOf(co)))
  }

  /** The number of points each chart keeps. */
  const Window: nat := 180

  datatype ChartsBody =
    | Charts(chain: string, tvl: seq<Point>, volumeWeekly: seq<Candle>, updatedAt: int)
    | Invalid(error: string)
    | Upstream(error: string, message: string)

  /** The chain query parameter as the handler reads it: `(get("chain") || "").toLowerCase()`. */
  function ChainParam(req: Request): string {
    ToLower(ParamOr(req, "chain", ""))
  }

  predicate ValidChain(chain: string) {
    chain == "ethereum" || chain == "avalanche"
  }

  /** The chain parameter is matched without regard to letter case: `?chain=ETHEREUM` selects
      ethereum. */
  lemma {:induction false} ChainCaseIgnored(req: Request, chain: string)
    requires ValidChain(chain)
    requires "chain" in req.query && req.query["chain"] == ToUpper(chain)
    ensures ChainParam(req) == chain
  {
    LowerOfUpper(chain);
    assert ToLower(chain) == chain by {
      assert forall i :: 0 <= i < |chain| ==> ToLower(chain)[i] == chain[i];
    }
  }

  /** `getChainCharts` with its caller's `try`/`catch`: both series are read, and the first
      failure (the TVL one when both fail) becomes a 502 `upstream_failed` carrying its message. */
  function GetChainCharts(chain: string, key: Option<string>, fetch: string -> Reply, co: Coerce,
                          encode: string -> string, now: int): (r: Response<ChartsBody>)
    ensures r.status == 200 || r.status == 502
    ensures r.status == 502 ==>
              && r.body.Upstream? && r.body.error == "upstream_failed"
              && (r.body.message == "tvl_upstream_unavailable" || r.body.message == "volume_upstream_unavailable"
                  || r.body.message == "volume_series_missing")
    ensures r.status == 200 ==> r.body.Charts? && r.body.chain == chain && r.body.updatedAt == now
    ensures r.status == 200 ==> |r.body.tvl| <= Window && SortedByT(r.body.tvl)
    ensures var tvl := TvlSeries(chain, key, fetch, co, encode);
            var vol := VolumeSeries(chain, key, fetch, co, encode);
            && (r.status == 200 <==> tvl.Done? && vol.Done?)
            && (tvl.Thrown? ==> r == Response(502, Upstream("upstream_failed", tvl.message)))
            && (tvl.Done? && vol.Thrown? ==> r == Response(502, Upstream("upstream_failed", vol.message)))
            && (r.status == 200 ==>
                  && r.body.tvl == TakeLast(tvl.value, Window)
                  && r.body.volumeWeekly == WeeklyCandles(TakeLast(vol.value, Window)))
  {
    Respond(chain, TvlSeries(chain, key, fetch, co, encode), VolumeSeries(chain, key, fetch, co, encode), now)
  }

  /** The answer once both series have been read: the first failure becomes a 502, otherwise
      the last 180 TVL points and the weekly candles of the last 180 volume points. */
  function Respond(chain: string, tvl: Outcome<seq<Point>>, vol: Outcome<seq<Point>>, now: int): (r: Response<ChartsBody>)
    requires tvl.Done? ==> SortedByT(tvl.value)
    ensures r.status == 200 <==> tvl.Done? && vol.Done?
    ensures tvl.Thrown? ==> r == Response(502, Upstream("upstream_failed", tvl.message))
    ensures tvl.Done? && vol.Thrown? ==> r == Response(502, Upstream("upstream_failed", vol.message))
    ensures r.status == 200 ==>
              && r.body == Charts(chain, TakeLast(tvl.value, Window), WeeklyCandles(TakeLast(vol.value, Window)), now)
              && |r.body.tvl| <= Window && SortedByT(r.body.tvl)
  {
    if tvl.Thrown? then Response(502, Upstream("upstream_failed", tvl.message))
    else if vol.Thrown? then Response(502, Upstream("upstream_failed", vol.message))
    else
      SuffixSorted(tvl.value, Window);
      Response(200, Charts(chain, TakeLast(tvl.value, Window), WeeklyCandles(TakeLast(vol.value, Window)), now))
  }

  /** `VITE_LLAMA_API_KEY || null`. */
  function KeyOf(envKey: Option<string>): (r: Option<string>)
    ensures r.Some? ==> r.value != ""
    ensures envKey.Some? && envKey.value != "" ==> r == envKey
    ensures r.None? <==> envKey.None? || envKey.value == ""
  {
    if envKey.Some? && envKey.value != "" then envKey else None
  }

  /** `onRequest`: a chain other than ethereum or avalanche is a 400; any other request gets the
      charts or a 502. `envKey` is `VITE_LLAMA_API_KEY`, `now` is `Date.now()`. */
  function OnRequest(req: Request, envKey: Option<string>, fetch: string -> Reply, co: Coerce,
                     encode: string -> string, now: int): (r: Response<ChartsBody>)
    ensures r.status == 400 <==> !ValidChain(ChainParam(req))
    ensures r.status == 400 ==> r.body == Invalid("missing_or_invalid_chain")
    ensures r.status != 400 ==> r == GetChainCharts(ChainParam(req), KeyOf(envKey), fetch, co, encode, now)
  {
    var chain := ChainParam(req);
    if chain == "" || (chain != "ethereum" && chain != "avalanche") then
      Response(400, Invalid("missing_or_invalid_chain"))
    else
      GetChainCharts(chain, KeyOf(envKey), fetch, co, encode, now)
  }

  /** The last n points of a sorted series are sorted. */
  lemma {:induction false} SuffixSorted(s: seq<Point>, n: nat)
    requires SortedByT(s)
    ensures SortedByT(TakeLast(s, n))
  {
    var r := TakeLast(s, n);
    var d := |s| - |r|;
    forall i, j | 0 <= i < j < |r|
      ensures r[i].t <= r[j].t
    {
      assert r[i] == s[d + i] && r[j] == s[d + j];
    }
  }

  /** An unsupported chain is answered before any upstream request: the response does not depend
      on what the upstream would return. */
  lemma {:induction false} InvalidChainBeforeFetch(req: Request, envKey: Option<string>, f1: string -> Reply, f2: string -> Reply,
                                co: Coerce, encode: string -> string, now: int)
    requires !ValidChain(ChainParam(req))
    ensures OnRequest(req, envKey, f1, co, encode, now) == OnRequest(req, envKey, f2, co, encode, now)
  {
  }

  /** Without a key only the open endpoints are asked; with one, the keyed endpoint is asked first
      and the open one only when it gives no usable answer. */
  lemma {:induction false} KeyedEndpointFirst(k: string, chain: string, fetch: string -> Reply, encode: string -> string)
    requires fetch(TvlUrls(Some(k), ChainName(chain), encode)[0]).Ok?
    requires fetch(TvlUrls(Some(k), ChainName(chain), encode)[0]).body.JArr?
    ensures FirstOk(TvlUrls(Some(k), ChainName(chain), encode), fetch, IsArray)
            == Some(fetch(TvlUrls(Some(k), ChainName(chain), encode)[0]).body)
  {
    var urls := TvlUrls(Some(k), ChainName(chain), encode);
    assert urls[..1] == [urls[0]];
    assert urls[..1][..0] == [];
    FirstOkPrefix(urls, 1, fetch, IsArray);
  }

  /** With no TVL history anywhere, a supported chain is answered with the 502
      `upstream_failed` naming that failure, whatever the volume requests give. */
  lemma {:induction false} ChartsWithoutTvl(req: Request, envKey: Option<string>, fetch: string -> Reply, co: Coerce,
                         encode: string -> string, now: int)
    requires ValidChain(ChainParam(req))
    requires FirstOk(TvlUrls(KeyOf(envKey), ChainName(ChainParam(req)), encode), fetch, IsArray).None?
    ensures OnRequest(req, envKey, fetch, co, encode, now)
            == Response(502, Upstream("upstream_failed", "tvl_upstream_unavailable"))
  {
  }

  /** When both series arrive, the 200 body holds the last 180 TVL points and the weekly candles
      of the last 180 volume points. */
  lemma {:induction false} ChartsOfSeries(req: Request, envKey: Option<string>, fetch: string -> Reply, co: Coerce,
                       encode: string -> string, now: int)
    requires ValidChain(ChainParam(req))
    requires TvlSeries(ChainParam(req), KeyOf(envKey), fetch, co, encode).Done?
    requires VolumeSeries(ChainParam(req), KeyOf(envKey), fetch, co, encode).Done?
    ensures OnRequest(req, envKey, fetch, co, encode, now).status == 200
    ensures OnRequest(req, envKey, fetch, co, encode, now).body.tvl ==
              TakeLast(TvlSeries(ChainParam(req), KeyOf(envKey), fetch, co, encode).value, Window)
    ensures OnRequest(req, envKey, fetch, co, encode, now).body.volumeWeekly ==
              WeeklyCandles(TakeLast(VolumeSeries(ChainParam(req), KeyOf(envKey), fetch, co, encode).value, Window))
  {
  }
}

=== FILE: eth.dfy ===
/** The validators endpoint (`functions/api/eth.js`): reads a list of validator indices, asks the
    beaconcha.in v2 batch endpoints for an overview and for APY/ROI, falls back to the per-validator
    v1 endpoints when the v2 answer says the subscription tier forbids the request, and otherwise
    forwards a clean 502. Each upstream request is a `Call` answered by the oracle `fetch`. */
module Eth {
  import opened Seqs
  import opened Text
  import opened Js
  import opened Http

  // ---------------------------------------------------------------------------------------------
  // The tier-error detector

  const TierPhrases: seq<string> :=
    ["validator selector type not allowed", "subscription tier", "upgrade your subscription"]

  /** `isSelectorTierError(text)`: the lower-cased text names the v2 selector restriction or the
      subscription tier. */
  predicate IsSelectorTierError(text: string) {
    exists i :: 0 <= i < |TierPhrases| && Contains(ToLower(text), TierPhrases[i])
  }

  /** The detector, as the source computes it: three `includes` tests on the lower-cased text. */
  function SelectorTierError(text: string): (r: bool)
    ensures r <==> IsSelectorTierError(text)
  {
    var t := ToLower(text);
    assert TierPhrases[0] == "validator selector type not allowed";
    assert TierPhrases[1] == "subscription tier" && TierPhrases[2] == "upgrade your subscription";
    Contains(t, "validator selector type not allowed")
      || Contains(t, "subscription tier")
      || Contains(t, "upgrade your subscription")
  }

  /** Letter case does not matter to the detector. */
  lemma {:induction false} TierErrorIgnoresCase(text: string)
    ensures SelectorTierError(ToUpper(text)) == SelectorTierError(text)
  {
    LowerOfUpper(text);
  }

  /** A tier error stays a tier error whatever text surrounds it (a JSON envelope, say). */
  lemma {:induction false} TierErrorInContext(a: string, text: string, b: string)
    requires SelectorTierError(text)
    ensures SelectorTierError(a + text + b)
  {
    ToLowerConcat(a, text);
    ToLowerConcat(a + text, b);
    var i :| 0 <= i < |TierPhrases| && Contains(ToLower(text), TierPhrases[i]);
    ContainsInContext(ToLower(a), ToLower(text), ToLower(b), TierPhrases[i]);
  }

  /** An empty failure text is not a tier error. */
  lemma {:induction false} EmptyIsNoTierError()
    ensures !SelectorTierError("")
  {
    assert ToLower("") == "";
  }

  // ---------------------------------------------------------------------------------------------
  // Reading the request

  /** The request after `readBody`: the validator indices and the APY evaluation window. */
  datatype Query = Query(validators: seq<nat>, window: JsValue)

  /** Step one of the GET path for one token: `Number(x)`, kept when it is an integer. */
  function TokenNumber(tok: string, co: Coerce): (r: Option<JsValue>)
    ensures r.Some? <==> co.parse(tok).Some? && IsInteger(co.parse(tok).value)
    ensures r.Some? ==> r.value == JNum(co.parse(tok).value)
  {
    match co.parse(tok)
    case Some(n) => if IsInteger(n) then Some(JNum(n)) else None
    case None => None
  }

  function IntegerToken(co: Coerce): string -> Option<JsValue> {
    tok => TokenNumber(tok, co)
  }

  /** The clamp shared by both paths, for one entry: `Number(n)`, kept when it is a non-negative
      integer, and then that very number. */
  function SanitiseEntry(v: JsValue, co: Coerce): (r: Option<nat>)
    ensures r.Some? <==> JsNumber(v, co).Some? && IsInteger(JsNumber(v, co).value) && JsNumber(v, co).value >= 0.0
    ensures r.Some? ==> r.value as real == JsNumber(v, co).value
  {
    match JsNumber(v, co)
    case Some(n) => if IsInteger(n) && n >= 0.0 then Some(n.Floor as nat) else None
    case None => None
  }

  function Sanitised(co: Coerce): JsValue -> Option<nat> {
    v => SanitiseEntry(v, co)
  }

  /** The entries the GET path hands to the clamp: the `validators` parameter split at each comma,
      trimmed, blanks dropped, and the tokens that are integers kept as numbers. */
  function GetEntries(raw: string, co: Coerce): seq<JsValue> {
    FilterMap(NonBlank(SplitAny(raw, {','})), IntegerToken(co))
  }

  /** The entries the POST path hands to the clamp: `Array.isArray(body.validators) ?
      body.validators : []`. */
  function PostEntries(body: JsValue): seq<JsValue> {
    var vs := Field(body, "validators");
    if vs.JArr? then vs.items else []
  }

  function Entries(req: Request, co: Coerce): seq<JsValue> {
    if req.verb == Get then GetEntries(ParamOr(req, "validators", ""), co) else PostEntries(BodyOrEmpty(req))
  }

  /** `readBody(request)`. GET reads the `validators` and `window` query parameters; POST reads
      the JSON body (an unparsable body counts as `{}`). Either way only the entries whose
      `Number` is a non-negative integer survive, in their order. A POST body that is JSON `null`
      makes `body.validators` throw. */
  function ReadBody(req: Request, co: Coerce): (r: Outcome<Query>)
    ensures r.Thrown? <==> req.verb != Get && req.body == Some(JNull)
    ensures r.Done? ==> forall i :: 0 <= i < |r.value.validators| ==>
              exists j :: 0 <= j < |Entries(req, co)| && JsNumber(Entries(req, co)[j], co) == Some(r.value.validators[i] as real)
    ensures r.Done? ==> forall j, n: nat :: 0 <= j < |Entries(req, co)| && JsNumber(Entries(req, co)[j], co) == Some(n as real) ==>
              n in r.value.validators
    ensures r.Done? && req.verb == Get ==> r.value.window == JStr(ParamOr(req, "window", "30d"))
    ensures r.Done? && req.verb != Get ==> Truthy(r.value.window)
    ensures r.Done? && req.verb != Get ==>
              r.value.window == (if Truthy(Field(BodyOrEmpty(req), "window")) then Field(BodyOrEmpty(req), "window")
                                 else JStr("30d"))
    ensures r.Done? ==> r.value.validators == FilterMap(Entries(req, co), Sanitised(co))
  {
    var body := BodyOrEmpty(req);
    if req.verb != Get && body.JNull? then Thrown(RuntimeError)
    else
      var entries := Entries(req, co);
      var validators := FilterMap(entries, Sanitised(co));
      forall i | 0 <= i < |validators|
        ensures exists j :: 0 <= j < |entries| && JsNumber(entries[j], co) == Some(validators[i] as real)
      {
        assert validators[i] in validators;
        var j :| 0 <= j < |entries| && Sanitised(co)(entries[j]) == Some(validators[i]);
        assert JsNumber(entries[j], co) == Some(validators[i] as real);
      }
      forall j, n: nat | 0 <= j < |entries| && JsNumber(entries[j], co) == Some(n as real)
        ensures n in validators
      {
        assert Sanitised(co)(entries[j]) == Some(n);
      }
      var w := Field(body, "window");
      var window := if req.verb == Get then JStr(ParamOr(req, "window", "30d"))
                    else if Truthy(w) then w else JStr("30d");
      Done(Query(validators, window))
  }

  /** The GET path keeps the order of the list: the validators of `a,b` are those of a followed
      by those of b. */
  lemma {:induction false} GetValidatorsConcat(a: string, b: string, co: Coerce)
    ensures FilterMap(GetEntries(a + [','] + b, co), Sanitised(co))
            == FilterMap(GetEntries(a, co), Sanitised(co)) + FilterMap(GetEntries(b, co), Sanitised(co))
  {
    SplitAnyConcat(a, ',', b, {','});
    NonBlankConcat(SplitAny(a, {','}), SplitAny(b, {','}));
    FilterMapConcat(NonBlank(SplitAny(a, {','})), NonBlank(SplitAny(b, {','})), IntegerToken(co));
    FilterMapConcat(GetEntries(a, co), GetEntries(b, co), Sanitised(co));
  }

  /** The POST path keeps the order and the repetitions of the `validators` array: when it is
      a followed by b, the validators are those of a followed by those of b. */
  lemma {:induction false} PostValidatorsConcat(req: Request, a: seq<JsValue>, b: seq<JsValue>, co: Coerce)
    requires req.verb != Get && Field(BodyOrEmpty(req), "validators") == JArr(a + b)
    ensures ReadBody(req, co).Done?
    ensures ReadBody(req, co).value.validators == FilterMap(a, Sanitised(co)) + FilterMap(b, Sanitised(co))
  {
    assert !BodyOrEmpty(req).JNull?;
    FilterMapConcat(a, b, Sanitised(co));
  }

  /** One POST entry becomes one validator when its `Number` is a non-negative integer, and
      nothing otherwise. */
  lemma {:induction false} PostValidatorsOne(req: Request, x: JsValue, co: Coerce)
    requires req.verb != Get && Field(BodyOrEmpty(req), "validators") == JArr([x])
    ensures ReadBody(req, co).Done?
    ensures ReadBody(req, co).value.validators
            == if Sanitised(co)(x).Some? then [Sanitised(co)(x).value] else []
  {
    assert !BodyOrEmpty(req).JNull?;
    FilterMapConcat([], [x], Sanitised(co));
  }

  /** POST entries are coerced by `Number`: `null` is validator 0 and `true` validator 1, while
      a negative or a fractional number is dropped. */
  lemma {:induction false} PostEntryCoercions(co: Coerce)
    ensures Sanitised(co)(JNull) == Some(0)
    ensures Sanitised(co)(JBool(true)) == Some(1)
    ensures Sanitised(co)(JNum(-1.0)) == None
    ensures Sanitised(co)(JNum(2.5)) == None
  {
    assert !IsInteger(2.5) by { assert (2.5).Floor == 2; }
  }

  // ---------------------------------------------------------------------------------------------
  // The upstream requests

  /** The beaconcha.in endpoint a request goes to: the v2 overview and APY/ROI batch endpoints,
      and the v1 validator and balance endpoints of one index. */
  datatype Endpoint = V2Overview | V2ApyRoi | V1Validator(index: nat) | V1Balance(index: nat)

  /** One upstream request: the endpoint, the Authorization header (None when it is left out)
      and the JSON body. */
  datatype Call = Call(endpoint: Endpoint, auth: Option<string>, body: Option<JsValue>)

  /** The most validators one v2 page holds. */
  const PageCap: nat := 50

  /** `Math.min(50, Math.max(1, n || 1))`: the v2 `page_size` for n validators. */
  function PageSize(n: nat): (r: nat)
    ensures 1 <= r <= PageCap
    ensures 1 <= n <= PageCap ==> r == n
    ensures n > PageCap ==> r == PageCap
  {
    var len := if n == 0 then 1 else n;
    var atLeastOne := if len > 1 then len else 1;
    if atLeastOne < 50 then atLeastOne else 50
  }

  /** The validator indices as JSON numbers. */
  function Numbers(vs: seq<nat>): (r: seq<JsValue>)
    ensures |r| == |vs|
    ensures forall i :: 0 <= i < |vs| ==> r[i] == JNum(vs[i] as real)
  {
    seq(|vs|, i requires 0 <= i < |vs| => JNum(vs[i] as real))
  }

  /** `{ validator_identifiers: validators }`. */
  function Selector(vs: seq<nat>): JsValue {
    JObj(map["validator_identifiers" := JArr(Numbers(vs))])
  }

  /** The v2 overview request. The bearer header is sent even when the key is empty. */
  function OverviewCall(key: string, vs: seq<nat>): (r: Call)
    ensures r.endpoint == V2Overview && r.auth == Some("Bearer " + key) && r.body.Some?
    ensures Field(r.body.value, "page_size") == JNum(PageSize(|vs|) as real)
    ensures Path(r.body.value, ["validator", "validator_identifiers"]) == JArr(Numbers(vs))
  {
    Call(V2Overview, Some("Bearer " + key),
         Some(JObj(map["chain" := JStr("mainnet"), "page_size" := JNum(PageSize(|vs|) as real),
                       "cursor" := JStr(""), "validator" := Selector(vs)])))
  }

  /** The v2 APY/ROI request over the evaluation window. */
  function ApyCall(key: string, vs: seq<nat>, window: JsValue): (r: Call)
    ensures r.endpoint == V2ApyRoi && r.auth == Some("Bearer " + key) && r.body.Some?
    ensures Path(r.body.value, ["validator", "validator_identifiers"]) == JArr(Numbers(vs))
    ensures Path(r.body.value, ["range", "evaluation_window"]) == window
  {
    Call(V2ApyRoi, Some("Bearer " + key),
         Some(JObj(map["chain" := JStr("mainnet"), "validator" := Selector(vs),
                       "range" := JObj(map["evaluation_window" := window])])))
  }

  /** The v1 requests carry the bearer header only when there is a key. */
  function V1Auth(key: string): (r: Option<string>)
    ensures r.None? <==> key == ""
    ensures r.Some? ==> r.value == "Bearer " + key
  {
    if key != "" then Some("Bearer " + key) else None
  }

  // ---------------------------------------------------------------------------------------------
  // Output records

  /** One validator as the front end receives it. */
  datatype Record = Record(validatorId: JsValue, status: JsValue, online: JsValue,
                           balanceEth: Shown, effectiveBalanceEth: Shown,
                           apy30d: Shown, roi30d: Shown, finality: Shown)

  const GweiPerEth: real := 1000000000.0

  /** `gweiToEth(x)`: `Number(x) / 1e9` when that is finite, null otherwise. Because
      `Number(null)` is 0, the null the callers pass for a missing balance becomes 0 ETH. */
  function GweiToEth(x: JsValue, co: Coerce): (r: Option<real>)
    ensures r.None? <==> JsNumber(x, co).None?
    ensures r.Some? ==> r.value * GweiPerEth == JsNumber(x, co).value
    ensures x.JNull? ==> r == Some(0.0)
  {
    match JsNumber(x, co)
    case Some(n) => Some(n / GweiPerEth)
    case None => None
  }

  /** A missing balance (`?? null`) is converted to 0 ETH rather than to null. */
  lemma {:induction false} MissingBalanceReadsZero(co: Coerce)
    ensures GweiToEth(OrNull(JUndef), co) == Some(0.0)
  {
  }

  /** A balance in gwei shown in ETH, or "—" when `gweiToEth` gives null (decimal formatting is
      not modelled). */
  function EthAmount(x: JsValue, co: Coerce): (r: Shown)
    ensures r == Dash <==> JsNumber(x, co).None?
    ensures r != Dash ==> r.Amount? && r.units * GweiPerEth == JsNumber(x, co).value
  {
    match GweiToEth(x, co)
    case Some(e) => Amount(e)
    case None => Dash
  }

  /** The conversion as its callers evidently intend it: null for a missing value as well as for
      a non-finite one, so that the `=== null ? "—"` tests show the placeholder. */
  function IntendedGweiToEth(x: JsValue, co: Coerce): (r: Option<real>)
    ensures r.None? <==> IsNullish(x) || JsNumber(x, co).None?
    ensures r.Some? ==> r.value * GweiPerEth == JsNumber(x, co).value
  {
    if IsNullish(x) then None else GweiToEth(x, co)
  }

  /** The amount shown with the intended conversion: "—" exactly for a missing or non-finite
      balance. */
  function IntendedEthAmount(x: JsValue, co: Coerce): (r: Shown)
    ensures r == Dash <==> IsNullish(x) || JsNumber(x, co).None?
    ensures r != Dash ==> r.Amount? && r.units * GweiPerEth == JsNumber(x, co).value
  {
    match IntendedGweiToEth(x, co)
    case Some(e) => Amount(e)
    case None => Dash
  }

  /** `total === null ? "—" : `${Number(total).toFixed(2)}%``, where `total` is `... ?? null`. */
  function PercentOr(total: JsValue): (r: Shown)
    ensures r == Dash <==> IsNullish(total)
    ensures !IsNullish(total) ==> r == Percent(total)
  {
    if IsNullish(total) then Dash else Percent(total)
  }

  /** The record `tryV2` makes of one overview entry v, with the APY/ROI answer shared by all. */
  function V2Record(v: JsValue, apy: JsValue, co: Coerce): (r: Record)
    ensures r.validatorId == (if IsNullish(Path(v, ["validator", "index"])) then JNull else Path(v, ["validator", "index"]))
    ensures r.status == (if IsNullish(Field(v, "status")) then JNull else Field(v, "status"))
    ensures r.online == (if IsNullish(Field(v, "online")) then JNull else Field(v, "online"))
    ensures r.balanceEth == EthAmount(OrNull(Path(v, ["balances", "current"])), co)
    ensures r.effectiveBalanceEth == EthAmount(OrNull(Path(v, ["balances", "effective"])), co)
    ensures r.apy30d == PercentOr(Path(apy, ["data", "combined", "apy", "total"]))
    ensures r.roi30d == PercentOr(Path(apy, ["data", "combined", "roi", "total"]))
    ensures r.finality == OrDash(Path(apy, ["data", "finality"]))
  {
    Record(OrNull(Path(v, ["validator", "index"])),
           OrNull(Field(v, "status")),
           OrNull(Field(v, "online")),
           EthAmount(OrNull(Path(v, ["balances", "current"])), co),
           EthAmount(OrNull(Path(v, ["balances", "effective"])), co),
           PercentOr(OrNull(Path(apy, ["data", "combined", "apy", "total"]))),
           PercentOr(OrNull(Path(apy, ["data", "combined", "roi", "total"]))),
           OrDash(OrNull(Path(apy, ["data", "finality"]))))
  }

  /** An overview entry without balances shows 0 ETH for both balances, where the "—"
      placeholder was meant. */
  lemma {:induction false} EntryWithoutBalance(apy: JsValue, co: Coerce)
    ensures V2Record(JObj(map[]), apy, co).balanceEth == Amount(0.0)
    ensures V2Record(JObj(map[]), apy, co).effectiveBalanceEth == Amount(0.0)
  {
    assert Path(JObj(map[]), ["balances", "current"]) == JUndef;
    assert Path(JObj(map[]), ["balances", "effective"]) == JUndef;
  }

  /** With the intended conversion, the same entry shows the placeholder for both balances. */
  lemma {:induction false} IntendedEntryWithoutBalance(co: Coerce)
    ensures IntendedEthAmount(OrNull(Path(JObj(map[]), ["balances", "current"])), co) == Dash
    ensures IntendedEthAmount(OrNull(Path(JObj(map[]), ["balances", "effective"])), co) == Dash
  {
    assert Path(JObj(map[]), ["balances", "current"]) == JUndef;
    assert Path(JObj(map[]), ["balances", "effective"]) == JUndef;
  }

  // ---------------------------------------------------------------------------------------------
  // The v2 batch attempt

  /** What `tryV2` returns: the records, or which request failed with its status and text. */
  datatype V2Result = V2Ok(records: seq<Record>) | V2Fail(why: string, text: string, status: int)

  /** `tryV2`: both requests are sent together. A rejected request, an unparsable 2xx body or an
      overview `data` that is truthy but not an array throws; a non-2xx answer, the overview's
      first, is reported with its text. */
  function TryV2(key: string, vs: seq<nat>, window: JsValue, fetch: Call -> Reply, co: Coerce): (r: Outcome<V2Result>)
    ensures r.Thrown? ==> r.message == RuntimeError
    ensures r.Done? && r.value.V2Fail? ==>
              (r.value.why == "overview" && fetch(OverviewCall(key, vs)).NotOk?
                  && fetch(OverviewCall(key, vs)).status == r.value.status && fetch(OverviewCall(key, vs)).text == r.value.text)
              || (r.value.why == "apy" && (fetch(OverviewCall(key, vs)).Ok? || fetch(OverviewCall(key, vs)).BadJson?)
                  && fetch(ApyCall(key, vs, window)).NotOk?
                  && fetch(ApyCall(key, vs, window)).status == r.value.status && fetch(ApyCall(key, vs, window)).text == r.value.text)
    ensures r.Done? && r.value.V2Ok? ==>
              fetch(OverviewCall(key, vs)).Ok? && fetch(ApyCall(key, vs, window)).Ok?
              && forall i :: 0 <= i < |r.value.records| ==>
                   r.value.records[i].apy30d == r.value.records[0].apy30d
                   && r.value.records[i].finality == r.value.records[0].finality
    ensures var ov := fetch(OverviewCall(key, vs)); var ap := fetch(ApyCall(key, vs, window));
            (ov.NetworkError? || ap.NetworkError?) ==> r == Thrown(RuntimeError)
    ensures var ov := fetch(OverviewCall(key, vs)); var ap := fetch(ApyCall(key, vs, window));
            ov.NotOk? && !ap.NetworkError? ==> r == Done(V2Fail("overview", ov.text, ov.status))
    ensures var ov := fetch(OverviewCall(key, vs)); var ap := fetch(ApyCall(key, vs, window));
            (ov.Ok? || ov.BadJson?) && ap.NotOk? ==> r == Done(V2Fail("apy", ap.text, ap.status))
    ensures var ov := fetch(OverviewCall(key, vs)); var ap := fetch(ApyCall(key, vs, window));
            ov.Ok? && ap.Ok? ==>
              (r.Done? <==> ArrayOr(Field(ov.body, "data")).Some?)
              && (r.Done? ==>
                    && r.value.V2Ok?
                    && |r.value.records| == |ArrayOr(Field(ov.body, "data")).value|
                    && forall i :: 0 <= i < |r.value.records| ==>
                         r.value.records[i] == V2Record(ArrayOr(Field(ov.body, "data")).value[i], ap.body, co))
  {
    var ov := fetch(OverviewCall(key, vs));
    var ap := fetch(ApyCall(key, vs, window));
    if ov.NetworkError? || ap.NetworkError? then Thrown(RuntimeError)
    else if ov.NotOk? then Done(V2Fail("overview", ov.text, ov.status))
    else if ap.NotOk? then Done(V2Fail("apy", ap.text, ap.status))
    else if ov.BadJson? || ap.BadJson? then Thrown(RuntimeError)
    else
      match ArrayOr(Field(ov.body, "data"))
      case None => Thrown(RuntimeError)
      case Some(items) =>
        Done(V2Ok(seq(|items|, i requires 0 <= i < |items| => V2Record(items[i], ap.body, co))))
  }

  /** With both answers 2xx and an overview `data` array, there is one record per overview entry,
      in order, carrying that entry's index, status and online flag. */
  lemma {:induction false} TryV2Entries(key: string, vs: seq<nat>, window: JsValue, fetch: Call -> Reply, co: Coerce)
    requires fetch(OverviewCall(key, vs)).Ok? && fetch(ApyCall(key, vs, window)).Ok?
    requires Field(fetch(OverviewCall(key, vs)).body, "data").JArr?
    ensures TryV2(key, vs, window, fetch, co).Done? && TryV2(key, vs, window, fetch, co).value.V2Ok?
    ensures var items := Field(fetch(OverviewCall(key, vs)).body, "data").items;
            var records := TryV2(key, vs, window, fetch, co).value.records;
            && |records| == |items|
            && forall i :: 0 <= i < |items| ==>
                 && records[i].validatorId == OrNull(Path(items[i], ["validator", "index"]))
                 && records[i].status == OrNull(Field(items[i], "status"))
                 && records[i].online == OrNull(Field(items[i], "online"))
  {
  }

  /** An overview without `data` (or with a falsy one) is a success with no records. */
  lemma {:induction false} TryV2NoData(key: string, vs: seq<nat>, window: JsValue, fetch: Call -> Reply, co: Coerce)
    requires fetch(OverviewCall(key, vs)).Ok? && fetch(ApyCall(key, vs, window)).Ok?
    requires !Truthy(Field(fetch(OverviewCall(key, vs)).body, "data"))
    ensures TryV2(key, vs, window, fetch, co) == Done(V2Ok([]))
  {
  }

  // ---------------------------------------------------------------------------------------------
  // The v1 fallback

  /** The most validators the fallback asks about. */
  const FallbackCap: nat := 50

  /** The status `fallbackV1` reports: `data.status`, then `status`, then `data.state`, then
      "unknown". */
  function V1Status(v: JsValue): (r: JsValue)
    ensures !IsNullish(Path(v, ["data", "status"])) ==> r == Path(v, ["data", "status"])
    ensures IsNullish(Path(v, ["data", "status"])) && !IsNullish(Field(v, "status")) ==> r == Field(v, "status")
    ensures IsNullish(Path(v, ["data", "status"])) && IsNullish(Field(v, "status")) ==>
              r == (if IsNullish(Path(v, ["data", "state"])) then JStr("unknown") else Path(v, ["data", "state"]))
    ensures !IsNullish(r)
  {
    var statuses := [Path(v, ["data", "status"]), Field(v, "status"), Path(v, ["data", "state"]), JStr("unknown")];
    assert statuses[1] == Field(v, "status") && statuses[2] == Path(v, ["data", "state"]);
    Coalesce(statuses)
  }

  /** The validator id `fallbackV1` reports: the index fields of the answer, then the requested
      index itself. */
  function V1Index(index: nat, v: JsValue): (r: JsValue)
    ensures !IsNullish(Path(v, ["data", "validatorindex"])) ==> r == Path(v, ["data", "validatorindex"])
    ensures IsNullish(Path(v, ["data", "validatorindex"])) && !IsNullish(Path(v, ["data", "index"])) ==>
              r == Path(v, ["data", "index"])
    ensures (&& IsNullish(Path(v, ["data", "validatorindex"])) && IsNullish(Path(v, ["data", "index"]))
             && !IsNullish(Field(v, "validatorindex"))) ==> r == Field(v, "validatorindex")
    ensures (&& IsNullish(Path(v, ["data", "validatorindex"])) && IsNullish(Path(v, ["data", "index"]))
             && IsNullish(Field(v, "validatorindex"))) ==> r == JNum(index as real)
    ensures !IsNullish(r)
  {
    var ids := [Path(v, ["data", "validatorindex"]), Path(v, ["data", "index"]), Field(v, "validatorindex"),
                JNum(index as real)];
    assert ids[1] == Path(v, ["data", "index"]) && ids[2] == Field(v, "validatorindex") && ids[3] == JNum(index as real);
    Coalesce(ids)
  }

  /** `Array.isArray(bal?.data) ? bal.data[0] : null`: the newest balance snapshot. */
  function BalanceRow(bal: JsValue): (r: JsValue)
    ensures Field(bal, "data").JArr? && |Field(bal, "data").items| > 0 ==> r == Field(bal, "data").items[0]
    ensures Field(bal, "data").JArr? && |Field(bal, "data").items| == 0 ==> r == JUndef
    ensures !Field(bal, "data").JArr? ==> r == JNull
  {
    var rows := Field(bal, "data");
    if rows.JArr? then Index(rows, 0) else JNull
  }

  /** `balRow?.balance ?? v?.data?.balance ?? null`: the snapshot's balance, then the validator
      answer's. */
  function CurrentBalance(v: JsValue, bal: JsValue): (r: JsValue)
    ensures !IsNullish(Field(BalanceRow(bal), "balance")) ==> r == Field(BalanceRow(bal), "balance")
    ensures IsNullish(Field(BalanceRow(bal), "balance")) ==> r == OrNull(Path(v, ["data", "balance"]))
  {
    var bs := [Field(BalanceRow(bal), "balance"), Path(v, ["data", "balance"]), JNull];
    assert bs[1] == Path(v, ["data", "balance"]);
    Coalesce(bs)
  }

  /** `v?.data?.effectivebalance ?? v?.data?.effective_balance ?? null`. */
  function EffectiveBalance(v: JsValue): (r: JsValue)
    ensures !IsNullish(Path(v, ["data", "effectivebalance"])) ==> r == Path(v, ["data", "effectivebalance"])
    ensures IsNullish(Path(v, ["data", "effectivebalance"])) ==> r == OrNull(Path(v, ["data", "effective_balance"]))
  {
    var bs := [Path(v, ["data", "effectivebalance"]), Path(v, ["data", "effective_balance"]), JNull];
    assert bs[1] == Path(v, ["data", "effective_balance"]);
    Coalesce(bs)
  }

  /** The record `fallbackV1` makes for the requested index from the validator answer v and the
      balance answer bal (null when that request failed). A balance stays "—" only when
      `gweiToEth` gives null. */
  function V1Record(index: nat, v: JsValue, bal: JsValue, co: Coerce): (r: Record)
    ensures r.online == JNull && r.apy30d == Dash && r.roi30d == Dash && r.finality == Dash
    ensures r.status == V1Status(v) && r.validatorId == V1Index(index, v)
    ensures r.balanceEth == EthAmount(CurrentBalance(v, bal), co)
    ensures r.effectiveBalanceEth == EthAmount(EffectiveBalance(v), co)
    ensures !IsNullish(r.validatorId) && !IsNullish(r.status)
  {
    Record(V1Index(index, v), V1Status(v), JNull, EthAmount(CurrentBalance(v, bal), co),
           EthAmount(EffectiveBalance(v), co), Dash, Dash, Dash)
  }

  /** One task of `fallbackV1`: the validator request (its failure throws), then the balance
      request (a non-2xx answer or an unparsable body is null; a rejection throws). */
  function V1Task(index: nat, key: string, fetch: Call -> Reply, co: Coerce): (r: Outcome<Record>)
    ensures fetch(Call(V1Validator(index), V1Auth(key), None)).NotOk? ==>
              r == Thrown("beaconcha v1 validator " + Decimal(index) + " failed: "
                          + IntText(fetch(Call(V1Validator(index), V1Auth(key), None)).status) + " "
                          + fetch(Call(V1Validator(index), V1Auth(key), None)).text)
    ensures r.Done? ==> fetch(Call(V1Validator(index), V1Auth(key), None)).Ok?
    ensures r.Done? ==> r.value.online == JNull && r.value.apy30d == Dash && r.value.roi30d == Dash
                        && r.value.finality == Dash
    ensures r.Done? ==> r.value == V1Record(index, fetch(Call(V1Validator(index), V1Auth(key), None)).body,
                                            BalanceOf(fetch(Call(V1Balance(index), V1Auth(key), None))), co)
    ensures var v := fetch(Call(V1Validator(index), V1Auth(key), None));
            v.NetworkError? || v.BadJson? ==> r == Thrown(RuntimeError)
    ensures var v := fetch(Call(V1Validator(index), V1Auth(key), None));
            var b := fetch(Call(V1Balance(index), V1Auth(key), None));
            v.Ok? ==> (r.Done? <==> !b.NetworkError?) && (b.NetworkError? ==> r == Thrown(RuntimeError))
  {
    var auth := V1Auth(key);
    match fetch(Call(V1Validator(index), auth, None))
    case NetworkError => Thrown(RuntimeError)
    case BadJson => Thrown(RuntimeError)
    case NotOk(status, _, text) =>
      Thrown("beaconcha v1 validator " + Decimal(index) + " failed: " + IntText(status) + " " + text)
    case Ok(v) =>
      var b := fetch(Call(V1Balance(index), auth, None));
      if b.NetworkError? then Thrown(RuntimeError) else Done(V1Record(index, v, BalanceOf(b), co))
  }

  /** `v1Balances`: the parsed body, or null. */
  function BalanceOf(b: Reply): (r: JsValue)
    ensures b.Ok? ==> r == b.body
    ensures !b.Ok? ==> r == JNull
  {
    if b.Ok? then b.body else JNull
  }

  /** The lookup of one index, as a function value for `All`. */
  function Task(key: string, fetch: Call -> Reply, co: Coerce): nat -> Outcome<Record> {
    (index: nat) => V1Task(index, key, fetch, co)
  }

  /** `fallbackV1`: one record per requested index, for the first 50 indices. */
  function FallbackV1(key: string, vs: seq<nat>, fetch: Call -> Reply, co: Coerce): (r: Outcome<seq<Record>>)
    ensures r.Done? ==> |r.value| == if |vs| <= FallbackCap then |vs| else FallbackCap
    ensures r.Done? ==> forall i :: 0 <= i < |r.value| ==>
              && V1Task(vs[i], key, fetch, co).Done?
              && r.value[i] == V1Task(vs[i], key, fetch, co).value
              && r.value[i].online == JNull
              && r.value[i].apy30d == Dash && r.value[i].roi30d == Dash && r.value[i].finality == Dash
    ensures r.Done? <==> forall i :: 0 <= i < |vs| && i < FallbackCap ==> V1Task(vs[i], key, fetch, co).Done?
    ensures r.Thrown? ==>
              exists i :: && 0 <= i < |vs| && i < FallbackCap
                          && V1Task(vs[i], key, fetch, co) == Thrown(r.message)
                          && forall j :: 0 <= j < i ==> V1Task(vs[j], key, fetch, co).Done?
  {
    var idxs := Take(vs, FallbackCap);
    var r := All(idxs, Task(key, fetch, co));
    assert forall i :: 0 <= i < |idxs| ==> Task(key, fetch, co)(idxs[i]) == V1Task(vs[i], key, fetch, co);
    r
  }

  /** When every validator answer of the first 50 indices is 2xx and no balance request is
      rejected, the fallback succeeds with the record of each of those indices, in order. */
  lemma {:induction false} FallbackSucceeds(key: string, vs: seq<nat>, fetch: Call -> Reply, co: Coerce)
    requires forall i :: 0 <= i < |vs| && i < FallbackCap ==>
               fetch(Call(V1Validator(vs[i]), V1Auth(key), None)).Ok?
               && !fetch(Call(V1Balance(vs[i]), V1Auth(key), None)).NetworkError?
    ensures FallbackV1(key, vs, fetch, co).Done?
    ensures |FallbackV1(key, vs, fetch, co).value| == if |vs| <= FallbackCap then |vs| else FallbackCap
    ensures forall i :: 0 <= i < |FallbackV1(key, vs, fetch, co).value| ==>
              FallbackV1(key, vs, fetch, co).value[i]
              == V1Record(vs[i], fetch(Call(V1Validator(vs[i]), V1Auth(key), None)).body,
                          BalanceOf(fetch(Call(V1Balance(vs[i]), V1Auth(key), None))), co)
  {
    forall i | 0 <= i < |vs| && i < FallbackCap
      ensures V1Task(vs[i], key, fetch, co).Done?
    {
    }
  }

  /** A fallback record whose answers carry no balance shows 0 ETH for both balances, where the
      "—" the record starts from was meant; its id and status fall back to the requested index
      and "unknown". */
  lemma {:induction false} FallbackWithoutBalance(index: nat, co: Coerce)
    ensures V1Record(index, JObj(map[]), JNull, co).balanceEth == Amount(0.0)
    ensures V1Record(index, JObj(map[]), JNull, co).effectiveBalanceEth == Amount(0.0)
    ensures V1Record(index, JObj(map[]), JNull, co).validatorId == JNum(index as real)
    ensures V1Record(index, JObj(map[]), JNull, co).status == JStr("unknown")
  {
    assert Field(BalanceRow(JNull), "balance") == JUndef;
    assert Path(JObj(map[]), ["data", "balance"]) == JUndef;
    assert Path(JObj(map[]), ["data", "effectivebalance"]) == JUndef;
    assert Path(JObj(map[]), ["data", "effective_balance"]) == JUndef;
    assert Path(JObj(map[]), ["data", "status"]) == JUndef;
    assert Path(JObj(map[]), ["data", "state"]) == JUndef;
    assert Path(JObj(map[]), ["data", "validatorindex"]) == JUndef;
    assert Path(JObj(map[]), ["data", "index"]) == JUndef;
  }

  /** With the intended conversion, the same fallback record keeps the placeholder. */
  lemma {:induction false} IntendedFallbackWithoutBalance(co: Coerce)
    ensures IntendedEthAmount(CurrentBalance(JObj(map[]), JNull), co) == Dash
    ensures IntendedEthAmount(EffectiveBalance(JObj(map[])), co) == Dash
  {
    assert Field(BalanceRow(JNull), "balance") == JUndef;
    assert Path(JObj(map[]), ["data", "balance"]) == JUndef;
    assert Path(JObj(map[]), ["data", "effectivebalance"]) == JUndef;
    assert Path(JObj(map[]), ["data", "effective_balance"]) == JUndef;
  }

  // ---------------------------------------------------------------------------------------------
  // The handler

  /** The JSON bodies the endpoint answers with. */
  datatype EthBody =
    | Validators(validators: seq<Record>, note: Option<string>)
    | Failed(error: string, detail: string, where: string)
    | Crashed(error: string, detail: string)
    | NoContent
    | PlainText(text: string)

  const FallbackNote: string :=
    "Beaconcha v2 selector restricted on this API plan. Served via v1 fallback (no APY/ROI)."

  /** `env.BEACONCHA_IN_API_KEY || ""`. */
  function KeyOf(envKey: Option<string>): (r: string)
    ensures envKey.Some? ==> r == envKey.value
    ensures envKey.None? ==> r == ""
  {
    if envKey.Some? then envKey.value else ""
  }

  /** `handler`: no validators is an empty 200 answer; then the v2 data when it arrives; the v1
      fallback with a note when v2 failed with a tier error; any other v2 failure is a 502 naming
      the failing request. */
  function Handler(req: Request, envKey: Option<string>, fetch: Call -> Reply, co: Coerce): (r: Outcome<Response<EthBody>>)
    ensures ReadBody(req, co).Done? && |ReadBody(req, co).value.validators| == 0 ==>
              r == Done(Response(200, Validators([], None)))
    ensures r.Done? ==> r.value.status == 200 || r.value.status == 502
    ensures r.Done? && r.value.status == 502 ==>
              && r.value.body.Failed? && r.value.body.error == "beaconcha request failed"
              && (r.value.body.where == "overview" || r.value.body.where == "apy")
              && !SelectorTierError(r.value.body.detail)
    ensures r.Done? && r.value.status == 200 ==> r.value.body.Validators?
    ensures ReadBody(req, co).Done? && |ReadBody(req, co).value.validators| > 0 ==>
              Decided(ReadBody(req, co).value, KeyOf(envKey), fetch, co, r)
    ensures ReadBody(req, co).Thrown? ==> r == Thrown(ReadBody(req, co).message)
  {
    var key := KeyOf(envKey);
    match ReadBody(req, co)
    case Thrown(m) => Thrown(m)
    case Done(q) =>
      if |q.validators| == 0 then Done(Response(200, Validators([], None)))
      else
        match TryV2(key, q.validators, q.window, fetch, co)
        case Thrown(m) => Thrown(m)
        case Done(V2Ok(records)) => Done(Response(200, Validators(records, None)))
        case Done(V2Fail(why, text, _)) =>
          if SelectorTierError(text) then
            match FallbackV1(key, q.validators, fetch, co)
            case Thrown(m) => Thrown(m)
            case Done(v1) => Done(Response(200, Validators(v1, Some(FallbackNote))))
          else
            Done(Response(502, Failed("beaconcha request failed", text, if why != "" then why else "unknown")))
  }

  /** The three-way choice of `handler` once there are validators to ask about: the v2 records
      when v2 succeeds; the v1 records with the note when v2 failed with a tier error; a 502
      carrying the failure text and the failing request otherwise. */
  ghost predicate Decided(q: Query, key: string, fetch: Call -> Reply, co: Coerce, r: Outcome<Response<EthBody>>) {
    var v2 := TryV2(key, q.validators, q.window, fetch, co);
    && (v2.Thrown? ==> r == Thrown(v2.message))
    && (v2.Done? && v2.value.V2Ok? ==> r == Done(Response(200, Validators(v2.value.records, None))))
    && (v2.Done? && v2.value.V2Fail? && SelectorTierError(v2.value.text) ==>
          var v1 := FallbackV1(key, q.validators, fetch, co);
          r == if v1.Done? then Done(Response(200, Validators(v1.value, Some(FallbackNote)))) else Thrown(v1.message))
    && (v2.Done? && v2.value.V2Fail? && !SelectorTierError(v2.value.text) ==>
          r == Done(Response(502, Failed("beaconcha request failed", v2.value.text, v2.value.why))))
  }

  /** An empty validator list is answered before any upstream request. */
  lemma {:induction false} EmptyListBeforeFetch(req: Request, envKey: Option<string>, f1: Call -> Reply, f2: Call -> Reply, co: Coerce)
    requires req.verb == Get || req.verb == Post
    requires ReadBody(req, co).Done? && |ReadBody(req, co).value.validators| == 0
    ensures OnRequest(req, envKey, f1, co) == OnRequest(req, envKey, f2, co) == Response(200, Validators([], None))
  {
  }

  /** The fallback note is only ever sent after v2 failed with a tier error. */
  lemma {:induction false} NoteMeansTierError(req: Request, envKey: Option<string>, fetch: Call -> Reply, co: Coerce)
    requires req.verb == Get || req.verb == Post
    requires OnRequest(req, envKey, fetch, co).body.Validators?
    requires OnRequest(req, envKey, fetch, co).body.note.Some?
    ensures ReadBody(req, co).Done?
    ensures var q := ReadBody(req, co).value;
            var v2 := TryV2(KeyOf(envKey), q.validators, q.window, fetch, co);
            v2.Done? && v2.value.V2Fail? && SelectorTierError(v2.value.text)
  {
    var r := Handler(req, envKey, fetch, co);
    assert r.Done?;
  }

  lemma {:induction false} SubscriptionTierPhrase()
    ensures SelectorTierError("subscription tier")
  {
    var phrase := "subscription tier";
    ToLowerOfLower(phrase);
    assert InfixAt(phrase, phrase, 0);
    assert TierPhrases[1] == phrase;
  }

  /** The text beaconcha.in gives when the plan forbids the v2 selector. */
  const Refusal: string := "validator selector type not allowed for your subscription tier"

  const RefusalLead: string := "validator selector type not allowed for your "

  lemma {:induction false} RefusalEndsWithTier()
    ensures Refusal == RefusalLead + "subscription tier" + ""
  {
  }

  /** The refusal is a tier error. */
  lemma {:induction false} RefusalIsTierError()
    ensures SelectorTierError(Refusal)
  {
    SubscriptionTierPhrase();
    TierErrorInContext(RefusalLead, "subscription tier", "");
    RefusalEndsWithTier();
  }

  /** `onRequest`: OPTIONS is a 204 preflight answer, methods other than GET and POST are 405, and
      a handler that throws becomes a 502 carrying the error message. */
  function OnRequest(req: Request, envKey: Option<string>, fetch: Call -> Reply, co: Coerce): (r: Response<EthBody>)
    ensures r.status == 204 <==> req.verb == Options
    ensures r.status == 405 <==> req.verb.OtherMethod?
    ensures r.status == 405 ==> r.body == PlainText("Method Not Allowed")
    ensures r.status == 200 || r.status == 204 || r.status == 405 || r.status == 502
    ensures (req.verb == Get || req.verb == Post) && Handler(req, envKey, fetch, co).Thrown? ==>
              r == Response(502, Crashed("eth function crashed", Handler(req, envKey, fetch, co).message))
    ensures (req.verb == Get || req.verb == Post) && Handler(req, envKey, fetch, co).Done? ==>
              r == Handler(req, envKey, fetch, co).value
  {
    if req.verb == Options then Response(204, NoContent)
    else if req.verb != Get && req.verb != Post then Response(405, PlainText("Method Not Allowed"))
    else
      match Handler(req, envKey, fetch, co)
      case Done(res) => res
      case Thrown(m) => Response(502, Crashed("eth function crashed", m))
  }
}

=== FILE: http.dfy ===
/** The request/response surface the Pages Functions see, reduced to what decides their
    behaviour: the method, the query parameters, the parsed body, and each upstream fetch as it
    is observed (status and parsed body). */
module Http {
  import opened Seqs
  import opened Js

  datatype Method = Get | Post | Options | OtherMethod(name: string)

  /** An incoming request. `body` is the result of `request.json()`: None when the body is not
      valid JSON. */
  datatype Request = Request(verb: Method, query: map<string, string>, body: Option<JsValue>)

  /** `url.searchParams.get(name)`. */
  function Param(req: Request, name: string): Option<string> {
    if name in req.query then Some(req.query[name]) else None
  }

  /** `url.searchParams.get(name) || fallback`. */
  function ParamOr(req: Request, name: string, fallback: string): (r: string)
    ensures name in req.query && req.query[name] != "" ==> r == req.query[name]
    ensures (name !in req.query || req.query[name] == "") ==> r == fallback
  {
    match Param(req, name)
    case Some(v) => if v != "" then v else fallback
    case None => fallback
  }

  /** `await request.json().catch(() => ({}))`. */
  function BodyOrEmpty(req: Request): JsValue {
    match req.body
    case Some(b) => b
    case None => JObj(map[])
  }

  /** One upstream fetch as the handler observes it: the promise rejected (network failure), the
      response was not 2xx (with its status text and its body text, "" if that could not be
      read), the body of a 2xx response was not valid JSON, or it parsed to a value. */
  datatype Reply = NetworkError | NotOk(status: int, statusText: string, text: string) | BadJson | Ok(body: JsValue)

  /** The message the JavaScript runtime puts on a rejected fetch, a JSON syntax error or a
      TypeError. Its exact text is not modelled; this constant stands for it. */
  const RuntimeError: string := "runtime error"

  /** The result of a computation that may throw: its value, or the message of the Error thrown. */
  datatype Outcome<+T> = Done(value: T) | Thrown(message: string)

  /** `Promise.all(xs.map(f))` for tasks that do not depend on each other: every value in order
      when no task throws, otherwise the failure of the first task, in list order, that throws. */
  function All<A, B>(xs: seq<A>, f: A -> Outcome<B>): (r: Outcome<seq<B>>)
    ensures r.Done? <==> forall i :: 0 <= i < |xs| ==> f(xs[i]).Done?
    ensures r.Done? ==> |r.value| == |xs| && forall i :: 0 <= i < |xs| ==> r.value[i] == f(xs[i]).value
    ensures r.Thrown? ==> exists i :: 0 <= i < |xs| && f(xs[i]) == Thrown(r.message)
                                      && forall j :: 0 <= j < i ==> f(xs[j]).Done?
  {
    if |xs| == 0 then Done([])
    else
      var n := |xs| - 1;
      var rest := All(xs[..n], f);
      assert forall i :: 0 <= i < n ==> xs[..n][i] == xs[i];
      if rest.Thrown? then rest
      else if f(xs[n]).Thrown? then Thrown(f(xs[n]).message)
      else Done(rest.value + [f(xs[n]).value])
  }

  /** The status code and JSON body of a response (headers are not modelled). */
  datatype Response<B> = Response(status: int, body: B)
}

=== FILE: js.dfy ===
/** JavaScript values as the dashboard's handlers read them, and the coercions they apply:
    optional chaining (`?.`), nullish coalescing (`??`), truthiness (`||`), and `Number(x)`. */
module Js {
  import opened Seqs
  import opened Text

  /** A value produced by `JSON.parse`, plus `undefined` (what a missing property reads as).
      Numbers are finite; `JInf` stands for the infinities `JSON.parse` produces for literals
      such as `1e999`. */
  datatype JsValue =
    | JUndef
    | JNull
    | JBool(b: bool)
    | JNum(n: real)
    | JInf
    | JStr(s: string)
    | JArr(items: seq<JsValue>)
    | JObj(fields: map<string, JsValue>)

  /** null or undefined: the values `??` and `?.` skip. */
  predicate IsNullish(v: JsValue) {
    v.JUndef? || v.JNull?
  }

  /** JavaScript truthiness: what `x || y` and `if (x)` test. */
  predicate Truthy(v: JsValue) {
    match v
    case JUndef => false
    case JNull => false
    case JBool(b) => b
    case JNum(n) => n != 0.0
    case JInf => true
    case JStr(s) => s != ""
    case JArr(_) => true
    case JObj(_) => true
  }

  /** `v?.[k]`: a missing property, or a property of anything but an object, reads as undefined. */
  function Field(v: JsValue, k: string): (r: JsValue)
    ensures !v.JObj? ==> r == JUndef
  {
    if v.JObj? && k in v.fields then v.fields[k] else JUndef
  }

  /** `v?.k1?.k2?...`: optional chaining along a path of property names. */
  function Path(v: JsValue, ks: seq<string>): JsValue
    decreases ks
  {
    if |ks| == 0 then v else Path(Field(v, ks[0]), ks[1..])
  }

  /** `Array.isArray(v) ? v[i] : null` reads element i of an array; undefined past its end. */
  function Index(v: JsValue, i: nat): JsValue {
    if v.JArr? && i < |v.items| then v.items[i] else JUndef
  }

  /** `vs[0] ?? vs[1] ?? ... ?? vs[n-1]`: the first operand that is neither null nor undefined,
      or the last operand when all are. */
  function Coalesce(vs: seq<JsValue>): (r: JsValue)
    requires |vs| >= 1
    ensures forall j :: 0 <= j < |vs| && !IsNullish(vs[j]) && (forall i :: 0 <= i < j ==> IsNullish(vs[i]))
              ==> r == vs[j]
    ensures (forall i :: 0 <= i < |vs| ==> IsNullish(vs[i])) ==> r == vs[|vs| - 1]
  {
    if |vs| == 1 || !IsNullish(vs[0]) then vs[0]
    else
      var r := Coalesce(vs[1..]);
      assert forall j :: 1 <= j < |vs| ==> vs[j] == vs[1..][j - 1];
      r
  }

  /** `v ?? null`. */
  function OrNull(v: JsValue): (r: JsValue)
    ensures IsNullish(v) ==> r == JNull
    ensures !IsNullish(v) ==> r == v
  {
    Coalesce([v, JNull])
  }

  /** The two conversions of the JavaScript runtime that the model leaves abstract: `Number(s)` on
      a string (None when it is NaN or infinite; it trims, accepts hex and exponents and maps ""
      to 0, none of which is modelled here), and `String(v)` where `StringOf` does not spell it out. */
  datatype Coerce = Coerce(parse: string -> Option<real>, show: JsValue -> string)

  /** `Number(v)` when the result is finite, None when it is NaN or infinite. `Number(null)` is 0,
      `Number(undefined)` is NaN, and arrays and objects go through their string form. */
  function JsNumber(v: JsValue, co: Coerce): (r: Option<real>)
    ensures v.JUndef? || v.JInf? ==> r.None?
    ensures v.JNull? ==> r == Some(0.0)
    ensures v.JNum? ==> r == Some(v.n)
    ensures v.JStr? ==> r == co.parse(v.s)
    ensures v.JBool? ==> r == Some(if v.b then 1.0 else 0.0)
    ensures v.JArr? || v.JObj? ==> r == co.parse(co.show(v))
  {
    match v
    case JUndef => None
    case JNull => Some(0.0)
    case JBool(b) => Some(if b then 1.0 else 0.0)
    case JNum(n) => Some(n)
    case JInf => None
    case JStr(s) => co.parse(s)
    case JArr(_) => co.parse(co.show(v))
    case JObj(_) => co.parse(co.show(v))
  }

  /** Integers at or beyond 10^21 in magnitude print in exponent form. */
  const ExponentFrom: real := 1000000000000000000000.0

  /** `String(v)`: the text of a string, "true"/"false", "null", "undefined", the decimal digits
      of an integer below 10^21 in magnitude; other numbers, the infinities, arrays and objects
      through the parameter `show`. */
  function StringOf(v: JsValue, show: JsValue -> string): (r: string)
    ensures v.JStr? ==> r == v.s
    ensures v.JBool? ==> r == if v.b then "true" else "false"
    ensures v.JNull? ==> r == "null"
    ensures v.JUndef? ==> r == "undefined"
    ensures v.JNum? && !(IsInteger(v.n) && -ExponentFrom < v.n < ExponentFrom) ==> r == show(v)
    ensures v.JInf? || v.JArr? || v.JObj? ==> r == show(v)
    ensures v.JNum? && IsInteger(v.n) && -ExponentFrom < v.n < ExponentFrom ==> r == IntText(v.n.Floor)
  {
    match v
    case JStr(s) => s
    case JBool(b) => if b then "true" else "false"
    case JNull => "null"
    case JUndef => "undefined"
    case JNum(n) => if IsInteger(n) && -ExponentFrom < n < ExponentFrom then IntText(n.Floor) else show(v)
    case _ => show(v)
  }

  /** A small non-negative integer prints as digits that read back as the same number. */
  lemma {:induction false} StringOfNatReadsBack(k: nat, show: JsValue -> string)
    requires (k as real) < ExponentFrom
    ensures var t := StringOf(JNum(k as real), show);
            && (forall i :: 0 <= i < |t| ==> '0' <= t[i] <= '9')
            && DigitsValue(t) == k
  {
    assert (k as real).Floor == k;
    DecimalRoundTrip(k);
  }

  /** `Number.isInteger(n)` for a finite n. */
  predicate IsInteger(n: real) {
    n.Floor as real == n
  }

  /** `(v || [])` followed by an array method: the items of an array, the empty array for a falsy
      value, and None for a truthy non-array (the method call throws a TypeError). */
  function ArrayOr(v: JsValue): (r: Option<seq<JsValue>>)
    ensures r.None? <==> Truthy(v) && !v.JArr?
    ensures v.JArr? ==> r == Some(v.items)
  {
    if !Truthy(v) then Some([]) else if v.JArr? then Some(v.items) else None
  }

  /** A field of an output record: the placeholder "—", an amount converted to display units
      (decimal formatting not modelled), a percentage formatted from a raw value, or a raw value
      passed through. */
  datatype Shown = Dash | Amount(units: real) | Percent(raw: JsValue) | Raw(value: JsValue)

  /** `v ?? "—"`. */
  function OrDash(v: JsValue): (r: Shown)
    ensures r == Dash <==> IsNullish(v)
    ensures !IsNullish(v) ==> r == Raw(v)
  {
    if IsNullish(v) then Dash else Raw(v)
  }
}

=== FILE: llama.dfy ===
/** The DefiLlama Pro proxy (`functions/api/llama.js`): checks for an API key, reads a chain's TVL
    history, its fees overview and its stablecoin dominance from the keyed endpoint, and answers
    with the current TVL and the last 30 days of TVL and fees. Each upstream request is a URL
    answered by the oracle `fetch`; `encode` is `encodeURIComponent`. */
module Llama {
  import opened Seqs
  import opened Text
  import opened Js
  import opened Http

  /** The length of the series the endpoint reports. */
  const Days: nat := 30

  /** `toNum(x)`: `Number(x)` when it is finite, null otherwise (so null itself is 0). */
  function ToNum(x: JsValue, co: Coerce): (r: Option<real>)
    ensures x.JNum? ==> r == Some(x.n)
    ensures x.JUndef? || x.JInf? ==> r.None?
    ensures x.JNull? ==> r == Some(0.0)
    ensures x.JStr? ==> r == co.parse(x.s)
    ensures x.JBool? ==> r == Some(if x.b then 1.0 else 0.0)
    ensures x.JArr? || x.JObj? ==> r == co.parse(co.show(x))
  {
    JsNumber(x, co)
  }

  // ---------------------------------------------------------------------------------------------
  // Series

  /** The properties `pick30dSeries` falls back on, in order, when no key is given. */
  const ValueFields: seq<string> := ["tvl", "totalLiquidityUSD", "value", "fees", "revenue"]

  /** The value `pick30dSeries` reads from one item: the `valueKey` property when a key is given,
      otherwise the first of `tvl`, `totalLiquidityUSD`, `value`, `fees`, `revenue` that is set. */
  function ValueOf(it: JsValue, valueKey: string, co: Coerce): (r: Option<real>)
    ensures valueKey != "" ==> r == ToNum(Field(it, valueKey), co)
    ensures valueKey == "" ==>
              forall j :: 0 <= j < |ValueFields| && !IsNullish(Field(it, ValueFields[j])) &&
                          (forall i :: 0 <= i < j ==> IsNullish(Field(it, ValueFields[i])))
                          ==> r == ToNum(Field(it, ValueFields[j]), co)
    ensures (valueKey == "" && forall i :: 0 <= i < |ValueFields| ==> IsNullish(Field(it, ValueFields[i]))) ==>
              r == ToNum(Field(it, "revenue"), co)
  {
    var vs := [Field(it, "tvl"), Field(it, "totalLiquidityUSD"), Field(it, "value"),
               Field(it, "fees"), Field(it, "revenue")];
    assert forall j :: 0 <= j < |ValueFields| ==> vs[j] == Field(it, ValueFields[j]);
    var v := if valueKey != "" then Field(it, valueKey) else Coalesce(vs);
    ToNum(v, co)
  }

  function ItemValue(valueKey: string, co: Coerce): JsValue -> Option<real> {
    (it: JsValue) => ValueOf(it, valueKey, co)
  }

  /** `pick30dSeries(arr, valueKey)`: the numeric values of the last 30 items, in order. */
  function Pick30dSeries(arr: JsValue, valueKey: string, co: Coerce): (r: seq<real>)
    ensures |r| <= Days
    ensures !arr.JArr? ==> r == []
    ensures arr.JArr? ==> forall i :: 0 <= i < |r| ==>
              exists j :: |arr.items| - Days <= j < |arr.items| && 0 <= j && ItemValue(valueKey, co)(arr.items[j]) == Some(r[i])
    ensures arr.JArr? ==> forall j :: |arr.items| - Days <= j < |arr.items| && 0 <= j && ItemValue(valueKey, co)(arr.items[j]).Some? ==>
              ItemValue(valueKey, co)(arr.items[j]).value in r
  {
    FilterMapLast(if arr.JArr? then arr.items else [], Days, ItemValue(valueKey, co))
  }

  /** Within the last 30 items the values keep their order, whatever items are skipped: the
      series of a + b is the series of a followed by that of b. */
  lemma {:induction false} PickKeepsOrder(a: seq<JsValue>, b: seq<JsValue>, valueKey: string, co: Coerce)
    requires |a| + |b| <= Days
    ensures Pick30dSeries(JArr(a + b), valueKey, co) == Pick30dSeries(JArr(a), valueKey, co) + Pick30dSeries(JArr(b), valueKey, co)
  {
    FilterMapLastConcat(a, b, Days, ItemValue(valueKey, co));
  }

  /** One item contributes its numeric value, and a non-numeric item is skipped. */
  lemma {:induction false} PickOneItem(x: JsValue, valueKey: string, co: Coerce)
    ensures Pick30dSeries(JArr([x]), valueKey, co)
            == if ValueOf(x, valueKey, co).Some? then [ValueOf(x, valueKey, co).value] else []
  {
    FilterMapLastSingle(x, Days, ItemValue(valueKey, co));
  }

  /** Only the last 30 items matter: older history in front of them changes nothing. */
  lemma {:induction false} PickIgnoresOlderItems(older: seq<JsValue>, recent: seq<JsValue>, valueKey: string, co: Coerce)
    requires |recent| >= Days
    ensures Pick30dSeries(JArr(older + recent), valueKey, co) == Pick30dSeries(JArr(recent), valueKey, co)
  {
    FilterMapLastIgnoresOlder(older, recent, Days, ItemValue(valueKey, co));
  }

  /** When every item has a numeric value, the series is exactly the values of the last 30
      items, in order. */
  lemma {:induction false} PickAllNumeric(xs: seq<JsValue>, valueKey: string, co: Coerce)
    requires forall j :: 0 <= j < |xs| ==> ItemValue(valueKey, co)(xs[j]).Some?
    ensures |Pick30dSeries(JArr(xs), valueKey, co)| == |TakeLast(xs, Days)|
    ensures forall i :: 0 <= i < |TakeLast(xs, Days)| ==>
              Pick30dSeries(JArr(xs), valueKey, co)[i] == ItemValue(valueKey, co)(xs[|xs| - |TakeLast(xs, Days)| + i]).value
  {
    FilterMapLastAllDefined(xs, Days, ItemValue(valueKey, co));
  }

  /** `tvlSeries.length ? tvlSeries[tvlSeries.length - 1] : null`. */
  function TvlCurrent(series: seq<real>): (r: Option<real>)
    ensures r.None? <==> |series| == 0
    ensures r.Some? ==> r.value == series[|series| - 1]
  {
    if |series| > 0 then Some(series[|series| - 1]) else None
  }

  /** The current TVL is the TVL of the newest history item whenever that item has one. */
  lemma {:induction false} CurrentIsNewest(xs: seq<JsValue>, co: Coerce)
    requires |xs| > 0 && ToNum(Field(xs[|xs| - 1], "tvl"), co).Some?
    ensures TvlCurrent(Pick30dSeries(JArr(xs), "tvl", co)) == ToNum(Field(xs[|xs| - 1], "tvl"), co)
  {
    var f := ItemValue("tvl", co);
    var last := xs[|xs| - 1];
    assert f(last) == ToNum(Field(last, "tvl"), co) by {
      assert ValueOf(last, "tvl", co) == ToNum(Field(last, "tvl"), co);
    }
    assert Pick30dSeries(JArr(xs), "tvl", co) == FilterMapLast(xs, Days, f);
    FilterMapLastNewest(xs, Days, f);
  }

  /** The value of one `totalDataChart` row: `toNum(Array.isArray(row) ? row[1] : null)`. A
      row that is not an array is meant to be dropped, but `Number(null)` is 0, so it becomes a 0
      value. */
  function FeeValue(row: JsValue, co: Coerce): (r: Option<real>)
    ensures row.JArr? ==> r == ToNum(Index(row, 1), co)
    ensures !row.JArr? ==> r == Some(0.0)
  {
    ToNum(if row.JArr? then Index(row, 1) else JNull, co)
  }

  function FeeRow(co: Coerce): JsValue -> Option<real> {
    (row: JsValue) => FeeValue(row, co)
  }

  /** `totalDataChart.slice(-30).map(...).filter(n => n != null)`: the finite values of the last
      30 rows, in order, where a row that is not an array counts as 0. */
  function FeesSeries(tdc: JsValue, co: Coerce): (r: seq<real>)
    ensures |r| <= Days
    ensures !tdc.JArr? ==> r == []
    ensures tdc.JArr? ==> forall i :: 0 <= i < |r| ==>
              exists j :: |tdc.items| - Days <= j < |tdc.items| && 0 <= j
                          && ((tdc.items[j].JArr? && ToNum(Index(tdc.items[j], 1), co) == Some(r[i]))
                              || (!tdc.items[j].JArr? && r[i] == 0.0))
    ensures tdc.JArr? ==> forall j :: |tdc.items| - Days <= j < |tdc.items| && 0 <= j && FeeRow(co)(tdc.items[j]).Some? ==>
              FeeRow(co)(tdc.items[j]).value in r
  {
    if !tdc.JArr? then []
    else
      var r := FilterMapLast(tdc.items, Days, FeeRow(co));
      assert forall row: JsValue :: !row.JArr? ==> FeeRow(co)(row) == Some(0.0);
      r
  }

  /** Within the last 30 rows the fees values keep row order: the series of a + b is the
      series of a followed by that of b. */
  lemma {:induction false} FeesKeepsOrder(a: seq<JsValue>, b: seq<JsValue>, co: Coerce)
    requires |a| + |b| <= Days
    ensures FeesSeries(JArr(a + b), co) == FeesSeries(JArr(a), co) + FeesSeries(JArr(b), co)
  {
    FilterMapLastConcat(a, b, Days, FeeRow(co));
  }

  /** A malformed row among the last 30 shows up in the fees series as a day with 0 fees. */
  lemma {:induction false} MalformedRowReadsZero(rows: seq<JsValue>, bad: JsValue, co: Coerce)
    requires !bad.JArr? && |rows| < Days
    ensures FeesSeries(JArr(rows + [bad]), co) == FeesSeries(JArr(rows), co) + [0.0]
  {
    assert FeeRow(co)(bad) == Some(0.0);
    FilterMapLastConcat(rows, [bad], Days, FeeRow(co));
    FilterMapLastSingle(bad, Days, FeeRow(co));
  }

  /** The row as evidently intended: the second element of an array row when it is a finite
      number, nothing for any other row. */
  function IntendedFeeValue(row: JsValue, co: Coerce): (r: Option<real>)
    ensures row.JArr? ==> r == ToNum(Index(row, 1), co)
    ensures !row.JArr? ==> r.None?
  {
    if row.JArr? then ToNum(Index(row, 1), co) else None
  }

  function IntendedFeeRow(co: Coerce): JsValue -> Option<real> {
    (row: JsValue) => IntendedFeeValue(row, co)
  }

  /** The fees series as evidently intended: only array rows contribute. */
  function IntendedFeesSeries(tdc: JsValue, co: Coerce): (r: seq<real>)
    ensures |r| <= Days
    ensures !tdc.JArr? ==> r == []
    ensures tdc.JArr? ==> forall i :: 0 <= i < |r| ==>
              exists j :: |tdc.items| - Days <= j < |tdc.items| && 0 <= j
                          && tdc.items[j].JArr? && ToNum(Index(tdc.items[j], 1), co) == Some(r[i])
    ensures tdc.JArr? ==> forall j :: |tdc.items| - Days <= j < |tdc.items| && 0 <= j && tdc.items[j].JArr?
                                      && ToNum(Index(tdc.items[j], 1), co).Some? ==>
              ToNum(Index(tdc.items[j], 1), co).value in r
  {
    if !tdc.JArr? then []
    else
      var r := FilterMapLast(tdc.items, Days, IntendedFeeRow(co));
      assert forall row :: IntendedFeeRow(co)(row).Some? ==> row.JArr? && IntendedFeeRow(co)(row) == ToNum(Index(row, 1), co);
      r
  }

  /** With the intended row too, the series of rows in a row is the series of the first rows
      followed by the series of the rest. */
  lemma {:induction false} IntendedFeesKeepsOrder(a: seq<JsValue>, b: seq<JsValue>, co: Coerce)
    requires |a| + |b| <= Days
    ensures IntendedFeesSeries(JArr(a + b), co) == IntendedFeesSeries(JArr(a), co) + IntendedFeesSeries(JArr(b), co)
  {
    FilterMapLastConcat(a, b, Days, IntendedFeeRow(co));
  }

  /** With the intended row, a malformed row leaves the series unchanged. */
  lemma {:induction false} MalformedRowDropped(rows: seq<JsValue>, bad: JsValue, co: Coerce)
    requires !bad.JArr? && |rows| < Days
    ensures IntendedFeesSeries(JArr(rows + [bad]), co) == IntendedFeesSeries(JArr(rows), co)
  {
    assert TakeLast(rows + [bad], Days) == rows + [bad];
    FilterMapConcat(rows, [bad], IntendedFeeRow(co));
  }

  // ---------------------------------------------------------------------------------------------
  // Requests

  const ProBase: string := "https://pro-api.llama.fi/"

  /** The `proGet` URL: the encoded key, then the path, with a "/" put in between only when the
      path does not start with one. */
  function ProGetUrl(key: string, path: string, encode: string -> string): (r: string)
    ensures StartsWith(path, "/") ==> r == ProBase + encode(key) + path
    ensures !StartsWith(path, "/") ==> r == ProBase + encode(key) + "/" + path
  {
    ProBase + encode(key) + (if StartsWith(path, "/") then "" else "/") + path
  }

  /** Exactly one "/" separates the key from the path, whether or not the path brings its own. */
  lemma {:induction false} OneSlash(key: string, p: string, encode: string -> string)
    requires !StartsWith(p, "/")
    ensures ProGetUrl(key, "/" + p, encode) == ProGetUrl(key, p, encode) == ProBase + encode(key) + "/" + p
  {
    assert ("/" + p)[..1] == "/";
    assert ProBase + encode(key) + "/" + p == ProBase + encode(key) + ("/" + p);
  }

  /** `proGet({ key, path })`: the parsed body, or the Error thrown for a failed request (the
      runtime's own error for a rejected fetch or an unparsable body). */
  function ProGet(key: string, path: string, fetch: string -> Reply, encode: string -> string): (r: Outcome<JsValue>)
    ensures r.Done? <==> fetch(ProGetUrl(key, path, encode)).Ok?
    ensures r.Done? ==> r.value == fetch(ProGetUrl(key, path, encode)).body
    ensures fetch(ProGetUrl(key, path, encode)).NotOk? ==>
              var b := fetch(ProGetUrl(key, path, encode));
              r == Thrown(Trim("DefiLlama " + path + " failed: " + IntText(b.status) + " " + b.statusText + " " + b.text))
  {
    match fetch(ProGetUrl(key, path, encode))
    case NetworkError => Thrown(RuntimeError)
    case BadJson => Thrown(RuntimeError)
    case NotOk(status, statusText, text) =>
      Thrown(Trim("DefiLlama " + path + " failed: " + IntText(status) + " " + statusText + " " + text))
    case Ok(body) => Done(body)
  }

  function HistoryPath(chain: string, encode: string -> string): string {
    "/api/v2/historicalChainTvl/" + encode(chain)
  }

  function FeesPath(chain: string, encode: string -> string): string {
    "/api/overview/fees/" + encode(chain)
  }

  function StablePath(chain: string, encode: string -> string): string {
    "/stablecoins/stablecoindominance/" + encode(chain)
  }

  // ---------------------------------------------------------------------------------------------
  // The answer

  datatype Fees = Fees(totalFees24h: Option<real>, totalRevenue24h: Option<real>, change1d: Option<real>)

  datatype Largest = Largest(name: string, symbol: string, circulating: Option<real>, dominance: Option<real>)

  datatype Stable = Stable(dominance: Option<real>, totalCirculating: Option<real>, largest: Option<Largest>)

  datatype LlamaBody =
    | Payload(chain: string, current: Option<real>, fees: Option<Fees>, stablecoins: Option<Stable>,
              tvl30d: seq<real>, fees30d: seq<real>, ts: int)
    | MissingKey(error: string)
    | Crashed(error: string, detail: string)
    | NoContent

  /** The fees summary of a fees overview. */
  function FeesOf(raw: JsValue, co: Coerce): (r: Fees)
    ensures !IsNullish(Field(raw, "totalFees24h")) ==> r.totalFees24h == ToNum(Field(raw, "totalFees24h"), co)
    ensures IsNullish(Field(raw, "totalFees24h")) ==> r.totalFees24h == ToNum(Field(raw, "fees24h"), co)
    ensures !IsNullish(Field(raw, "totalRevenue24h")) ==> r.totalRevenue24h == ToNum(Field(raw, "totalRevenue24h"), co)
    ensures IsNullish(Field(raw, "totalRevenue24h")) ==> r.totalRevenue24h == ToNum(Field(raw, "revenue24h"), co)
    ensures r.change1d == ToNum(Field(raw, "change_1d"), co)
  {
    Fees(ToNum(Coalesce([Field(raw, "totalFees24h"), Field(raw, "fees24h")]), co),
         ToNum(Coalesce([Field(raw, "totalRevenue24h"), Field(raw, "revenue24h")]), co),
         ToNum(Field(raw, "change_1d"), co))
  }

  /** `String(x || "")`. */
  function TextOrEmpty(x: JsValue, co: Coerce): (r: string)
    ensures !Truthy(x) ==> r == ""
    ensures x.JStr? ==> r == x.s
    ensures Truthy(x) ==> r == StringOf(x, co.show)
  {
    if Truthy(x) then StringOf(x, co.show) else ""
  }

  /** The stablecoin summary of a dominance answer. */
  function StableOf(st: JsValue, co: Coerce): (r: Stable)
    ensures r.dominance == ToNum(Field(st, "dominance"), co)
    ensures r.totalCirculating == ToNum(Field(st, "totalCirculating"), co)
    ensures r.largest.Some? <==> Truthy(Field(st, "largestStablecoin"))
    ensures r.largest.Some? ==>
              var ls := Field(st, "largestStablecoin");
              && r.largest.value.name == TextOrEmpty(Field(ls, "name"), co)
              && r.largest.value.symbol == TextOrEmpty(Field(ls, "symbol"), co)
              && r.largest.value.circulating == ToNum(Field(ls, "circulating"), co)
              && r.largest.value.dominance == ToNum(Field(ls, "dominance"), co)
  {
    var ls := Field(st, "largestStablecoin");
    Stable(ToNum(Field(st, "dominance"), co), ToNum(Field(st, "totalCirculating"), co),
           if Truthy(ls) then
             Some(Largest(TextOrEmpty(Field(ls, "name"), co), TextOrEmpty(Field(ls, "symbol"), co),
                          ToNum(Field(ls, "circulating"), co), ToNum(Field(ls, "dominance"), co)))
           else None)
  }

  /** The fees part: a failed fees request leaves both the summary and the series empty. */
  function FeesPart(key: string, chain: string, fetch: string -> Reply, co: Coerce, encode: string -> string)
    : (r: (Option<Fees>, seq<real>))
    ensures ProGet(key, FeesPath(chain, encode), fetch, encode).Thrown? ==> r == (None, [])
    ensures r.0.None? ==> r.1 == []
    ensures |r.1| <= Days
    ensures ProGet(key, FeesPath(chain, encode), fetch, encode).Done? ==>
              var raw := ProGet(key, FeesPath(chain, encode), fetch, encode).value;
              r == (Some(FeesOf(raw, co)), FeesSeries(Field(raw, "totalDataChart"), co))
  {
    match ProGet(key, FeesPath(chain, encode), fetch, encode)
    case Thrown(_) => (None, [])
    case Done(raw) => (Some(FeesOf(raw, co)), FeesSeries(Field(raw, "totalDataChart"), co))
  }

  /** The stablecoin part: a failed request leaves it null. */
  function StablePart(key: string, chain: string, fetch: string -> Reply, co: Coerce, encode: string -> string)
    : (r: Option<Stable>)
    ensures r.None? <==> ProGet(key, StablePath(chain, encode), fetch, encode).Thrown?
    ensures ProGet(key, StablePath(chain, encode), fetch, encode).Done? ==>
              r == Some(StableOf(ProGet(key, StablePath(chain, encode), fetch, encode).value, co))
  {
    match ProGet(key, StablePath(chain, encode), fetch, encode)
    case Thrown(_) => None
    case Done(st) => Some(StableOf(st, co))
  }

  /** `env.VITE_LLAMA_API_KEY || env.LLAMA_API_KEY`, None when that is falsy. */
  function KeyOf(vite: Option<string>, llama: Option<string>): (r: Option<string>)
    ensures r.Some? ==> r.value != ""
    ensures r.None? <==> (vite.None? || vite.value == "") && (llama.None? || llama.value == "")
    ensures vite.Some? && vite.value != "" ==> r == vite
    ensures (vite.None? || vite.value == "") && llama.Some? && llama.value != "" ==> r == llama
  {
    if vite.Some? && vite.value != "" then vite
    else if llama.Some? && llama.value != "" then llama
    else None
  }

  /** `onRequest`: OPTIONS is a 204 preflight answer; without a key the answer is a 500 before
      any request; a failed history request is a 502; the fees and stablecoin parts may fail on
      their own. `now` is `Date.now()`. */
  function OnRequest(req: Request, vite: Option<string>, llama: Option<string>, fetch: string -> Reply,
                     co: Coerce, encode: string -> string, now: int): (r: Response<LlamaBody>)
    ensures r.status == 204 <==> req.verb == Options
    ensures req.verb != Options && KeyOf(vite, llama).None? ==>
              r == Response(500, MissingKey("Missing VITE_LLAMA_API_KEY env var"))
    ensures r.status == 200 || r.status == 204 || r.status == 500 || r.status == 502
    ensures r.status == 200 ==>
              && r.body.Payload?
              && r.body.chain == ParamOr(req, "chain", "Ethereum")
              && |r.body.tvl30d| <= Days && |r.body.fees30d| <= Days
              && r.body.current == TvlCurrent(r.body.tvl30d)
              && r.body.ts == now
    ensures req.verb != Options && KeyOf(vite, llama).Some? ==>
              (r.status == 200 <==>
                 ProGet(KeyOf(vite, llama).value, HistoryPath(ParamOr(req, "chain", "Ethereum"), encode), fetch, encode).Done?)
    ensures req.verb != Options && KeyOf(vite, llama).Some? ==>
              var key := KeyOf(vite, llama).value;
              var chain := ParamOr(req, "chain", "Ethereum");
              var hist := ProGet(key, HistoryPath(chain, encode), fetch, encode);
              && (hist.Thrown? ==> r == Response(502, Crashed("llama function crashed", hist.message)))
              && (hist.Done? ==>
                    && r.body.tvl30d == Pick30dSeries(hist.value, "tvl", co)
                    && (r.body.fees, r.body.fees30d) == FeesPart(key, chain, fetch, co, encode)
                    && r.body.stablecoins == StablePart(key, chain, fetch, co, encode))
  {
    if req.verb == Options then Response(204, NoContent)
    else
      match KeyOf(vite, llama)
      case None => Response(500, MissingKey("Missing VITE_LLAMA_API_KEY env var"))
      case Some(key) =>
        var chain := ParamOr(req, "chain", "Ethereum");
        match ProGet(key, HistoryPath(chain, encode), fetch, encode)
        case Thrown(m) => Response(502, Crashed("llama function crashed", m))
        case Done(hist) =>
          var tvl := Pick30dSeries(hist, "tvl", co);
          var (fees, feesSeries) := FeesPart(key, chain, fetch, co, encode);
          Response(200, Payload(chain, TvlCurrent(tvl), fees, StablePart(key, chain, fetch, co, encode),
                                tvl, feesSeries, now))
  }

  /** A missing key is answered before any upstream request. */
  lemma {:induction false} MissingKeyBeforeFetch(req: Request, vite: Option<string>, llama: Option<string>,
                              f1: string -> Reply, f2: string -> Reply, co: Coerce, encode: string -> string, now: int)
    requires req.verb != Options && KeyOf(vite, llama).None?
    ensures OnRequest(req, vite, llama, f1, co, encode, now) == OnRequest(req, vite, llama, f2, co, encode, now)
    ensures OnRequest(req, vite, llama, f1, co, encode, now).status == 500
  {
  }

  /** When the history arrives as an array whose newest item has a numeric TVL, the answer is a
      200 whose current TVL is that item's. */
  lemma {:induction false} CurrentTvlOfHistory(req: Request, vite: Option<string>, llama: Option<string>,
                             fetch: string -> Reply, co: Coerce, encode: string -> string, now: int)
    requires req.verb != Options && KeyOf(vite, llama).Some?
    requires var hist := ProGet(KeyOf(vite, llama).value, HistoryPath(ParamOr(req, "chain", "Ethereum"), encode), fetch, encode);
             && hist.Done? && hist.value.JArr? && |hist.value.items| > 0
             && ToNum(Field(hist.value.items[|hist.value.items| - 1], "tvl"), co).Some?
    ensures var hist := ProGet(KeyOf(vite, llama).value, HistoryPath(ParamOr(req, "chain", "Ethereum"), encode), fetch, encode);
            var r := OnRequest(req, vite, llama, fetch, co, encode, now);
            && r.status == 200
            && r.body.current == ToNum(Field(hist.value.items[|hist.value.items| - 1], "tvl"), co)
  {
    var hist := ProGet(KeyOf(vite, llama).value, HistoryPath(ParamOr(req, "chain", "Ethereum"), encode), fetch, encode);
    CurrentIsNewest(hist.value.items, co);
  }

  /** A failing fees or stablecoin request does not fail the answer: the TVL still arrives, with
      empty fees and stablecoin parts. */
  lemma {:induction false} SideRequestsMayFail(req: Request, vite: Option<string>, llama: Option<string>, fetch: string -> Reply,
                            co: Coerce, encode: string -> string, now: int)
    requires req.verb != Options && KeyOf(vite, llama).Some?
    requires var chain := ParamOr(req, "chain", "Ethereum");
             var key := KeyOf(vite, llama).value;
             && ProGet(key, HistoryPath(chain, encode), fetch, encode).Done?
             && ProGet(key, FeesPath(chain, encode), fetch, encode).Thrown?
             && ProGet(key, StablePath(chain, encode), fetch, encode).Thrown?
    ensures var r := OnRequest(req, vite, llama, fetch, co, encode, now);
            && r.status == 200
            && r.body.fees.None? && r.body.fees30d == [] && r.body.stablecoins.None?
  {
  }
}

=== FILE: points.dfy ===
/** Time-series points `{ t, v }` and the stable sort `arr.sort((a, b) => a.t - b.t)` the chart
    code applies to them. Timestamps are integer milliseconds; values are exact reals. */
module Points {

  datatype Point = Point(t: int, v: real)

  predicate SortedByT(s: seq<Point>) {
    forall i, j :: 0 <= i < j < |s| ==> s[i].t <= s[j].t
  }

  /** The points of s with timestamp k, in their order in s. */
  function WithT(s: seq<Point>, k: int): (r: seq<Point>)
    ensures forall i :: 0 <= i < |r| ==> r[i].t == k && r[i] in s
  {
    if |s| == 0 then []
    else (if s[0].t == k then [s[0]] else []) + WithT(s[1..], k)
  }

  lemma {:induction false} WithTConcat(a: seq<Point>, b: seq<Point>, k: int)
    ensures WithT(a + b, k) == WithT(a, k) + WithT(b, k)
  {
    if |a| == 0 {
      assert a + b == b;
    } else {
      assert (a + b)[1..] == a[1..] + b;
      WithTConcat(a[1..], b, k);
    }
  }

  lemma {:induction false} WithTNone(s: seq<Point>, k: int)
    requires forall i :: 0 <= i < |s| ==> s[i].t != k
    ensures WithT(s, k) == []
  {
    if |s| > 0 {
      WithTNone(s[1..], k);
    }
  }

  /** Inserts p after every leading point whose timestamp is at most p.t. */
  function Insert(p: Point, s: seq<Point>): (r: seq<Point>)
    ensures |r| == |s| + 1
  {
    if |s| == 0 then [p]
    else if p.t < s[0].t then [p] + s
    else [s[0]] + Insert(p, s[1..])
  }

  /** Inserting into a sorted sequence keeps it sorted, and the head is the earlier of p and the
      old head. */
  lemma {:induction false} InsertSorted(p: Point, s: seq<Point>)
    requires SortedByT(s)
    ensures SortedByT(Insert(p, s))
    ensures Insert(p, s)[0] == (if |s| == 0 || p.t < s[0].t then p else s[0])
  {
    if |s| > 0 && p.t >= s[0].t {
      var rest := Insert(p, s[1..]);
      InsertSorted(p, s[1..]);
      assert s[0].t <= rest[0].t;
      var r := [s[0]] + rest;
      forall i, j | 0 <= i < j < |r| ensures r[i].t <= r[j].t {
        if i > 0 {
          assert r[i] == rest[i - 1] && r[j] == rest[j - 1];
        } else {
          assert r[j] == rest[j - 1];
        }
      }
    }
  }

  /** Inserting adds exactly p. */
  lemma {:induction false} InsertPermutes(p: Point, s: seq<Point>)
    ensures multiset(Insert(p, s)) == multiset(s) + multiset{p}
  {
    if |s| > 0 && p.t >= s[0].t {
      InsertPermutes(p, s[1..]);
      assert s == [s[0]] + s[1..];
    }
  }

  /** Inserting p adds p to the points with timestamp p.t, after them, and no other point. */
  lemma {:induction false} InsertWithT(p: Point, s: seq<Point>, k: int)
    requires SortedByT(s)
    ensures WithT(Insert(p, s), k) == WithT(s, k) + (if p.t == k then [p] else [])
  {
    if |s| == 0 {
      WithTCons(p, [], k);
    } else if p.t < s[0].t {
      InsertBeforeWithT(p, s, k);
    } else {
      var tail := s[1..];
      var ins := Insert(p, tail);
      var extra := if p.t == k then [p] else [];
      var head := if s[0].t == k then [s[0]] else [];
      assert WithT(ins, k) == WithT(tail, k) + extra by {
        SortedTail(s);
        InsertWithT(p, tail, k);
      }
      assert WithT(Insert(p, s), k) == head + WithT(ins, k) by {
        assert Insert(p, s) == [s[0]] + ins;
        WithTCons(s[0], ins, k);
      }
      assert WithT(s, k) == head + WithT(tail, k) by {
        assert s == [s[0]] + tail;
        WithTCons(s[0], tail, k);
      }
    }
  }

  lemma {:induction false} InsertBeforeWithT(p: Point, s: seq<Point>, k: int)
    requires SortedByT(s) && |s| > 0 && p.t < s[0].t
    ensures WithT(Insert(p, s), k) == WithT(s, k) + (if p.t == k then [p] else [])
  {
    assert Insert(p, s) == [p] + s;
    WithTCons(p, s, k);
    if p.t == k {
      SortedHeadLeast(s);
      WithTNone(s, k);
    }
  }

  lemma {:induction false} SortedHeadLeast(s: seq<Point>)
    requires SortedByT(s) && |s| > 0
    ensures forall i :: 0 <= i < |s| ==> s[0].t <= s[i].t
  {
  }

  lemma {:induction false} SortedTail(s: seq<Point>)
    requires SortedByT(s) && |s| > 0
    ensures SortedByT(s[1..])
  {
    assert forall i :: 0 <= i < |s| - 1 ==> s[1..][i] == s[i + 1];
  }

  lemma {:induction false} WithTCons(x: Point, s: seq<Point>, k: int)
    ensures WithT([x] + s, k) == (if x.t == k then [x] else []) + WithT(s, k)
  {
    assert ([x] + s)[1..] == s;
  }

  /** The stable sort by timestamp, as insertion sort: each point goes after the points already
      placed with an equal or smaller timestamp. The result is sorted, a permutation of the input,
      and keeps the input order of points with equal timestamps. */
  function SortByT(s: seq<Point>): (r: seq<Point>)
    ensures SortedByT(r)
    ensures multiset(r) == multiset(s)
    ensures |r| == |s|
  {
    if |s| == 0 then []
    else
      var init := s[..|s| - 1];
      var sorted := SortByT(init);
      SortStep(s, sorted);
      Insert(s[|s| - 1], sorted)
  }

  /** One insertion-sort step keeps the result sorted and a permutation of the input. */
  lemma {:induction false} SortStep(s: seq<Point>, sorted: seq<Point>)
    requires |s| > 0 && SortedByT(sorted) && multiset(sorted) == multiset(s[..|s| - 1])
    ensures SortedByT(Insert(s[|s| - 1], sorted))
    ensures multiset(Insert(s[|s| - 1], sorted)) == multiset(s)
  {
    var init := s[..|s| - 1];
    InsertSorted(s[|s| - 1], sorted);
    InsertPermutes(s[|s| - 1], sorted);
    assert s == init + [s[|s| - 1]];
  }

  /** Stability: for every timestamp, the points carrying it appear in the output in their input
      order. Together with sortedness and being a permutation this pins the output down. */
  lemma {:induction false} SortByTStable(s: seq<Point>, k: int)
    ensures WithT(SortByT(s), k) == WithT(s, k)
  {
    if |s| > 0 {
      var init := s[..|s| - 1];
      var p := s[|s| - 1];
      SortByTStable(init, k);
      InsertWithT(p, SortByT(init), k);
      WithTSnoc(s, k);
    }
  }

  lemma {:induction false} WithTSnoc(s: seq<Point>, k: int)
    requires |s| > 0
    ensures WithT(s, k) == WithT(s[..|s| - 1], k) + (if s[|s| - 1].t == k then [s[|s| - 1]] else [])
  {
    var p := s[|s| - 1];
    assert s == s[..|s| - 1] + [p];
    WithTConcat(s[..|s| - 1], [p], k);
    assert WithT([p], k) == (if p.t == k then [p] else []) + WithT([], k);
  }

  /** The first point with timestamp k is the first element of WithT(s, k). */
  lemma {:induction false} WithTFirst(s: seq<Point>, k: int, j: int)
    requires 0 <= j < |s| && s[j].t == k
    requires forall i :: 0 <= i < j ==> s[i].t != k
    ensures |WithT(s, k)| > 0 && WithT(s, k)[0] == s[j]
  {
    if j > 0 {
      WithTFirst(s[1..], k, j - 1);
    }
  }

  /** The last point with timestamp k is the last element of WithT(s, k). */
  lemma {:induction false} WithTLast(s: seq<Point>, k: int, j: int)
    requires 0 <= j < |s| && s[j].t == k
    requires forall i :: j < i < |s| ==> s[i].t != k
    ensures |WithT(s, k)| > 0 && WithT(s, k)[|WithT(s, k)| - 1] == s[j]
  {
    if j > 0 {
      WithTLast(s[1..], k, j - 1);
    } else {
      WithTNone(s[1..], k);
    }
  }

  /** j is the earliest point of b: no point is earlier, and none before j is as early. */
  predicate IsEarliest(b: seq<Point>, j: int) {
    && 0 <= j < |b|
    && (forall i :: 0 <= i < |b| ==> b[j].t <= b[i].t)
    && (forall i :: 0 <= i < j ==> b[i].t > b[j].t)
  }

  /** j is the latest point of b: no point is later, and none after j is as late. */
  predicate IsLatest(b: seq<Point>, j: int) {
    && 0 <= j < |b|
    && (forall i :: 0 <= i < |b| ==> b[i].t <= b[j].t)
    && (forall i :: j < i < |b| ==> b[i].t < b[j].t)
  }

  /** Every non-empty sequence has an earliest point, the first one with the least timestamp. */
  lemma {:induction false} EarliestExists(b: seq<Point>) returns (j: int)
    requires |b| > 0
    ensures IsEarliest(b, j)
  {
    if |b| == 1 {
      j := 0;
    } else {
      var j0 := EarliestExists(b[..|b| - 1]);
      if b[|b| - 1].t < b[j0].t {
        j := |b| - 1;
      } else {
        j := j0;
      }
    }
  }

  /** Every non-empty sequence has a latest point, the last one with the greatest timestamp. */
  lemma {:induction false} LatestExists(b: seq<Point>) returns (j: int)
    requires |b| > 0
    ensures IsLatest(b, j)
  {
    if |b| == 1 {
      j := 0;
    } else {
      var j0 := LatestExists(b[..|b| - 1]);
      if b[|b| - 1].t >= b[j0].t {
        j := |b| - 1;
      } else {
        j := j0;
      }
    }
  }

  /** A point of a permutation of b is a point of b. */
  lemma {:induction false} PermutedMember(s: seq<Point>, b: seq<Point>, i: int) returns (u: int)
    requires multiset(s) == multiset(b) && 0 <= i < |s|
    ensures 0 <= u < |b| && b[u] == s[i]
  {
    assert s[i] in multiset(s);
    assert s[i] in b;
    u :| 0 <= u < |b| && b[u] == s[i];
  }

  /** After the stable sort, the first point is the earliest point of the input. */
  lemma {:induction false} SortedFirstIsEarliest(b: seq<Point>) returns (j: int)
    requires |b| > 0
    ensures IsEarliest(b, j) && SortByT(b)[0] == b[j]
  {
    j := EarliestExists(b);
    var s := SortByT(b);
    var m := b[j].t;
    var u0 := PermutedMember(s, b, 0);
    var u := PermutedMember(b, s, j);
    assert s[0].t == m;
    WithTFirst(s, m, 0);
    WithTFirst(b, m, j);
    SortByTStable(b, m);
  }

  lemma {:induction false} SortedBelowLast(s: seq<Point>, u: int)
    requires SortedByT(s) && 0 <= u < |s|
    ensures s[u].t <= s[|s| - 1].t
  {
    if u < |s| - 1 {
      assert s[u].t <= s[|s| - 1].t;
    }
  }

  /** Two sequences with the same points at timestamp k have the same last such point. */
  lemma {:induction false} SameLastWithT(s: seq<Point>, b: seq<Point>, k: int, n: int, j: int)
    requires WithT(s, k) == WithT(b, k)
    requires 0 <= n < |s| && s[n].t == k && forall i :: n < i < |s| ==> s[i].t != k
    requires 0 <= j < |b| && b[j].t == k && forall i :: j < i < |b| ==> b[i].t != k
    ensures s[n] == b[j]
  {
    WithTLast(s, k, n);
    WithTLast(b, k, j);
  }

  /** After the stable sort, the last point is the latest point of the input. */
  lemma {:induction false} SortedLastIsLatest(b: seq<Point>) returns (j: int)
    requires |b| > 0
    ensures IsLatest(b, j) && SortByT(b)[|b| - 1] == b[j]
  {
    j := LatestExists(b);
    var s := SortByT(b);
    var m := b[j].t;
    var n := |s| - 1;
    assert s[n].t == m by {
      var un := PermutedMember(s, b, n);
      var u := PermutedMember(b, s, j);
      SortedBelowLast(s, u);
    }
    SortByTStable(b, m);
    SameLastWithT(s, b, m, n, j);
  }
}

=== FILE: seqs.dfy ===
/** Generic sequence operations shared by the dashboard's array pipelines:
    `filter`/`map` chains, `slice(0, n)` and `slice(-n)`. */
module Seqs {

  datatype Option<+T> = None | Some(value: T)

  /** `xs.map(f).filter(v => v != null)`: keep the present results, in input order. */
  function FilterMap<A, B>(xs: seq<A>, f: A -> Option<B>): (r: seq<B>)
    ensures |r| <= |xs|
    ensures forall i :: 0 <= i < |xs| && f(xs[i]).Some? ==> f(xs[i]).value in r
    ensures forall y :: y in r ==> exists i :: 0 <= i < |xs| && f(xs[i]) == Some(y)
    ensures (forall i :: 0 <= i < |xs| ==> f(xs[i]).Some?) ==>
              |r| == |xs| && forall i :: 0 <= i < |xs| ==> r[i] == f(xs[i]).value
  {
    if |xs| == 0 then []
    else
      var rest := FilterMap(xs[1..], f);
      assert forall i :: 1 <= i < |xs| ==> xs[i] == xs[1..][i - 1];
      match f(xs[0])
      case Some(y) => [y] + rest
      case None => rest
  }

  /** FilterMap distributes over concatenation: it keeps the relative order of its input. */
  lemma {:induction false} FilterMapConcat<A, B>(a: seq<A>, b: seq<A>, f: A -> Option<B>)
    ensures FilterMap(a + b, f) == FilterMap(a, f) + FilterMap(b, f)
  {
    if |a| == 0 {
      assert a + b == b;
    } else {
      assert (a + b)[1..] == a[1..] + b;
      FilterMapConcat(a[1..], b, f);
    }
  }

  /** A non-empty sequence is its prefix followed by its last element. */
  lemma InitLast<T>(s: seq<T>)
    requires |s| > 0
    ensures s == s[..|s| - 1] + [s[|s| - 1]]
  {
  }

  /** Cutting a concatenation at the length of its first part gives that part back. */
  lemma PrefixOfAppend<T>(x: seq<T>, y: seq<T>)
    ensures (x + y)[..|x|] == x
  {
  }

  /** Dropping the last element of a concatenation with a non-empty second part drops it from
      the second part. */
  lemma ConcatInit<T>(a: seq<T>, b: seq<T>)
    requires |b| > 0
    ensures (a + b)[..|a + b| - 1] == a + b[..|b| - 1]
    ensures (a + b)[|a + b| - 1] == b[|b| - 1]
  {
  }

  lemma AppendNothing<T>(a: seq<T>)
    ensures a + [] == a
  {
  }

  /** `xs.slice(0, n)`: the first n elements, or all of them when there are fewer. */
  function Take<T>(xs: seq<T>, n: nat): (r: seq<T>)
    ensures |r| == if |xs| <= n then |xs| else n
    ensures r == xs[..|r|]
  {
    if |xs| <= n then xs else xs[..n]
  }

  /** `xs.slice(-n)` for n > 0, and the charts helper `tail(arr, n)`: the whole array when it has
      at most n elements, otherwise its last n elements. */
  function TakeLast<T>(xs: seq<T>, n: nat): (r: seq<T>)
    ensures |r| == if |xs| <= n then |xs| else n
    ensures r == xs[|xs| - |r|..]
  {
    if |xs| <= n then xs else xs[|xs| - n..]
  }

  /** Taking the last n elements of a longer sequence ignores everything before its final n. */
  lemma {:induction false} TakeLastOfConcat<T>(a: seq<T>, b: seq<T>, n: nat)
    requires n <= |b|
    ensures TakeLast(a + b, n) == TakeLast(b, n)
  {
    assert (a + b)[|a + b| - n..] == b[|b| - n..];
  }

  /** The defined values of f over the last n elements of xs, in order: the shape of
      `xs.slice(-n).map(f).filter(v => v != null)`. */
  function FilterMapLast<A, B>(xs: seq<A>, n: nat, f: A -> Option<B>): (r: seq<B>)
    ensures |r| <= n
    ensures forall i :: 0 <= i < |r| ==>
              exists j :: |xs| - n <= j < |xs| && 0 <= j && f(xs[j]) == Some(r[i])
    ensures forall j :: |xs| - n <= j < |xs| && 0 <= j && f(xs[j]).Some? ==> f(xs[j]).value in r
  {
    var recent := TakeLast(xs, n);
    var r := FilterMap(recent, f);
    forall i | 0 <= i < |r|
      ensures exists j :: |xs| - n <= j < |xs| && 0 <= j && f(xs[j]) == Some(r[i])
    {
      assert r[i] in r;
      var k :| 0 <= k < |recent| && f(recent[k]) == Some(r[i]);
      assert recent[k] == xs[|xs| - |recent| + k];
    }
    forall j | |xs| - n <= j < |xs| && 0 <= j && f(xs[j]).Some?
      ensures f(xs[j]).value in r
    {
      assert recent[j - (|xs| - |recent|)] == xs[j];
    }
    r
  }

  /** Within the window the values keep their order: the series of a + b is the series of a
      followed by that of b, whatever a and b skip. */
  lemma {:induction false} FilterMapLastConcat<A, B>(a: seq<A>, b: seq<A>, n: nat, f: A -> Option<B>)
    requires |a| + |b| <= n
    ensures FilterMapLast(a + b, n, f) == FilterMapLast(a, n, f) + FilterMapLast(b, n, f)
  {
    assert TakeLast(a + b, n) == a + b;
    assert TakeLast(a, n) == a;
    assert TakeLast(b, n) == b;
    FilterMapConcat(a, b, f);
  }

  /** A single element contributes its value, or nothing. */
  lemma {:induction false} FilterMapLastSingle<A, B>(x: A, n: nat, f: A -> Option<B>)
    requires n >= 1
    ensures FilterMapLast([x], n, f) == if f(x).Some? then [f(x).value] else []
  {
    assert TakeLast([x], n) == [x];
    assert FilterMap([x], f) == FilterMap([], f) + (if f(x).Some? then [f(x).value] else []) by {
      FilterMapConcat([], [x], f);
    }
  }

  /** Elements before the last n do not matter. */
  lemma {:induction false} FilterMapLastIgnoresOlder<A, B>(older: seq<A>, recent: seq<A>, n: nat, f: A -> Option<B>)
    requires |recent| >= n
    ensures FilterMapLast(older + recent, n, f) == FilterMapLast(recent, n, f)
  {
    TakeLastOfConcat(older, recent, n);
  }

  /** When f is defined on every element, the result is f over exactly the last n elements. */
  lemma {:induction false} FilterMapLastAllDefined<A, B>(xs: seq<A>, n: nat, f: A -> Option<B>)
    requires forall j :: 0 <= j < |xs| ==> f(xs[j]).Some?
    ensures |FilterMapLast(xs, n, f)| == |TakeLast(xs, n)|
    ensures forall i :: 0 <= i < |TakeLast(xs, n)| ==>
              FilterMapLast(xs, n, f)[i] == f(xs[|xs| - |TakeLast(xs, n)| + i]).value
  {
    var recent := TakeLast(xs, n);
    assert forall i :: 0 <= i < |recent| ==> recent[i] == xs[|xs| - |recent| + i];
  }

  /** When f is defined on the last element, the last value is f of it. */
  lemma {:induction false} FilterMapLastNewest<A, B>(xs: seq<A>, n: nat, f: A -> Option<B>)
    requires |xs| > 0 && n > 0 && f(xs[|xs| - 1]).Some?
    ensures |FilterMapLast(xs, n, f)| > 0
    ensures FilterMapLast(xs, n, f)[|FilterMapLast(xs, n, f)| - 1] == f(xs[|xs| - 1]).value
  {
    var recent := TakeLast(xs, n);
    var init := recent[..|recent| - 1];
    assert recent == init + [xs[|xs| - 1]];
    FilterMapConcat(init, [xs[|xs| - 1]], f);
  }
}

=== FILE: text.dfy ===
/** String operations the dashboard relies on: `trim`, ASCII case mapping, `includes`,
    `startsWith`, `replace(/,/g, "")` and the two `split` flavours (one character, and a regular
    expression matching runs of separator characters). Strings are sequences of characters. */
module Text {
  import opened Seqs

  /** The characters `String.prototype.trim` removes: ECMAScript WhiteSpace and LineTerminator. */
  predicate IsSpace(c: char) {
    || c == ' ' || c == '\t' || c == '\n' || c == '\r' || c == '\U{000B}' || c == '\U{000C}'
    || c == '\U{00A0}' || c == '\U{1680}' || ('\U{2000}' <= c <= '\U{200A}')
    || c == '\U{2028}' || c == '\U{2029}' || c == '\U{202F}' || c == '\U{205F}'
    || c == '\U{3000}' || c == '\U{FEFF}'
  }

  function TrimStart(s: string): (r: string)
    ensures |r| <= |s| && r == s[|s| - |r|..]
    ensures |r| == 0 || !IsSpace(r[0])
    ensures forall i :: 0 <= i < |s| - |r| ==> IsSpace(s[i])
  {
    if |s| > 0 && IsSpace(s[0]) then
      var r := TrimStart(s[1..]);
      assert s[1..][|s| - 1 - |r|..] == s[|s| - |r|..];
      r
    else s
  }

  function TrimEnd(s: string): (r: string)
    ensures |r| <= |s| && r == s[..|r|]
    ensures |r| == 0 || !IsSpace(r[|r| - 1])
    ensures forall i :: |r| <= i < |s| ==> IsSpace(s[i])
  {
    if |s| > 0 && IsSpace(s[|s| - 1]) then TrimEnd(s[..|s| - 1]) else s
  }

  /** r occurs in s at position i. */
  predicate InfixAt(s: string, r: string, i: int) {
    0 <= i && i + |r| <= |s| && s[i..i + |r|] == r
  }

  /** `s.trim()`: drop the white space at both ends. */
  function Trim(s: string): (r: string)
    ensures Unpadded(r)
    ensures |r| <= |s|
  {
    TrimEnd(TrimStart(s))
  }

  /** r is the infix of s at i with only white space before and after it. */
  predicate TrimsTo(s: string, r: string, i: int) {
    && InfixAt(s, r, i)
    && (forall k :: 0 <= k < i ==> IsSpace(s[k]))
    && (forall k :: i + |r| <= k < |s| ==> IsSpace(s[k]))
  }

  /** Trim keeps the infix of s between its leading and its trailing white space. */
  lemma {:induction false} TrimIsInfix(s: string)
    ensures exists i :: TrimsTo(s, Trim(s), i)
  {
    var a := TrimStart(s);
    var r := TrimEnd(a);
    var i := |s| - |a|;
    assert InfixAt(s, r, i) by {
      assert s[i..i + |r|] == s[i..][..|r|];
    }
    assert forall k :: i + |r| <= k < |s| ==> IsSpace(s[k]) by {
      forall k | i + |r| <= k < |s| ensures IsSpace(s[k]) {
        assert s[k] == a[k - i];
      }
    }
    assert TrimsTo(s, r, i);
    assert Trim(s) == r;
  }

  /** Neither starts nor ends with white space. */
  predicate Unpadded(s: string) {
    |s| == 0 || (!IsSpace(s[0]) && !IsSpace(s[|s| - 1]))
  }

  /** Trimming leaves s as it is. */
  predicate IsTrimmed(s: string) {
    Trim(s) == s
  }

  /** A string without white space at either end is already trimmed, and only such a string is. */
  lemma {:induction false} TrimmedIffUnpadded(s: string)
    ensures IsTrimmed(s) <==> Unpadded(s)
  {
    if Unpadded(s) {
      assert TrimStart(s) == s;
      assert TrimEnd(s) == s;
    }
  }

  /** Trimming twice is trimming once. */
  lemma {:induction false} TrimIdempotent(s: string)
    ensures IsTrimmed(Trim(s))
  {
    TrimmedIffUnpadded(Trim(s));
  }

  /** A string made only of white space trims to the empty string, and only such a string does. */
  lemma {:induction false} TrimEmptyIffBlank(s: string)
    ensures Trim(s) == "" <==> forall k :: 0 <= k < |s| ==> IsSpace(s[k])
  {
    TrimIsInfix(s);
    var i :| TrimsTo(s, Trim(s), i);
    if Trim(s) != "" {
      assert Trim(s)[0] == s[i];
    }
  }

  /** Trimming only removes characters: a trimmed string has no character its source lacked. */
  lemma {:induction false} TrimKeepsCharacters(s: string, seps: set<char>)
    requires NoneIn(s, seps)
    ensures NoneIn(Trim(s), seps)
  {
    TrimIsInfix(s);
    var i :| TrimsTo(s, Trim(s), i);
    InfixKeepsNoneIn(s, Trim(s), i, seps);
  }

  lemma {:induction false} InfixKeepsNoneIn(s: string, r: string, i: int, seps: set<char>)
    requires InfixAt(s, r, i) && NoneIn(s, seps)
    ensures NoneIn(r, seps)
  {
    forall k | 0 <= k < |r| ensures r[k] !in seps {
      assert r[k] == s[i..i + |r|][k] == s[i + k];
    }
  }

  function LowerChar(c: char): char {
    if 'A' <= c <= 'Z' then (c as int + 32) as char else c
  }

  function UpperChar(c: char): char {
    if 'a' <= c <= 'z' then (c as int - 32) as char else c
  }

  /** `s.toLowerCase()` restricted to ASCII letters. */
  function ToLower(s: string): (r: string)
    ensures |r| == |s|
    ensures forall i :: 0 <= i < |s| ==> !('A' <= r[i] <= 'Z')
    ensures forall i :: 0 <= i < |s| ==> UpperChar(r[i]) == UpperChar(s[i])
  {
    seq(|s|, i requires 0 <= i < |s| => LowerChar(s[i]))
  }

  /** `s.toUpperCase()` restricted to ASCII letters. */
  function ToUpper(s: string): (r: string)
    ensures |r| == |s|
    ensures forall i :: 0 <= i < |s| ==> !('a' <= r[i] <= 'z')
    ensures forall i :: 0 <= i < |s| ==> LowerChar(r[i]) == LowerChar(s[i])
  {
    seq(|s|, i requires 0 <= i < |s| => UpperChar(s[i]))
  }

  /** Lower-casing forgets an upper-casing: `s.toUpperCase().toLowerCase() == s.toLowerCase()`. */
  lemma {:induction false} LowerOfUpper(s: string)
    ensures ToLower(ToUpper(s)) == ToLower(s)
  {
    assert forall i :: 0 <= i < |s| ==> ToLower(ToUpper(s))[i] == ToLower(s)[i];
  }

  predicate StartsWith(s: string, prefix: string) {
    |prefix| <= |s| && s[..|prefix|] == prefix
  }

  /** `s.includes(sub)`, computed by scanning the start positions left to right. */
  function Contains(s: string, sub: string): (r: bool)
    ensures r <==> exists i :: InfixAt(s, sub, i)
  {
    if |sub| > |s| then false
    else if s[..|sub|] == sub then
      assert InfixAt(s, sub, 0);
      true
    else
      var r := Contains(s[1..], sub);
      assert forall i :: InfixAt(s[1..], sub, i) ==> InfixAt(s, sub, i + 1);
      assert forall i :: InfixAt(s, sub, i) && i >= 1 ==> InfixAt(s[1..], sub, i - 1);
      r
  }

  /** A text lacking one of the characters of sub does not contain sub. */
  lemma {:induction false} MissingCharNotContained(s: string, sub: string, c: char)
    requires c in sub && c !in s
    ensures !Contains(s, sub)
  {
    var k :| 0 <= k < |sub| && sub[k] == c;
    forall i
      ensures !InfixAt(s, sub, i)
    {
      if 0 <= i && i + |sub| <= |s| {
        assert s[i..i + |sub|][k] == s[i + k];
      }
    }
  }

  /** Lower-casing leaves text without capitals alone. */
  lemma {:induction false} ToLowerOfLower(s: string)
    requires forall i :: 0 <= i < |s| ==> !('A' <= s[i] <= 'Z')
    ensures ToLower(s) == s
  {
  }

  /** Lower-casing works character by character, so it distributes over concatenation. */
  lemma {:induction false} ToLowerConcat(a: string, b: string)
    ensures ToLower(a + b) == ToLower(a) + ToLower(b)
  {
    assert forall i :: 0 <= i < |a + b| ==> ToLower(a + b)[i] == (ToLower(a) + ToLower(b))[i];
  }

  /** Text around an occurrence does not hide it. */
  lemma {:induction false} ContainsInContext(a: string, s: string, b: string, sub: string)
    requires Contains(s, sub)
    ensures Contains(a + s + b, sub)
  {
    var i :| InfixAt(s, sub, i);
    assert (a + s + b)[|a| + i..|a| + i + |sub|] == s[i..i + |sub|];
    assert InfixAt(a + s + b, sub, |a| + i);
  }

  function Digit(d: nat): char
    requires d < 10
  {
    (48 + d) as char
  }

  /** `${n}` for a non-negative integer below 10^21: its decimal digits, most significant first,
      without leading zeros. */
  function Decimal(n: nat): (r: string)
    ensures |r| >= 1
    ensures forall i :: 0 <= i < |r| ==> '0' <= r[i] <= '9'
    ensures |r| > 1 ==> r[0] != '0'
  {
    if n < 10 then [Digit(n)] else Decimal(n / 10) + [Digit(n % 10)]
  }

  /** `${n}` for an integer n of magnitude below 10^21. */
  function IntText(n: int): (r: string)
    ensures n >= 0 ==> r == Decimal(n)
    ensures n < 0 ==> r == "-" + Decimal(-n)
  {
    if n >= 0 then Decimal(n) else "-" + Decimal(-n)
  }

  /** The number a string of decimal digits denotes. */
  function DigitsValue(s: string): nat
    requires forall i :: 0 <= i < |s| ==> '0' <= s[i] <= '9'
  {
    if |s| == 0 then 0 else DigitsValue(s[..|s| - 1]) * 10 + (s[|s| - 1] as int - 48)
  }

  /** Reading the digits back gives the number: distinct numbers have distinct texts. */
  lemma {:induction false} DecimalRoundTrip(n: nat)
    ensures DigitsValue(Decimal(n)) == n
  {
    if n >= 10 {
      var r := Decimal(n);
      DecimalRoundTrip(n / 10);
      assert r[..|r| - 1] == Decimal(n / 10);
    }
  }

  /** `s.replace(/,/g, "")`. */
  function StripCommas(s: string): (r: string)
    ensures ',' !in r
    ensures |r| <= |s|
    ensures forall c :: c != ',' ==> multiset(r)[c] == multiset(s)[c]
  {
    if |s| == 0 then ""
    else
      var rest := StripCommas(s[1..]);
      assert s == [s[0]] + s[1..];
      if s[0] == ',' then rest else [s[0]] + rest
  }

  /** Removing commas commutes with concatenation; a string without commas is left alone. */
  lemma {:induction false} StripCommasConcat(a: string, b: string)
    ensures StripCommas(a + b) == StripCommas(a) + StripCommas(b)
  {
    if |a| == 0 {
      assert a + b == b;
    } else {
      assert (a + b)[1..] == a[1..] + b;
      StripCommasConcat(a[1..], b);
    }
  }

  /** An inserted comma disappears. */
  lemma {:induction false} StripInsertedComma(a: string, b: string)
    ensures StripCommas(a + "," + b) == StripCommas(a + b)
  {
    StripCommasConcat(a + ",", b);
    StripCommasConcat(a, ",");
    StripCommasConcat(a, b);
    assert StripCommas(",") == "";
  }

  lemma {:induction false} StripCommasNoComma(s: string)
    requires ',' !in s
    ensures StripCommas(s) == s
  {
    if |s| > 0 {
      StripCommasNoComma(s[1..]);
    }
  }

  predicate NoneIn(s: string, seps: set<char>) {
    forall k :: 0 <= k < |s| ==> s[k] !in seps
  }

  /** Extends the pieces of a split by one more character d. */
  function Push(pieces: seq<string>, d: char, seps: set<char>): seq<string>
    requires |pieces| >= 1
  {
    if d in seps then pieces + [""]
    else pieces[..|pieces| - 1] + [pieces[|pieces| - 1] + [d]]
  }

  /** `s.split(c)` for a single separator character c, generalised to any character of `seps`:
      the maximal separator-free pieces, including empty ones between adjacent separators. */
  function SplitAny(s: string, seps: set<char>): (r: seq<string>)
    ensures |r| >= 1
    ensures PiecesFree(r, seps)
  {
    if |s| == 0 then [""]
    else
      var init := SplitAny(s[..|s| - 1], seps);
      PushKeepsFree(init, s[|s| - 1], seps);
      Push(init, s[|s| - 1], seps)
  }

  /** `s.split(/[...]+/)` where the character class is `seps`: a run of separators cuts only once. */
  function SplitRuns(s: string, seps: set<char>): (r: seq<string>)
    ensures |r| >= 1
    ensures PiecesFree(r, seps)
  {
    if |s| == 0 then [""]
    else
      var init := SplitRuns(s[..|s| - 1], seps);
      if s[|s| - 1] in seps && |s| >= 2 && s[|s| - 2] in seps then init
      else
        PushKeepsFree(init, s[|s| - 1], seps);
        Push(init, s[|s| - 1], seps)
  }

  /** Every piece of a split is free of separators. */
  predicate PiecesFree(pieces: seq<string>, seps: set<char>) {
    forall i :: 0 <= i < |pieces| ==> NoneIn(pieces[i], seps)
  }

  /** Pushing a character keeps the pieces free of separators. */
  lemma PushKeepsFree(pieces: seq<string>, d: char, seps: set<char>)
    requires |pieces| >= 1 && PiecesFree(pieces, seps)
    ensures PiecesFree(Push(pieces, d, seps), seps)
  {
    var r := Push(pieces, d, seps);
    forall i | 0 <= i < |r| ensures NoneIn(r[i], seps) {
      if d in seps {
        if i < |pieces| {
          assert r[i] == pieces[i];
        }
      } else if i < |pieces| - 1 {
        assert r[i] == pieces[i];
      } else {
        var last := pieces[|pieces| - 1];
        assert r[i] == last + [d];
        assert NoneIn(last, seps);
      }
    }
  }

  lemma {:induction false} SplitAnySnoc(s: string, d: char, seps: set<char>)
    ensures SplitAny(s + [d], seps) == Push(SplitAny(s, seps), d, seps)
  {
    assert (s + [d])[..|s|] == s;
  }

  /** Pushing a character only touches the last piece. */
  lemma {:induction false} PushAppend(x: seq<string>, y: seq<string>, d: char, seps: set<char>)
    requires |y| >= 1
    ensures Push(x + y, d, seps) == x + Push(y, d, seps)
  {
    if d !in seps {
      var xy := x + y;
      assert xy[..|xy| - 1] == x + y[..|y| - 1];
    }
  }

  /** `parts.join(c)`. */
  function Join(parts: seq<string>, c: char): string {
    if |parts| == 0 then ""
    else if |parts| == 1 then parts[0]
    else Join(parts[..|parts| - 1], c) + [c] + parts[|parts| - 1]
  }

  lemma {:induction false} JoinSnoc(parts: seq<string>, p: string, c: char)
    requires |parts| >= 1
    ensures Join(parts + [p], c) == Join(parts, c) + [c] + p
  {
    assert (parts + [p])[..|parts|] == parts;
  }

  /** Appending a character to the last piece appends it to the joined string. */
  lemma {:induction false} JoinExtendLast(parts: seq<string>, d: char, c: char)
    requires |parts| >= 1
    ensures Join(parts[..|parts| - 1] + [parts[|parts| - 1] + [d]], c) == Join(parts, c) + [d]
  {
    var n := |parts|;
    if n > 1 {
      JoinSnoc(parts[..n - 1], parts[n - 1] + [d], c);
      JoinSnoc(parts[..n - 1], parts[n - 1], c);
      assert parts[..n - 1] + [parts[n - 1]] == parts;
    }
  }

  /** Splitting on one character and joining back with it gives the original string. */
  lemma {:induction false} SplitJoin(s: string, c: char)
    ensures Join(SplitAny(s, {c}), c) == s
  {
    if |s| > 0 {
      var p := s[..|s| - 1];
      var d := s[|s| - 1];
      SplitJoin(p, c);
      assert s == p + [d];
      SplitAnySnoc(p, d, {c});
      var init := SplitAny(p, {c});
      if d == c {
        JoinSnoc(init, "", c);
      } else {
        JoinExtendLast(init, d, c);
      }
    }
  }

  /** Splitting at a separator splits the pieces: the separator contributes the boundary. */
  lemma {:induction false} SplitAnyConcat(a: string, c: char, b: string, seps: set<char>)
    requires c in seps
    ensures SplitAny(a + [c] + b, seps) == SplitAny(a, seps) + SplitAny(b, seps)
  {
    if |b| == 0 {
      assert a + [c] + b == a + [c];
      SplitAnySnoc(a, c, seps);
    } else {
      var b' := b[..|b| - 1];
      var d := b[|b| - 1];
      SplitAnyConcat(a, c, b', seps);
      assert a + [c] + b == (a + [c] + b') + [d];
      assert b == b' + [d];
      SplitAnySnoc(a + [c] + b', d, seps);
      SplitAnySnoc(b', d, seps);
      PushAppend(SplitAny(a, seps), SplitAny(b', seps), d, seps);
    }
  }

  /** The trimmed, non-blank pieces, in order: `.map(s => s.trim()).filter(Boolean)`. */
  function NonBlank(pieces: seq<string>): (r: seq<string>)
    ensures |r| <= |pieces|
  {
    if |pieces| == 0 then []
    else NonBlank(pieces[..|pieces| - 1]) + TrimmedToken(pieces[|pieces| - 1])
  }

  /** The token a single piece contributes: its trim, unless that is empty. */
  function TrimmedToken(piece: string): (r: seq<string>)
    ensures |r| <= 1
    ensures forall i :: 0 <= i < |r| ==> r[i] != "" && r[i] == Trim(piece)
  {
    var t := Trim(piece);
    if t == "" then [] else [t]
  }

  /** Every piece NonBlank keeps is non-empty and trimmed. */
  lemma {:induction false} NonBlankTrimmed(pieces: seq<string>)
    ensures forall i :: 0 <= i < |NonBlank(pieces)| ==>
              NonBlank(pieces)[i] != "" && IsTrimmed(NonBlank(pieces)[i])
  {
    if |pieces| > 0 {
      var n := |pieces| - 1;
      NonBlankTrimmed(pieces[..n]);
      TrimIdempotent(pieces[n]);
      var init := NonBlank(pieces[..n]);
      var last := TrimmedToken(pieces[n]);
      forall i | 0 <= i < |init + last|
        ensures (init + last)[i] != "" && IsTrimmed((init + last)[i])
      {
        if i < |init| {
          assert (init + last)[i] == init[i];
        } else {
          assert (init + last)[i] == last[i - |init|];
        }
      }
    }
  }

  /** NonBlank keeps the relative order of the pieces it keeps. */
  lemma {:induction false} NonBlankConcat(a: seq<string>, b: seq<string>)
    ensures NonBlank(a + b) == NonBlank(a) + NonBlank(b)
  {
    if |b| == 0 {
      AppendNothing(a);
    } else {
      ConcatInit(a, b);
      NonBlankConcat(a, b[..|b| - 1]);
    }
  }

  /** A non-blank piece keeps no character its source piece was free of. */
  lemma {:induction false} NonBlankSeparatorFree(pieces: seq<string>, seps: set<char>)
    requires forall i :: 0 <= i < |pieces| ==> NoneIn(pieces[i], seps)
    ensures forall i :: 0 <= i < |NonBlank(pieces)| ==> NoneIn(NonBlank(pieces)[i], seps)
  {
    if |pieces| > 0 {
      var n := |pieces| - 1;
      forall i | 0 <= i < n ensures NoneIn(pieces[..n][i], seps) {
        assert pieces[..n][i] == pieces[i];
      }
      NonBlankSeparatorFree(pieces[..n], seps);
      TrimKeepsCharacters(pieces[n], seps);
      var init := NonBlank(pieces[..n]);
      var last := TrimmedToken(pieces[n]);
      assert forall i :: 0 <= i < |last| ==> NoneIn(last[i], seps);
      assert forall i :: 0 <= i < |init + last| ==>
        (init + last)[i] == if i < |init| then init[i] else last[i - |init|];
    }
  }

  lemma {:induction false} NonBlankSplitLast(xs: seq<string>)
    requires |xs| >= 1
    ensures NonBlank(xs) == NonBlank(xs[..|xs| - 1]) + NonBlank([xs[|xs| - 1]])
  {
    var x := xs[|xs| - 1];
    assert [x][..0] == [];
    assert NonBlank([x]) == NonBlank([]) + TrimmedToken(x);
  }

  lemma {:induction false} EmptyPieceIsBlank()
    ensures NonBlank([""]) == []
  {
    TrimEmptyIffBlank("");
  }

  /** The two splits agree on their last piece and on the non-blank pieces before it. */
  predicate SameNonBlank(r: seq<string>, a: seq<string>)
    requires |r| >= 1 && |a| >= 1
  {
    && r[|r| - 1] == a[|a| - 1]
    && NonBlank(r[..|r| - 1]) == NonBlank(a[..|a| - 1])
  }

  /** Splitting on runs of separators and on single separators keep the same non-blank pieces: the
      extra pieces the single-character split produces are all empty. */
  lemma {:induction false} RunsAndSinglesAgree(s: string, seps: set<char>)
    ensures NonBlank(SplitRuns(s, seps)) == NonBlank(SplitAny(s, seps))
  {
    RunsAndSinglesInvariant(s, seps);
    NonBlankSplitLast(SplitRuns(s, seps));
    NonBlankSplitLast(SplitAny(s, seps));
  }

  lemma {:induction false} RunsAndSinglesInvariant(s: string, seps: set<char>)
    ensures SameNonBlank(SplitRuns(s, seps), SplitAny(s, seps))
    ensures |s| > 0 && s[|s| - 1] in seps ==> SplitRuns(s, seps)[|SplitRuns(s, seps)| - 1] == ""
  {
    if |s| > 0 {
      var p := s[..|s| - 1];
      InitLast(s);
      RunsAndSinglesInvariant(p, seps);
      RunsAndSinglesStep(p, s[|s| - 1], seps);
    }
  }

  /** One more character keeps the two splits in agreement. */
  lemma {:induction false} RunsAndSinglesStep(p: string, c: char, seps: set<char>)
    requires SameNonBlank(SplitRuns(p, seps), SplitAny(p, seps))
    requires |p| > 0 && p[|p| - 1] in seps ==> SplitRuns(p, seps)[|SplitRuns(p, seps)| - 1] == ""
    ensures SameNonBlank(SplitRuns(p + [c], seps), SplitAny(p + [c], seps))
    ensures c in seps ==> SplitRuns(p + [c], seps)[|SplitRuns(p + [c], seps)| - 1] == ""
  {
    var r0 := SplitRuns(p, seps);
    var a0 := SplitAny(p, seps);
    SplitAnySnoc(p, c, seps);
    SplitRunsSnoc(p, c, seps);
    if c !in seps {
      OrdinaryCharacterAgrees(r0, a0, c, seps);
    } else if |p| >= 1 && p[|p| - 1] in seps {
      SecondSeparatorAgrees(r0, a0, c, seps);
    } else {
      FirstSeparatorAgrees(r0, a0, c, seps);
    }
  }

  /** An ordinary character extends the last piece of both splits. */
  lemma {:induction false} OrdinaryCharacterAgrees(r0: seq<string>, a0: seq<string>, c: char, seps: set<char>)
    requires |r0| >= 1 && |a0| >= 1 && SameNonBlank(r0, a0) && c !in seps
    ensures SameNonBlank(Push(r0, c, seps), Push(a0, c, seps))
  {
    PrefixOfAppend(r0[..|r0| - 1], [r0[|r0| - 1] + [c]]);
    PrefixOfAppend(a0[..|a0| - 1], [a0[|a0| - 1] + [c]]);
  }

  /** A separator right after a separator adds an empty piece to the single-character split only;
      the other split already ends in an empty piece. */
  lemma {:induction false} SecondSeparatorAgrees(r0: seq<string>, a0: seq<string>, c: char, seps: set<char>)
    requires |r0| >= 1 && |a0| >= 1 && SameNonBlank(r0, a0) && c in seps && r0[|r0| - 1] == ""
    ensures SameNonBlank(r0, Push(a0, c, seps))
  {
    PrefixOfAppend(a0, [""]);
    NonBlankSplitLast(a0);
    EmptyPieceIsBlank();
  }

  /** The first separator of a run starts a new, empty piece in both splits. */
  lemma {:induction false} FirstSeparatorAgrees(r0: seq<string>, a0: seq<string>, c: char, seps: set<char>)
    requires |r0| >= 1 && |a0| >= 1 && SameNonBlank(r0, a0) && c in seps
    ensures SameNonBlank(Push(r0, c, seps), Push(a0, c, seps))
  {
    PrefixOfAppend(r0, [""]);
    PrefixOfAppend(a0, [""]);
    NonBlankSplitLast(r0);
    NonBlankSplitLast(a0);
  }

  /** SplitRuns of a string extended by one character. */
  lemma SplitRunsSnoc(p: string, c: char, seps: set<char>)
    ensures SplitRuns(p + [c], seps) ==
      if c in seps && |p| >= 1 && p[|p| - 1] in seps then SplitRuns(p, seps)
      else Push(SplitRuns(p, seps), c, seps)
  {
    var s := p + [c];
    assert s[..|s| - 1] == p;
    if |p| >= 1 {
      assert s[|s| - 2] == p[|p| - 1];
    }
  }

  /** A string without separators is a single piece. */
  lemma {:induction false} SplitAnyNoSeparator(s: string, seps: set<char>)
    requires NoneIn(s, seps)
    ensures SplitAny(s, seps) == [s]
  {
    if |s| > 0 {
      SplitAnyNoSeparator(s[..|s| - 1], seps);
      assert s == s[..|s| - 1] + [s[|s| - 1]];
    }
  }

  /** The non-blank tokens of `raw.split(/[<seps>]+/).map(trim).filter(Boolean)`. */
  function Tokens(raw: string, seps: set<char>): (r: seq<string>)
    ensures forall i :: 0 <= i < |r| ==> r[i] != "" && IsTrimmed(r[i]) && NoneIn(r[i], seps)
  {
    NonBlankSeparatorFree(SplitRuns(raw, seps), seps);
    NonBlankTrimmed(SplitRuns(raw, seps));
    NonBlank(SplitRuns(raw, seps))
  }

  /** Tokenising a concatenation at a separator concatenates the tokens: order is kept and nothing
      crosses the separator. */
  lemma {:induction false} TokensConcat(a: string, c: char, b: string, seps: set<char>)
    requires c in seps
    ensures Tokens(a + [c] + b, seps) == Tokens(a, seps) + Tokens(b, seps)
  {
    RunsAndSinglesAgree(a + [c] + b, seps);
    RunsAndSinglesAgree(a, seps);
    RunsAndSinglesAgree(b, seps);
    SplitAnyConcat(a, c, b, seps);
    NonBlankConcat(SplitAny(a, seps), SplitAny(b, seps));
  }

  /** A separator-free string yields its trim as the single token, or nothing if it is blank. */
  lemma {:induction false} TokensOfPiece(s: string, seps: set<char>)
    requires NoneIn(s, seps)
    ensures Tokens(s, seps) == if Trim(s) == "" then [] else [Trim(s)]
  {
    RunsAndSinglesAgree(s, seps);
    SplitAnyNoSeparator(s, seps);
  }
}
